=== FILE: README.md ===
# Quran reader stores, modelled in Dafny

This project models the client-side core of a Quran-reading web application
built on Vue and Pinia. The application browses the Quran by chapter (surah),
by juz and by mushaf page, shows verse translations and tafsir, and plays
chapter recitations, all fetched from a remote REST API.

The model covers:

- **The state stores.**
  - Two chapter catalogues: `ChapterStore` and `SurahStore`.
  - The juz catalogue (`JuzStore`) and the page list (`PageStore`).
  - The audio player (`AudioPlayerStore`).
  - The translation selection (`TranslationsStore`).
  - The tafsir store (`TafsirStore`).
- **The helpers the stores use.** These are the string, number, date, interval, verse and reciter utilities, the locale table, the i18n plugin and the URL builders.

The stores are shaped as follows:

- Each store is a class whose fields are the store's refs.
- Each computed value is a function of those fields.
- Each watcher is a method that the caller invokes with the new watched value.
- Each asynchronous action is split at its `await`:
  - a `Get…` method makes the state changes that happen before the request, and returns the request it would send;
  - a `Receive…` method runs the `.then`/`.catch`/`.finally` part on a response it is given. The response is either a body or a network error.

Verses fetched for a chapter, juz or page are merged one at a time, as the `forEach` in the source does:

- `SurahStore` and `JuzStore` skip a verse whose `verse_key` is already held.
- `ChapterStore` skips a verse when a held verse's `id` equals the chapter id.
- `PageStore` never skips a verse.

Each of these merges is proved against a description of its result. The lemmas then state what the stores promise: the chapter they pick, the keys they hold, the order they list in, and the reciter and chapter the player moves to.

Pure helpers are functions, each with a reference definition or an inverse and a lemma connecting the two. The code that loops becomes methods with loop invariants:

- `ltrim`/`rtrim`;
- `getMonthsInYear`;
- the verse merges of the stores.

## Model

| member | source | states |
|---|---|---|
| Wrappers.OrDefault | src/stores/ChapterStore.ts:95-96 | a missing or zero page/limit takes the fallback; any other value is kept (the same `x ? x : fallback` in all three verse-fetching stores) |
| Chapters.FindChapter | src/stores/ChapterStore.ts:103 | the index found is that of the first chapter whose id equals the number; none is found iff no chapter has it |
| Chapters.AddChapters | src/stores/ChapterStore.ts:56-76 | the list keeps its old entries as prefix and gains one chapter per fetched record, in order |
| Chapters.SearchChapters | src/stores/ChapterStore.ts:33-49 | the filtered list is never longer than the catalogue |
| Chapters.SearchChaptersSpec | src/stores/ChapterStore.ts:33-49 | a chapter is listed iff it is in the catalogue and its simple or Arabic name matches the normalised search text; an empty search lists the whole catalogue unchanged (no sorting) |
| Chapters.ChapterNameSpec | src/stores/ChapterStore.ts:191-203 | a name is returned iff some chapter has the id, and it is that of the first such chapter; a string id written from the number gives the same answer as the number |
| Chapters.PushFetched | src/stores/ChapterStore.ts:105-116 | the `forEach` loop yields the chapter's verses merged by the chapter rule, and the selected chapter receives exactly the newly appended verses when its id is the chapter's |
| Chapters.ChapterStore.constructor | src/stores/ChapterStore.ts:19-31 | initial state: flags false, length 0, empty catalogue, no selection, sort "id"/"asc", empty search, 10 per page |
| Chapters.ChapterStore.VersesKeyMap | src/stores/ChapterStore.ts:205-209 | undefined iff no chapter is selected; otherwise the verse keys of the selected chapter, position by position |
| Chapters.ChapterStore.GetChapters | src/stores/ChapterStore.ts:51-52 | only the chapters loading flag is set before the request |
| Chapters.ChapterStore.OnMounted | src/stores/ChapterStore.ts:161-165 | the chapters are requested iff the catalogue is empty |
| Chapters.ChapterStore.ReceiveChapters | src/stores/ChapterStore.ts:53-83 | on success every fetched chapter is appended with no verses; on failure the promise rejects and the list is unchanged; the flag ends false either way |
| Chapters.ChapterStore.GetVerses | src/stores/ChapterStore.ts:86-97 | id 0 changes nothing and sends nothing; otherwise page defaults to 1 and limit to `perPage`, `verses` takes the loading argument and `length` takes `perPage` (not the limit) |
| Chapters.ChapterStore.ReceiveVerses | src/stores/ChapterStore.ts:98-124 | the catalogue and selection become `VersesReceived` of the old ones (see `Chapters.VersesReceivedSpec`); errors are swallowed; the verses flag ends false |
| Chapters.ChapterStore.GetVerseByKey | src/stores/ChapterStore.ts:127-131 | an empty key or id 0 changes nothing; otherwise `verses` is set and `length` is 1 |
| Chapters.ChapterStore.ReceiveVerseByKey | src/stores/ChapterStore.ts:132-158 | the catalogue and selection become `VerseByKeyReceived` of the old ones; the loading flags are left untouched, so `verses` stays true |
| Chapters.ChapterStore.Sort | src/stores/ChapterStore.ts:171-176 | the sort state becomes `Catalogue.NextSort` of the old one: the direction flips only on a repeated field |
| Chapters.ChapterStore.OnTranslationsChange | src/stores/ChapterStore.ts:179-189 | with a non-empty id string and a selection, the selection's verses are emptied and page 1 of its id is requested; otherwise nothing changes |
| Chapters.GetVersesZeroId | src/stores/ChapterStore.ts:92 | `getVerses` with id 0 returns without touching any field of the store |
| Chapters.VersesReceivedSpec | src/stores/ChapterStore.ts:103-114 | an id absent from the catalogue changes nothing; otherwise only the first chapter with the id changes, gaining the accepted fetched verses marked not bookmarked (none once a verse whose id equals the chapter id is held), and the selection gains the same verses iff its id matches |
| Chapters.VerseByKeyReceivedSpec | src/stores/ChapterStore.ts:136-151 | the fetched verse is added, not bookmarked, iff the chapter holds no verse with the requested key; the selection mirrors it iff its id matches; nothing else changes |
| Chapters.RefetchDuplicates | src/stores/ChapterStore.ts:103-108 | fetching the same page twice into a chapter with no verse whose id is the chapter id holds every fetched verse twice |
| Chapters.MirrorSnoc | src/stores/ChapterStore.ts:109-114 | each verse pushed onto the chapter is pushed onto the selected chapter too, exactly when the selection is that chapter |
| Surahs.Field | src/stores/SurahStore.ts:39-40 | `a[currentSort]` is numeric only for the numeric and boolean fields; `pages` compares as its numbers joined by ","; `verses` compares by how many verses are held; any other name compares as `undefined` (an inherited name such as "constructor" reads the same function on both sides, which orders no more than `undefined`), and a `null` pagination orders against nothing |
| Surahs.PagesInTextOrder | src/stores/SurahStore.ts:36-42 | sorted on "pages", `[1, 10]` comes before `[1, 2]`, since the arrays compare as the texts "1,10" and "1,2" |
| Surahs.ListSurahsByVersesHeld | src/stores/SurahStore.ts:36-42 | sorted on "verses", the chapters go by how many verses they hold, fewer first for "asc" and more first for "desc" |
| Surahs.ListSurahs | src/stores/SurahStore.ts:22-44 | the listed chapters are never more than the catalogue |
| Surahs.ListSurahsSpec | src/stores/SurahStore.ts:22-44 | the list is a permutation of the search-filtered chapters, a chapter is listed iff it is held and one of its names matches, and it is ordered by the comparator on the current field and direction |
| Surahs.ListSurahsById | src/stores/SurahStore.ts:36-42 | sorted on "id", ids ascend for "asc" and descend for "desc" |
| Surahs.VersesReceivedSpec | src/stores/SurahStore.ts:84-93 | only the chapter with the id changes, its verse keys stay unique, and a second identical response changes nothing |
| Surahs.FirstKey | src/stores/SurahStore.ts:196-197 | the first key of the sorted keys is a key that precedes every other key in string order |
| Surahs.LastKey | src/stores/SurahStore.ts:196-197 | the last key of the sorted keys is a key that follows every other key in string order |
| Surahs.GetFirstAndLastVerseKeys | src/stores/SurahStore.ts:193-198 | both ends are undefined iff the record is empty; otherwise they are the least and greatest keys in string order |
| Surahs.FirstAndLastStringOrder | src/stores/SurahStore.ts:193-198 | for keys 1:2, 1:9 and 1:10 the answer is 1:10 and 1:9 |
| Surahs.FirstAndLastVersePositions | src/stores/SurahStore.ts:186-191 | the intended answer: the earliest and latest (chapter, verse) positions in reading order, none for an empty set |
| Surahs.FirstAndLastReadingOrder | src/stores/SurahStore.ts:186-191 | for verses 1:2, 1:9 and 1:10 the reading-order answer is 1:2 and 1:10 |
| Surahs.SurahStore.constructor | src/stores/SurahStore.ts:9-20 | initial state: flags false, empty catalogue, no selection, sort "id"/"asc", empty search, 10 per page |
| Surahs.SurahStore.VersesKeyMap | src/stores/SurahStore.ts:204-206 | undefined iff no chapter is selected; otherwise the selected chapter's verse keys in order |
| Surahs.SurahStore.GetChapters | src/stores/SurahStore.ts:46-47 | only the chapters loading flag is set before the request |
| Surahs.SurahStore.ReceiveChapters | src/stores/SurahStore.ts:48-66 | on success every fetched chapter is appended with no verses; on failure it rejects and the list is unchanged; the flag ends false |
| Surahs.SurahStore.OnMounted | src/stores/SurahStore.ts:145-147 | the chapters are requested iff the catalogue is empty |
| Surahs.SurahStore.GetVerses | src/stores/SurahStore.ts:69-77 | no id guard; page defaults to 1 and limit to `perPage`; `verses` takes the loading argument; pagination is never touched |
| Surahs.SurahStore.ReceiveVerses | src/stores/SurahStore.ts:83-112 | the chapter with the id merges the fetched verses by verse key (`VerseMerge.MergeByKey`); the selection is not mirrored; the flag ends false |
| Surahs.SurahStore.GetVerseByKey | src/stores/SurahStore.ts:115-118 | an empty key changes nothing; otherwise `verses` is set (there is no id guard) |
| Surahs.SurahStore.ReceiveVerseByKey | src/stores/SurahStore.ts:123-142 | the fetched verse is added unless the requested key is held, and the flag ends false |
| Surahs.SurahStore.Sort | src/stores/SurahStore.ts:153-158 | the sort state becomes `Catalogue.NextSort` of the old one |
| Surahs.SurahStore.OnTranslationsChange | src/stores/SurahStore.ts:161-170 | with a non-empty id string and a selection, page 1 is requested again and the held verses stay as they are |
| Surahs.ChapterNameHiddenBySearch | src/stores/SurahStore.ts:172-184 | `getChapterName` searches the filtered list, so a held chapter whose names do not match the search gives undefined |
| Juzs.FindJuz | src/stores/JuzStore.ts:100 | the index found is that of the first juz with the number; none is found iff no juz has it |
| Juzs.Emptied | src/stores/JuzStore.ts:137-142 | every deduplicated juz is entered as `{ ...c, verses: [] }`, in order |
| Juzs.AddJuzsSpec | src/stores/JuzStore.ts:130-142 | the held juzs stay; the added entries come one per distinct juz number, in order of first appearance, each the last fetched record with its number, with no verses |
| Juzs.SearchJuzs | src/stores/JuzStore.ts:72-75 | the filtered list is never longer than the catalogue |
| Juzs.Field | src/stores/JuzStore.ts:79-80 | `a[currentSort]` is a number exactly for the numeric juz fields; `verses` compares by how many verses are held; any other name compares as `undefined` (an inherited name such as "constructor" reads the same function on both sides, which orders no more than `undefined`), and a `null` pagination orders against nothing |
| Juzs.SearchJuzsSpec | src/stores/JuzStore.ts:72-75 | a juz is kept iff it is held and its number's decimal text contains the search text |
| Juzs.ListJuzsSpec | src/stores/JuzStore.ts:71-83 | `juzs` lists exactly the matching juzs in comparator order; on a numeric field the values ascend for "asc" and descend for "desc" |
| Juzs.SearchByDigits | src/stores/JuzStore.ts:74 | search "1" keeps juz 1, 10 and 21 and drops juz 2 |
| Juzs.VersesReceivedSpec | src/stores/JuzStore.ts:100-114 | the juz with the number takes the response pagination exactly, gains exactly the keys it lacked and keeps its keys unique; other juzs are unchanged; a selection without pagination is unchanged; a repeated response changes nothing |
| Juzs.WatcherResponseLost | src/stores/JuzStore.ts:180-190 | when no held juz has the selected juz's id as its number, the refetch merges nothing while the selection's verses were emptied |
| Juzs.WatcherByNumberReaches | src/stores/JuzStore.ts:180-190 | asking by the selected juz's number always reaches a held selected juz |
| Juzs.SortedKeys | src/stores/JuzStore.ts:45 | the mapping's keys, each once, in ascending order (the order `Object.entries` gives integer keys) |
| Juzs.VerseNumbered | src/stores/JuzStore.ts:58-65 | the first verse of the juz with the verse number, in any chapter; none iff no verse has it |
| Juzs.JuzSlots | src/stores/JuzStore.ts:43-70 | one entry per chapter key of the verse mapping |
| Juzs.ChapterSlotsSpec | src/stores/JuzStore.ts:47-66 | for range "a-b" the entry keeps the chapter key and both ends, has b−a+1 slots (none when b<a), and slot i holds the first verse numbered a+i or null |
| Juzs.ChapterSlotsNoDash | src/stores/JuzStore.ts:47-56 | a range without "-" has an undefined upper end and no slots |
| Juzs.JuzStore.constructor | src/stores/JuzStore.ts:22-28 | initial state: not loading, empty list, no selection, sort "id"/"asc", empty search, 10 per page |
| Juzs.JuzStore.JuzMapByChapters | src/stores/JuzStore.ts:43-70 | undefined iff no juz is selected; otherwise one entry per chapter key |
| Juzs.JuzStore.JuzVersesByChapterMap | src/stores/JuzStore.ts:159-171 | undefined iff no juz is selected |
| Juzs.JuzVersesByChapterSpec | src/stores/JuzStore.ts:159-171 | each selected-juz verse is in exactly the group of its chapter id, groups exist only for chapters present, and each group keeps juz order |
| Juzs.JuzStore.FirstVerseOfJuz | src/stores/JuzStore.ts:205-209 | `verses[0]`; undefined without a selection or when it has no verses |
| Juzs.JuzStore.LastVerseOfJuz | src/stores/JuzStore.ts:211-219 | the id of the last verse; 0 without a selection or verses |
| Juzs.JuzStore.GetJuzs | src/stores/JuzStore.ts:125-126 | only the loading flag is set before the request |
| Juzs.JuzStore.ReceiveJuzs | src/stores/JuzStore.ts:127-151 | on success the list becomes `AddJuzs` of the old one (see `Juzs.AddJuzsSpec`); a failure rejects and changes nothing; the flag ends false |
| Juzs.JuzStore.OnBeforeMount | src/stores/JuzStore.ts:153-157 | the juzs are requested iff the list is empty |
| Juzs.JuzStore.GetVerses | src/stores/JuzStore.ts:85-97 | the flag takes the loading argument; page defaults to 1 and limit to `perPage` |
| Juzs.JuzStore.ReceiveVerses | src/stores/JuzStore.ts:99-122 | on success the list and selection become `VersesReceived` of the old ones; a failure rejects and changes nothing; the flag ends false |
| Juzs.JuzStore.Sort | src/stores/JuzStore.ts:173-178 | the sort state becomes `Catalogue.NextSort` of the old one |
| Juzs.JuzStore.OnTranslationsChange | src/stores/JuzStore.ts:180-190 | with a non-empty id string and a selection, its verses are emptied and page 1 is requested for juz number `selectedJuz.id` |
| Juzs.JuzStore.OnTranslationsChangeByNumber | src/stores/JuzStore.ts:180-190 | the corrected watcher: the same, but the request names the selected juz's `juz_number` |
| Juzs.SplitRange | src/stores/JuzStore.ts:47-53 | a "from-to" verse range of two numerals splits at "-" into exactly the two numerals |
| PageStoreModel.PageNumbers | src/stores/PageStore.ts:14-16 | `pages` is 1, 2, …, 604 |
| PageStoreModel.InitialPages | src/stores/PageStore.ts:52-59 | 604 entries, entry i being page i+1 with no verses |
| PageStoreModel.FindPage | src/stores/PageStore.ts:37 | the index found is that of the first page with the number; none iff no page has it |
| PageStoreModel.FindInitialPage | src/stores/PageStore.ts:52-59 | after mount page n is found at index n−1 for n in 1..604, and no other number is found |
| PageStoreModel.VersesReceivedSpec | src/stores/PageStore.ts:36-43 | a held page gains every fetched verse, not bookmarked, with no duplicate check, and no other page changes; before mount or for a page not held nothing changes |
| PageStoreModel.FetchTwiceDoubles | src/stores/PageStore.ts:37-42 | fetching the same page twice after mount holds every fetched verse twice |
| PageStoreModel.PageStore.constructor | src/stores/PageStore.ts:9-19 | initial state: not loading, no page list, no selection, empty search, 10 per page |
| PageStoreModel.PageStore.OnMounted | src/stores/PageStore.ts:52-59 | the page list becomes `InitialPages()` and nothing else changes |
| PageStoreModel.PageStore.GetVerses | src/stores/PageStore.ts:21-30 | the flag takes the loading argument; page defaults to 1 and limit to `perPage` |
| PageStoreModel.PageStore.ReceiveVerses | src/stores/PageStore.ts:36-50 | the page list becomes `VersesReceived` of the old one; errors are logged, not rethrown; the flag ends false |
| AudioPlayer.PlayNextInRange | src/stores/AudioPlayerStore.ts:108-110 | from a chapter in 1..114, `playNext` stays in 1..114 and moves to the next chapter, 114 going to 1 |
| AudioPlayer.PlayNextWraps | src/stores/AudioPlayerStore.ts:110 | any chapter id of 114 or more goes back to 1 |
| AudioPlayer.PlayNextTimesFormula | src/stores/AudioPlayerStore.ts:108-113 | n calls of `playNext` from chapter c in 1..114 land on (c−1+n) mod 114 + 1 |
| AudioPlayer.PlayNextFullCycle | src/stores/AudioPlayerStore.ts:108-113 | 114 calls of `playNext` come back to the start, and no fewer do |
| AudioPlayer.PlayPreviousStopsAtZero | src/stores/AudioPlayerStore.ts:108-119 | `playPrevious` from 1 reaches 0, where neither `playNext` nor `playPrevious` moves any more |
| AudioPlayer.PlayPreviousTimes | src/stores/AudioPlayerStore.ts:114-119 | n calls of `playPrevious` from c ≥ n decrease it by exactly n: there is no lower bound before 0 |
| AudioPlayer.AvatarPlaceholderAgrees | src/stores/AudioPlayerStore.ts:143-147 | with the placeholder API as base, `avatarPlaceholder` is the URL `createReciterAvatar` builds |
| AudioPlayer.DefaultReciterInitials | src/stores/AudioPlayerStore.ts:136-141 | the initials of the default reciter set at lines 23-26 are "MR" |
| AudioPlayer.AudioPlayerStore.constructor | src/stores/AudioPlayerStore.ts:17-52 | initial state: chapter 0, not loading, no audio file, empty key and source, reciter id 7 (reciter 6), no recitations |
| AudioPlayer.AudioPlayerStore.GetAudio | src/stores/AudioPlayerStore.ts:69-77 | the chapter, verse key and source are taken from the payload, loading starts, and the request names the selected reciter and the payload's chapter, with no cache check |
| AudioPlayer.AudioPlayerStore.ReceiveAudio | src/stores/AudioPlayerStore.ts:78-88 | on success the audio file is the first of `audio_files`; a failure rejects and keeps the old file; loading ends false either way |
| AudioPlayer.AudioPlayerStore.ReceiveRecitations | src/stores/AudioPlayerStore.ts:91-101 | on success the recitation list is replaced by the response's; a failure rejects and keeps it |
| AudioPlayer.AudioPlayerStore.GetRecition | src/stores/AudioPlayerStore.ts:103-106 | the reciter is selected and the current chapter is requested again with it, even chapter 0 |
| AudioPlayer.AudioPlayerStore.PlayNext | src/stores/AudioPlayerStore.ts:108-113 | chapter 0 changes nothing; otherwise the chapter moves on (114 or more to 1) and is requested; 1..114 is kept |
| AudioPlayer.AudioPlayerStore.PlayPrevious | src/stores/AudioPlayerStore.ts:114-119 | chapter 0 changes nothing; otherwise the chapter decreases by one and is requested |
| Translations.Numerals | src/stores/TranslationsStore.ts:64 | each id is written as `String(id)` does, in order |
| Translations.IdsStringSpec | src/stores/TranslationsStore.ts:63-65 | no ids give "", the default selection gives "131", and otherwise the string splits at "," back into one numeral per id, in order, each reading back as its id |
| Translations.GroupByLanguageSpec | src/stores/TranslationsStore.ts:39-49 | there is a group for every language name in the list and no other; each translation is in exactly the group of its language, which keeps list order |
| Translations.Authors | src/stores/TranslationsStore.ts:55-61 | the author names of the selected translations, position by position |
| Translations.GroupedAuthors | src/stores/TranslationsStore.ts:67-78 | undefined iff there is no author; the single author alone for one |
| Translations.GroupedAuthorsSpec | src/stores/TranslationsStore.ts:68-74 | for n > 1 authors the text is the first author, " and ", the numeral of n−1 (which reads back) and " others" |
| Translations.FindById | src/stores/TranslationsStore.ts:84-94 | the first list entry with the id (no earlier entry has it), found iff the list holds one |
| Translations.RebuiltMembers | src/stores/TranslationsStore.ts:80-90 | the rebuilt selection holds at most one entry per selected id, each a list entry whose id was selected |
| Translations.RebuiltAllFound | src/stores/TranslationsStore.ts:80-90 | when every selected id is in the list, the selection is, position by position, the first list entry with each id |
| Translations.ListWatcherTwice | src/stores/TranslationsStore.ts:92-99 | the list watcher checks nothing: firing twice appends translation 131 twice |
| Translations.LoadTwice | src/stores/TranslationsStore.ts:24-36 | running `getTranslations` twice on the same file holds every loaded translation twice, the second load after the first, with the selection untouched and loading ended |
| Translations.TranslationsStore.constructor | src/stores/TranslationsStore.ts:7-10 | initial state: not loading, empty list and selection, ids [131] whose string is "131" |
| Translations.TranslationsStore.GetTranslations | src/stores/TranslationsStore.ts:24-25 | loading starts and nothing else changes |
| Translations.TranslationsStore.ReceiveTranslations | src/stores/TranslationsStore.ts:26-35 | once the file has loaded, its translations are appended, in order, to the old list (never cleared), and loading ends false; a failed load never gets here |
| Translations.TranslationsStore.SelectIds | src/stores/TranslationsStore.ts:9 | the selected ids become the given ones and nothing else changes |
| Translations.TranslationsStore.OnIdsChange | src/stores/TranslationsStore.ts:80-90 | the selection is rebuilt from scratch as `Rebuilt(list, ids)` (see `Translations.RebuiltAllFound`) |
| Translations.TranslationsStore.OnListChange | src/stores/TranslationsStore.ts:92-99 | translation 131 is appended to the selection when the list has it, with no check that it is already selected |
| Tafsirs.Capitalize | src/stores/TafsirStore.ts:67-68 | same length; the first character upper-cased (ASCII), the rest kept |
| Tafsirs.CapitalizedLanguages | src/stores/TafsirStore.ts:65-69 | one capitalised language name per tafsir, in order |
| Tafsirs.SelectionSpec | src/stores/TafsirStore.ts:62-72 | the selection lists each capitalised language name of some tafsir exactly once, in order of first appearance |
| Tafsirs.SelectionCollapsesCase | src/stores/TafsirStore.ts:62-72 | "english" and "English" collapse into one entry "English" |
| Tafsirs.RtlMap | src/stores/TafsirStore.ts:74-78 | undefined iff no tafsir is loaded; otherwise the first two characters of its slug (the whole slug when shorter) |
| Tafsirs.RtlMapOfDefault | src/stores/TafsirStore.ts:74-78 | the default tafsir slug set at line 13 gives "en" |
| Tafsirs.TafsirStore.constructor | src/stores/TafsirStore.ts:9-15 | initial state: no tafsirs, language "English", slug "en-tafisr-ibn-kathir", verse "1:1", font size 1; the defaults already satisfy the fetch condition |
| Tafsirs.TafsirStore.GetTafsirs | src/stores/TafsirStore.ts:27-28 | loading starts and nothing else changes |
| Tafsirs.TafsirStore.ReceiveTafsirs | src/stores/TafsirStore.ts:29-39 | on success the list is replaced by the response; a failure rejects and keeps it; loading ends false |
| Tafsirs.TafsirStore.GetTafsir | src/stores/TafsirStore.ts:42-50 | loading starts and the request names the slug and verse key |
| Tafsirs.TafsirStore.ReceiveTafsir | src/stores/TafsirStore.ts:51-59 | on success the loaded tafsir is replaced; a failure rejects and keeps it; loading ends false |
| Tafsirs.TafsirStore.OnMounted | src/stores/TafsirStore.ts:80-84 | the list is requested iff it is empty |
| Tafsirs.TafsirStore.WatchEffect | src/stores/TafsirStore.ts:86-90 | a tafsir is requested iff both slug and verse key are non-empty, and then for exactly those |
| StringUtils.LTrimmed | src/utils/string.ts:312-337 | the reference meaning of `ltrim`: never longer than the input |
| StringUtils.LTrimmedSpec | src/utils/string.ts:312-337 | `ltrim` keeps the suffix starting at the first character not in `chars` (empty if there is none), and everything dropped is in `chars` |
| StringUtils.RTrimmed | src/utils/string.ts:342-366 | the reference meaning of `rtrim`: never longer than the input |
| StringUtils.RTrimmedSpec | src/utils/string.ts:342-366 | `rtrim` keeps the prefix ending at the last character not in `chars`, and everything dropped is in `chars` |
| StringUtils.LTrim | src/utils/string.ts:312-313 | `ltrim` with `chars` defaulting to `WHITE_SPACES` only when missing returns `LTrimmed` |
| StringUtils.LTrimWith | src/utils/string.ts:315-336 | the nested `while` scan advancing `start` returns exactly `LTrimmed(str, chars)` |
| StringUtils.RTrim | src/utils/string.ts:342-343 | `rtrim` with the same defaulting returns `RTrimmed` |
| StringUtils.RTrimWith | src/utils/string.ts:345-365 | the nested `while` scan moving `end` back returns exactly `RTrimmed(str, chars)` |
| StringUtils.TrimEnds | src/utils/string.ts:371-374 | `trim` = `ltrim(rtrim(s))` keeps a contiguous piece of the input with no set character at either end, and removed only set characters |
| StringUtils.TrimIdempotent | src/utils/string.ts:371-374 | trimming twice is trimming once |
| StringUtils.TrimEmptyChars | src/utils/string.ts:312-313 | an empty `chars` array is truthy, so it is kept and the string comes back unchanged |
| StringUtils.TrimExample | src/utils/string.ts:371-374 | `trim(" a b\t")` is "a b" |
| StringUtils.Repeat | src/utils/string.ts:255-257 | `repeat(s, n)` has n·\|s\| characters |
| StringUtils.RepeatChar | src/utils/string.ts:255-257 | repeating a one-character string n times gives n copies of that character |
| StringUtils.LPadSpec | src/utils/string.ts:246-250 | with a one-character pad: unchanged when long enough, else exactly `minLen` characters with the input as suffix and pad characters before it |
| StringUtils.RPadSpec | src/utils/string.ts:238-241 | with a one-character pad: unchanged when long enough, else exactly `minLen` characters with the input as prefix and pad characters after it |
| StringUtils.ReplaceCharMembers | src/utils/string.ts:181-186 | a single-character global replace leaves only kept characters of the input or characters of the replacement |
| StringUtils.SpecialIndex | src/utils/string.ts:181-186 | the position of a character among `& < > ' "`, 5 exactly for the others |
| StringUtils.EscapeHtmlPending | src/utils/string.ts:180-189 | `escapeHtml` writes each of the five specials as its entity and every other character as itself, character by character |
| StringUtils.EscapeHtmlSafe | src/utils/string.ts:180-189 | the escaped text contains none of `<`, `>`, `'` and `"` |
| StringUtils.ReplaceAllSkips | src/utils/string.ts:195-200 | the global replace of a literal passes unchanged over text that cannot start a match |
| StringUtils.ReplaceAllMatch | src/utils/string.ts:195-200 | a match at the front is replaced and the scan resumes after it |
| StringUtils.UnescapePass | src/utils/string.ts:196-200 | each `unescapeHtml` replacement turns exactly its entity back into its character, provided no restored `&` remains in the text |
| StringUtils.UnescapeEscape | src/utils/string.ts:180-202 | for text without `&`, `unescapeHtml(escapeHtml(s)) == s` |
| StringUtils.UnescapeEscapeEntity | src/utils/string.ts:194-202 | as written, the round trip fails for text with `&`: "&lt;" escapes to "&amp;lt;" and comes back as "<" (likewise for the other entities) |
| StringUtils.UnescapeAmpLastEscape | src/utils/string.ts:194-202 | with `&amp;` turned back last, `unescape(escapeHtml(s)) == s` for every s |
| StringUtils.AppendOrEllipsis | src/utils/string.ts:268 | a missing or empty suffix becomes "..."; the suffix is never empty |
| StringUtils.Substring | src/utils/string.ts:275-277 | `substring(0, end)` (and `substr(0, end)`, the same from index 0) clamps a negative end to 0 and an end past the text to its length |
| StringUtils.TruncateSpec | src/utils/string.ts:262-279 | text that fits is returned trimmed; text that does not fit, with `maxChars` ≥ \|append\|, becomes at most `maxChars` characters: the trimmed cut prefix followed by the suffix |
| StringUtils.CropSpec | src/utils/string.ts:165-167 | `crop` returns the trimmed text when it fits within `maxChars`+1; otherwise a prefix of it ending just before a space (or empty), then the suffix, at most `maxChars` long when the suffix fits |
| StringUtils.AccentIndex | src/utils/string.ts:128-149 | the reference lookup: exactly \xD7, \xDF, \xF0 and \xF7 are in `[\xC0-\xFF]` but matched by no replacement |
| StringUtils.AccentClassExact | src/utils/string.ts:129-149 | each of the 21 character classes matches exactly the characters the lookup sends to it |
| StringUtils.ReplaceAccentsPerChar | src/utils/string.ts:125-153 | the 21 passes act character by character: each matched accented letter becomes its plain form, everything else stays |
| StringUtils.ReplaceAccentsSpec | src/utils/string.ts:125-153 | afterwards the only characters of `[\xC0-\xFF]` left are \xD7, \xDF, \xF0 and \xF7; text without such characters is returned unchanged |
| StringUtils.FilterSpec | src/utils/string.ts:106-108 | a negated-class removal keeps exactly the accepted characters of the input, and returns fully accepted text unchanged |
| StringUtils.FilterIdempotent | src/utils/string.ts:229-233 | filtering twice is filtering once |
| StringUtils.RemoveNonWordSpec | src/utils/string.ts:106-108 | `removeNonWord` keeps exactly `[0-9a-zA-Z\xC0-\xFF \-]` characters and is idempotent |
| StringUtils.RemoveNonAsciiSpec | src/utils/string.ts:229-233 | `removeNonASCII` keeps exactly the printable ASCII characters and is idempotent |
| StringUtils.StripHtmlTagsChars | src/utils/string.ts:222-224 | stripping only removes characters |
| StringUtils.StripHtmlTagsNoTag | src/utils/string.ts:222-224 | no `<` in the result is followed, anywhere later, by `>` |
| StringUtils.StripHtmlTagsNoTagUnchanged | src/utils/string.ts:222-224 | text with no tag is returned unchanged |
| StringUtils.StripHtmlTagsIdempotent | src/utils/string.ts:222-224 | stripping twice is stripping once |
| StringUtils.UnhyphenateSpec | src/utils/string.ts:90-92 | the length is kept, and the only changes turn hyphens that sit between two word characters into spaces |
| StringUtils.UnhyphenateExample | src/utils/string.ts:90-92 | matches do not overlap: "a-b-c" becomes "a b-c" |
| StringUtils.SkipSpaces | src/utils/string.ts:73 | drops exactly the leading run of spaces |
| StringUtils.ReplaceSpaceRunsChars | src/utils/string.ts:73 | replacing runs of spaces leaves only non-space characters of the input or characters of the delimiter |
| StringUtils.SlugifyChars | src/utils/string.ts:67-77 | a slug holds only digits, lower-case ASCII letters, hyphens, the four unfolded Latin-1 characters and characters of the lower-cased delimiter |
| StringUtils.NormalizeLineBreaksAgree | src/utils/string.ts:113-120 | with a line end free of `\r` (and of `\n` unless it is "\n" itself), the three passes equal one pass turning each `\r\n`, lone `\r` and lone `\n` into the line end |
| StringUtils.NormalizeLineBreaksDosExample | src/utils/string.ts:113-120 | as written, with line end "\r\n" the input "\r\n" becomes "\r\r\n\r\n", while the single pass keeps it |
| StringUtils.NormalizeLineBreaksOnceIdempotent | src/utils/string.ts:113-120 | the intended single pass is idempotent for the line ends "\n" and "\r\n" |
| StringUtils.LTrimExample | src/utils/string.ts:281-337 | `ltrim(" a b")` is "a b" |
| StringUtils.RTrimExample | src/utils/string.ts:342-366 | `rtrim(" a b\t")` is " a b" |
| StringUtils.ShortenWords | src/utils/string.ts:275-278 | cutting at full words ends with the suffix, keeps a prefix of the text that is followed there by a space (or is empty), and is at most `maxChars` long when the suffix fits |
| StringUtils.UnescapeInOrder | src/utils/string.ts:194-202 | on escaped text without `&` in the original, the five passes in source order restore every entity |
| StringUtils.UnescapeAmpLastInOrder | src/utils/string.ts:194-202 | with `&amp;` last, the five passes restore every entity of any escaped text |
| StringUtils.SlugBody | src/utils/string.ts:67-72 | after accents, word filtering and trimming, only spaces and slug characters remain |
| Numbers.DigitChar | src/utils/number.ts:11-12 | each digit below ten is written as a decimal digit character |
| Numbers.NatToString | src/utils/number.ts:11-12 | `String(n)` of a natural number is a canonical numeral (digits, no leading zero), starting with "0" exactly when n is 0 |
| Numbers.NatToStringValue | src/utils/number.ts:11-12 | reading back the numeral `String(n)` writes gives n |
| Numbers.CanonicalRoundTrip | src/utils/number.ts:11-12 | writing out the value of a canonical numeral gives the same numeral |
| Numbers.ToNumber | src/utils/number.ts:11-12 | `Number(s)` is a non-negative integer exactly for digit strings and NaN otherwise |
| Numbers.FormatStringNumber | src/utils/number.ts:2-12 | `formatStringNumber` returns a canonical numeral of the same value, and a canonical input unchanged |
| Numbers.FormatStringNumberExamples | src/utils/number.ts:5-6 | "001" becomes "1" and "1" stays "1" |
| Numbers.PageNumberFromIndex | src/utils/number.ts:60-65 | the page r of item `index` is the one whose `perPage` slots hold item index+1: (r−1)·perPage < index+1 ≤ r·perPage |
| Numbers.PageNumberFromNonNegativeIndex | src/utils/number.ts:47-65 | for a non-negative index the page is `index / perPage + 1`, at least 1 |
| Numbers.PageNumberMonotonic | src/utils/number.ts:60-65 | a later item is never on an earlier page |
| Numbers.PageNumberExamples | src/utils/number.ts:50-54 | the four worked examples of the doc comment |
| Numbers.Range | src/utils/number.ts:85-90 | `_range(end, start)` has `end − start + 1` elements (none when end < start), the i-th being start+i |
| Numbers.RangeContents | src/utils/number.ts:85-90 | it holds exactly the integers from start to end, strictly ascending |
| Numbers.DigitRun | src/stores/ChapterStore.ts:192 | the leading run of digits that `parseInt` reads |
| Numbers.ParseInt | src/stores/ChapterStore.ts:192 | `parseInt(s)` is NaN exactly when s does not start with a digit |
| Numbers.ParseIntNatToString | src/stores/ChapterStore.ts:192 | `parseInt` of a written number followed by a non-digit gives the number back |
| Numbers.ParseIntOfNatToString | src/stores/ChapterStore.ts:192 | `parseInt(String(n))` is n |
| DateTime.MonthLength | src/utils/datetime.ts:180-182 | every month has 28 to 31 days, and February has 29 exactly in Gregorian leap years |
| DateTime.GetMonthDateObject | src/utils/datetime.ts:180-182 | `new Date(year, month, 0)` is always a valid date; for month 1..12 it is that month's last day, with years 0..99 read as 1900..1999 |
| DateTime.DateToYearMonthDay | src/utils/datetime.ts:58-65 | the month becomes 1-based; for a valid date month is 1..12 and day 1..31 |
| DateTime.NumberToPaddedStringSpec | src/utils/datetime.ts:146-148 | a digit gets one leading zero, larger numbers are written as they are; the text has at least two digits and reads back as the number |
| DateTime.TwoDigits | src/utils/datetime.ts:146-148 | 0..99 are written with exactly two characters |
| DateTime.DateToDateStringSpec | src/utils/datetime.ts:77-85 | the string is the year, a hyphen, two digits reading back as the 1-based month, a hyphen and two digits reading back as the day |
| DateTime.DashedFields | src/utils/datetime.ts:84 | where the fields of the template string sit |
| DateTime.DateToDateStringFullDate | src/utils/datetime.ts:71-85 | for a four-digit year the result is a full-date of section 5.6 of RFC 3339 (YYYY-MM-DD with a real day of the month) |
| DateTime.FourDigits | src/utils/datetime.ts:84 | years 1000..9999 are written with four digits |
| DateTime.MakeDateRangeFromMonthSpec | src/utils/datetime.ts:159-169 | both ends share the "<year>-<MM>-" prefix; `from` ends in "01" and `to` in two digits reading back as the month's length |
| DateTime.GetMonthsInYear | src/utils/datetime.ts:191-206 | the loop yields twelve months, the k-th with id k+1 and that month's day count |
| Interval.LoadingInterval.constructor | src/utils/interval.ts:4 | the shared loading counter starts at 0 |
| Interval.LoadingInterval.Tick | src/utils/interval.ts:6-12 | one timer callback: the counter goes back to 0 when it equals `ms`, otherwise it grows by `val`; a missing argument takes its default (1000 and 10) |
| Interval.ResetTick | src/utils/interval.ts:8-11 | the resetting tick leaves exactly 0 and does not add `val`; any other tick adds `val` |
| Interval.DefaultCycle | src/utils/interval.ts:6-12 | with the defaults the counter after n ticks from 0 is 10·(n mod 101): it climbs 0, 10, …, 1000 and wraps |
| Interval.DefaultRange | src/utils/interval.ts:6-12 | with the defaults the counter stays a multiple of 10 in 0..1000 |
| Interval.NeverResets | src/utils/interval.ts:8 | when `val` does not divide `ms` the counter never equals `ms`: after n ticks it is n·val and grows without bound |
| Verse.LeastKey | src/utils/verse.ts:13 | the first key `for … in` visits on integer keys is the least one |
| Verse.GetFirstVerseNumberInJuz | src/utils/verse.ts:11-18 | `undefined` exactly when the mapping is missing or empty |
| Verse.FirstVerseNumber | src/utils/verse.ts:11-18 | for an entry "a-b" or "a" under the least chapter key the result is the number a, whatever the later entries hold |
| Verse.IsVerseKeyWithinRanges | src/utils/verse.ts:20-22 | `undefined` exactly without a list; otherwise true exactly when some element equals the key |
| Verse.KeyInsideRangeNotMatched | src/utils/verse.ts:20-22 | membership is exact: "2:5" is not within ["2:1-2:10"] |
| Reciter.GetReciterData | src/utils/reciter.ts:25-30 | `reciters[id]` is the element at index id, and `undefined` exactly outside the array |
| Reciter.ReciterDataByIndex | src/utils/reciter.ts:25-30 | with ids numbered from 1 in array order, asking for id returns the reciter with id+1, and `undefined` for the last id |
| Reciter.FindReciter | src/utils/reciter.ts:25-30 | the intended lookup returns the first reciter with that id (none before it has it), and `undefined` exactly when no reciter has it |
| Reciter.FindReciterByNumber | src/utils/reciter.ts:25-30 | with ids numbered from 1 the lookup by id returns the reciter at index id−1 |
| Reciter.GroupRecitionsByStyleSpec | src/utils/reciter.ts:39-46 | one group per style name that occurs and no other; each reciter is in exactly the group of its style, in array order |
| Reciter.FirstChar | src/utils/reciter.ts:54 | `charAt(0)` is empty for empty text and the first character otherwise |
| Reciter.GetReciterNameInitials | src/utils/reciter.ts:52-55 | the call fails (`split[1]` is undefined) exactly for a name without a space; otherwise at most two characters |
| Reciter.InitialsFromSplit | src/utils/reciter.ts:53-54 | the initials are the first characters of the first two split pieces |
| Reciter.InitialsOfTwoWords | src/utils/reciter.ts:52-55 | "First Second" gives the two first letters |
| Reciter.InitialsOfMoreWords | src/utils/reciter.ts:52-55 | words after the second play no part |
| Reciter.CreateReciterAvatarSpec | src/utils/reciter.ts:62-64 | the URL is the placeholder API, `?name="` and the name, which can be read back; no closing quote is added |
| Grouping.FindIndex | src/stores/ChapterStore.ts:103 | the first index whose element satisfies the predicate, `None` exactly when no element does (the index `Array.find` returns the element of) |
| Grouping.WithKey | src/utils/reciter.ts:39-46 | the reference for one group: the elements with that key, in order |
| Grouping.WithKeySnoc | src/utils/reciter.ts:42-45 | pushing one more element extends its key's group at the end |
| Grouping.WithKeyMembers | src/stores/TranslationsStore.ts:41-47 | an element is in the group of k exactly when it is in the list and its key is k |
| Grouping.GroupBySpec | src/stores/TranslationsStore.ts:41-47 | the reduce-into-object grouping has a key exactly for the keys that occur, and each group equals the reference group |
| Grouping.GroupByHas | src/utils/reciter.ts:43 | every element's key gets a group |
| Grouping.WithKeyNone | src/utils/reciter.ts:43 | no element with key k gives an empty group |
| Grouping.FirstOccurrencesSpec | src/stores/TafsirStore.ts:63-72 | the reference for `new Set`: the first occurrences hold every element once and nothing else |
| Grouping.DistinctSpec | src/stores/TafsirStore.ts:63-72 | `[...new Set(xs)]` is the list of first occurrences: no value twice, the same values, in first-appearance order |
| Grouping.Keys | src/stores/JuzStore.ts:132 | the key list has one key per element, at the same index |
| Grouping.Put | src/stores/JuzStore.ts:131-133 | `Map.set` either replaces an entry or appends one |
| Grouping.PutSpec | src/stores/JuzStore.ts:131-133 | a new key is appended at the end; a held key has its entry replaced in place |
| Grouping.KeepLastSpec | src/stores/JuzStore.ts:130-134 | `[...new Map(xs.map(x => [k(x), x])).values()]` has one entry per distinct key, in first-appearance order, each the last element with that key |
| Grouping.KeepLastReplaced | src/stores/JuzStore.ts:131-133 | a repeated key replaces the entry already held for it |
| Grouping.KeepLastAppended | src/stores/JuzStore.ts:131-133 | a new key appends the element |
| Grouping.FirstOccurrencesSnoc | src/stores/TafsirStore.ts:63-72 | a new value is appended to the first occurrences |
| Grouping.FirstOccurrencesPush | src/stores/TafsirStore.ts:63-72 | one more element is kept when new and dropped when repeated |
| I18n.PlaceholderAt | src/plugins/i18n.ts:11 | a match of `/{(\d+)}/` at the front: "{", one or more digits, "}" |
| I18n.FormatNoPlaceholder | src/plugins/i18n.ts:10-14 | text without a placeholder is returned unchanged |
| I18n.NoBraceNoPlaceholder | src/plugins/i18n.ts:11 | text without "{" has no placeholder |
| I18n.FormatPlainPrefix | src/plugins/i18n.ts:10-14 | text without "{" before the rest is copied through, and formatting goes on after it |
| I18n.PlaceholderOfDigits | src/plugins/i18n.ts:11 | "{", a digit run and "}" is recognised as a placeholder of that many digits |
| I18n.FormatDigits | src/plugins/i18n.ts:10-14 | a placeholder in front is replaced by the argument its digits name, and formatting goes on after it |
| I18n.FormatPlaceholder | src/plugins/i18n.ts:10-14 | `{i}` becomes the i-th argument, or "undefined" when there are not that many arguments: the `typeof … != undefined` test always passes, so the placeholder is never kept |
| I18n.FormatPaddedIndex | src/plugins/i18n.ts:10-14 | a zero-padded index such as "{01}" names no array element and becomes "undefined" |
| I18n.WalkStops | src/plugins/i18n.ts:27-32 | once the key walk reaches a message or `undefined`, the remaining key parts change nothing |
| I18n.LineMissing | src/plugins/i18n.ts:24-35 | with no table for the locale, or no entry for the key's first part, `line` returns the key itself |
| I18n.LineTwoParts | src/plugins/i18n.ts:24-37 | "section.name" that names a message gives the message, formatted when replacements are given; parts after the message are ignored |
| I18n.WalkTwo | src/plugins/i18n.ts:25-33 | walking a section and a name to a message ignores later parts |
| I18n.HeadingTitle | src/locales/en.ts:30 | with the English table, "common.headingTitle" is "The Noble Quran" |
| I18n.Locale.constructor | src/plugins/i18n.ts:7-8 | the state starts as English, left to right |
| I18n.Locale.Install | src/plugins/i18n.ts:17-21 | a stored locale replaces both the locale and the direction; without one nothing changes |
| I18n.Locale.SetLocale | src/plugins/i18n.ts:39-43 | both the locale and the direction are taken over |
| Locales.LanguagesSpec | src/utils/locale.ts:22-25 | the interface offers exactly English, left to right, and Arabic, right to left |
| Locales.GetLangFullLocale | src/utils/locale.ts:33-36 | the result is defined exactly when the looked-up key is in `LANG_LOCALE_MAP`, and is then its entry |
| Locales.LangLocaleMapKeys | src/utils/locale.ts:3-20 | the table has an entry for each of the 16 language codes and for nothing else |
| Locales.GetLangFullLocaleKnown | src/utils/locale.ts:3-20 | each code maps to a five-character locale made of the code, "-" and a region |
| Locales.LangLocaleMapShape | src/utils/locale.ts:3-20 | every entry starts with its own code and a hyphen |
| Locales.GetLangFullLocaleExamples | src/utils/locale.ts:33-36 | "ar" gives "ar-EG" and "en" gives "en-US" |
| Locales.GetLangFullLocaleUnknown | src/utils/locale.ts:33-36 | a code outside the table gives `undefined` |
| Locales.GetLangFullLocaleNoArgument | src/utils/locale.ts:27-36 | as written, a missing or empty argument looks up "en-US" as a key; it is a value of the table, so the result is `undefined` and not the documented fallback |
| Locales.GetLangFullLocaleWithFallback | src/utils/locale.ts:27-36 | the documented fallback: a missing or empty argument gives "en-US"; the result is undefined only for a non-empty code outside the table |
| Locales.FallbackAgrees | src/utils/locale.ts:33-36 | for every non-empty argument the corrected lookup agrees with the one as written |
| Urls.AudioRecitersUrlSpec | src/axios/url.ts:8-16 | the reciter URL is the audio URL, the reciter id, "/audio_files?chapter=", the chapter id and "&segments=true"; each id is followed by a non-digit, so both read back as written |
| Urls.FiveParts | src/axios/url.ts:14 | where each part of a five-part concatenation sits |
| Urls.DelimitedParts | src/axios/url.ts:14 | the parts and the delimiter characters after the second and fourth part |
| Urls.MakeChapterInfoUrlSpec | src/axios/url.ts:22-24 | the path holds the chapter id followed by "/" and ends with the language; a missing locale means "en" |
| Urls.MakeTranslationsUrlSpec | src/axios/url.ts:26-28 | the path ends with the language, "en" when none is given |
| Urls.UrlFields | src/axios/url.ts:30-32 | the field parameters are non-empty and start with "&" |
| Urls.VersesUrlDoubleAmpersand | src/axios/url.ts:30-43 | the translations parameter is followed by "&&", because the template adds "&" before fields that already start with one |
| Urls.VersesUrlZero | src/axios/url.ts:41-42 | a page or limit of 0 is falsy and adds nothing, the same as none |
| Urls.VersesUrlPage | src/axios/url.ts:41-43 | a page other than 0 puts "&page=" and the page right after the fields, ended by the end of the URL or "&" |
| Urls.SegmentParts | src/axios/url.ts:43 | where a name-and-value segment sits between a front and a rest |
| Urls.VersesUrlLimit | src/axios/url.ts:42-43 | as written, a limit other than 0 ends the URL with "&per_page" directly followed by the digits, with no "=" |
| Urls.GetVersesUrlWithLimitSpec | src/axios/url.ts:42-43 | corrected, the URL ends with "&per_page=" and the limit as its value |
| Urls.EndParts | src/axios/url.ts:43 | where the last two parts of a concatenation sit, counted from the end |
| Urls.GetVersesUrlWithLimitAgrees | src/axios/url.ts:34-44 | without a limit, or with 0, the corrected URL is the URL `getVersesUrl` builds |
| Catalogue.RemoveFirstDashOrQuote | src/stores/ChapterStore.ts:41 | the replace without the `g` flag removes at most one character |
| Catalogue.FirstDashOrQuote | src/stores/ChapterStore.ts:41 | the position of the first dash or quote, at most the length |
| Catalogue.FirstDashOrQuoteSpec | src/stores/ChapterStore.ts:41 | no dash or quote comes before that position, and one is there unless it is the end |
| Catalogue.RemoveFirstDashOrQuoteSpec | src/stores/ChapterStore.ts:41-43 | exactly the first dash or quote is cut out and later ones stay; text without one is unchanged |
| Catalogue.MatchesSpec | src/stores/ChapterStore.ts:38-44 | an empty search matches every name; a hit means the normalised search occurs at some position of the normalised name; the case of the search does not matter |
| Catalogue.StrLessIrreflexive | src/stores/SurahStore.ts:39-40 | no string is less than itself under `<` |
| Catalogue.StrLessTotal | src/stores/SurahStore.ts:39-40 | two strings are equal or exactly one is less than the other |
| Catalogue.ObjectsTextLess | src/stores/SurahStore.ts:39-40 | `<` on two arrays of objects, which compares their joined string forms, holds exactly when the first is shorter |
| Catalogue.StrLessTransitive | src/stores/SurahStore.ts:39-40 | string `<` is transitive |
| Catalogue.LeastString | src/stores/SurahStore.ts:186-191 | a non-empty set of strings has a least element in string order |
| Catalogue.GreatestString | src/stores/SurahStore.ts:186-191 | and a greatest one |
| Catalogue.Compare | src/stores/SurahStore.ts:36-42 | the comparator returns −1, 0 or 1, and 0 exactly when neither field value is less than the other (including when a field is missing) |
| Catalogue.CompareSpec | src/stores/SurahStore.ts:36-42 | swapping the arguments negates the result; "desc" negates the other direction; for the ascending direction a negative result means "less" |
| Catalogue.Insert | src/stores/SurahStore.ts:36-42 | one step of the stable sort keeps every element, adding exactly the new one |
| Catalogue.Sort | src/stores/SurahStore.ts:36-42 | `sort` with the comparator is a permutation of its input |
| Catalogue.InsertSorted | src/stores/SurahStore.ts:36-42 | inserting into a sorted list keeps it sorted |
| Catalogue.SortSpec | src/stores/SurahStore.ts:36-42 | the sorted list is a permutation of the input in which no element is followed by one the comparator puts before it |
| Catalogue.SortNumeric | src/stores/JuzStore.ts:76-82 | on a numeric field "asc" orders the values non-decreasingly and "desc" non-increasingly, across the whole list |
| Catalogue.NumericChain | src/stores/JuzStore.ts:76-82 | adjacent order extends to every pair of positions |
| Catalogue.NextSort | src/stores/SurahStore.ts:153-158 | `sort(s)` always selects field s; the same field flips "asc" to "desc" and anything else to "asc"; another field keeps the direction |
| Catalogue.NextSortTwice | src/stores/ChapterStore.ts:171-176 | choosing the current field twice restores an "asc" or "desc" direction |
| VerseMerge.Unbookmarked | src/stores/ChapterStore.ts:108 | `{ ...verse, bookmarked: false }` keeps the verse's id, key, chapter and number and sets `bookmarked` to false |
| VerseMerge.AllUnbookmarked | src/stores/PageStore.ts:39-41 | one marked verse per fetched verse |
| VerseMerge.MergeById | src/stores/ChapterStore.ts:105-116 | the chapter merge keeps what was held and adds at most the fetched verses |
| VerseMerge.AcceptedById | src/stores/ChapterStore.ts:106-107 | how many fetched verses get through, at most all of them |
| VerseMerge.HasIdSnoc | src/stores/ChapterStore.ts:106 | after a push, a verse with the id is held exactly when one was before or the pushed one has it |
| VerseMerge.MergeByIdSpec | src/stores/ChapterStore.ts:105-116 | the chapter merge appends exactly the first `AcceptedById` fetched verses, marked not bookmarked: none once a verse whose id equals the chapter id is held, and none after the first fetched verse with that id |
| VerseMerge.MergeByIdStops | src/stores/ChapterStore.ts:106-108 | a first fetched verse whose id is the chapter id is pushed and nothing after it |
| VerseMerge.MergeByIdStep | src/stores/ChapterStore.ts:105-108 | a fetched verse with another id is pushed and the merge goes on |
| VerseMerge.AllUnbookmarkedCons | src/stores/ChapterStore.ts:105-108 | marking a prefix verse by verse |
| VerseMerge.MergeByIdKeeps | src/stores/ChapterStore.ts:106-107 | once a verse whose id is the chapter id is held, the chapter merge adds nothing |
| VerseMerge.MergeByIdRefetch | src/stores/ChapterStore.ts:105-116 | when no verse has the chapter's id, every fetched verse is appended, so fetching the same page twice holds each verse twice |
| VerseMerge.AcceptAll | src/stores/ChapterStore.ts:106-107 | with the chapter id nowhere every fetched verse gets through |
| VerseMerge.MergeByKey | src/stores/SurahStore.ts:86-93 | the key merge keeps the held verses as a prefix and adds at most the fetched ones |
| VerseMerge.StepByKeySpec | src/stores/SurahStore.ts:87-92 | one step keeps keys unique and adds the fetched key and no other |
| VerseMerge.MergeByKeySpec | src/stores/JuzStore.ts:102-110 | the key merge keeps keys unique, holds afterwards exactly the keys held before plus the keys fetched, and appends, marked not bookmarked and in fetched order, exactly the first fetched verse of each key not held |
| VerseMerge.MergeByKeyAppends | src/stores/JuzStore.ts:102-110 | the merged verses are the held ones followed by `NewByKey`: each fetched verse whose key is neither held nor carried by an earlier fetched verse, marked, in fetched order |
| VerseMerge.HasKeyCons | src/stores/SurahStore.ts:87-89 | a key of a list is its head's key or a key of its tail |
| VerseMerge.MergeByKeyAdded | src/stores/SurahStore.ts:91 | the verses added are fetched verses marked not bookmarked |
| VerseMerge.MergeByKeyHeld | src/stores/SurahStore.ts:86-93 | when every fetched key is already held the merge adds nothing |
| VerseMerge.MergeByKeyIdempotent | src/stores/JuzStore.ts:102-110 | fetching the same verses again changes nothing |
| VerseMerge.AddUnlessKeyHeld | src/stores/SurahStore.ts:124-134 | `getVerseByKey` pushes the fetched verse, marked not bookmarked, exactly when no verse with the requested key is held |
| VerseMerge.MergeAll | src/stores/PageStore.ts:39-41 | the page merge keeps the held verses as a prefix and grows by exactly the number fetched |
| VerseMerge.MergeAllSpec | src/stores/PageStore.ts:39-41 | the page merge appends every fetched verse, marked not bookmarked |
| VerseMerge.MergeAllTwice | src/stores/PageStore.ts:39-41 | fetching the same page twice holds each of its verses twice |
| Types.ChapterOf | src/stores/ChapterStore.ts:57-75 | a fetched chapter enters the store with the same id, names and bismillah flag, no verses and no pagination |
| JsString.Includes | src/stores/ChapterStore.ts:42 | `s.includes(t)` is true exactly when t occurs in s at some index |
| JsString.IndexOf | src/utils/string.ts:223 | the first occurrence of the character: it is there, and not before |
| JsString.LastIndexOf | src/utils/string.ts:277 | the last occurrence of the character, or −1 when there is none; none after it |
| JsString.Split | src/utils/verse.ts:15 | `split` on a one-character separator gives at least one piece, no piece holds the separator, and joining the pieces gives the text back |
| JsString.SplitJoin | src/utils/reciter.ts:53 | splitting a joined list whose elements lack the separator gives the list back |
| JsString.SplitFirst | src/utils/verse.ts:15 | the first piece is the text before the first separator |
| JsString.SplitCons | src/plugins/i18n.ts:26 | a separator-free piece and a separator at the front give the first piece, then the split of the rest |
| JsString.IndexOfUnique | src/utils/string.ts:223 | the first occurrence is the only position with the character and none before |
| JsString.LowerChar | src/stores/ChapterStore.ts:40 | lower-casing leaves no upper-case ASCII letter and keeps every other character |
| JsString.UpperChar | src/stores/TafsirStore.ts:67 | upper-casing leaves no lower-case ASCII letter and keeps every other character |
| JsString.Lower | src/stores/ChapterStore.ts:40 | `toLowerCase` keeps the length and lower-cases each character |

## Left out

- The HTTP client: src/axios/index.ts and its 500 ms request-delay interceptor are not part of this model. Every response is a parameter of a `Receive…` method, and stores that build their own request strings return a request record (id, page, limit, translation ids) instead of the URL text.
- Concurrency: the interleaving of overlapping requests and out-of-order responses. Each `Receive…` applies one response to the state it finds.
- Vue and Pinia machinery (`watch`, `watchEffect`, `computed`, `onMounted`, `onBeforeMount`, `defineStore` ids). Watchers are methods the caller invokes; computeds are functions.
- Aliasing: `selectedChapter`, `selectedSurah` and `selectedJuz` are kept as values of their own. In the application they may be the object held in the catalogue, and then the two pushes of the chapter store land in the same list.
- Surahs.SurahStore.ReceiveVerses and Surahs.SurahStore.ReceiveVerseByKey: they write only the `surahList` entry, as the source does, and the selection stays the value it was. In the application `selectedSurah` is usually that same entry, so `versesKeyMap` shows the fetched verses; in the model `Surahs.SurahStore.VersesKeyMap` does not follow a fetch.
- Persistence: src/utils/storage.ts and src/stores/SettingStore.ts are not part of this model. The stored locale is a parameter of `I18n.Locale.Install`, and the write in `setLocale` is left out.
- Floating point and `Intl`:
  - `convertFractionToPercent`, `convertNumberToDecimal`, `localizeNumber` and `randomNumber`;
  - `secondsFormatter`, `milliSecondsToSeconds`, `secondsToMilliSeconds`, `parseDate` and `getEarliestDate`;
  - `getFullDayName`, `getFullMonthName`, `dateToReadableFormat`, and the month names of `getMonthsInYear`.
- Case mapping is ASCII only: `toLowerCase`, `toLocaleLowerCase` and `toUpperCase` change only ASCII letters.
- Characters are Unicode scalar values. UTF-16 code units and surrogate pairs are not modelled.
- `Number(s)` is modelled on digit strings only, with "" read as 0. Any other string is NaN. Blanks, signs, decimals and exponents are not modelled.
- `parseInt` is modelled only on text without leading blanks or sign.
- DOM helpers (src/utils/useWindowScroll.ts, src/utils/useScrollToElement.ts) and timer scheduling (`setInterval`, `clearInterval`). Only the interval's tick is modelled.
- JSON-backed lookups: src/utils/juz.ts, src/utils/pages.ts, `getAllReciters` and `getAllTranslations`. Their data is a parameter.
- `chapterName` of the audio player: its helper in src/utils/chapter.ts is commented out.
- Constant refs of the audio player that no action updates: `playbackSpeeds` and `verseTiming`.
- `makeGetAudioRecitersUrl` and `makeGetRecitationsUrl` are imported by the audio player but defined nowhere in the source. The audio requests are records (reciter id, chapter id).
- The three field lists that `urlFields` joins (src/utils/verse.ts) are parameters of `Urls.UrlFields`.
- The `getTafsir` request is modelled as the tafsir slug and the verse key, not the URL text.
- The other helpers of src/utils/string.ts, which no store calls and which are not part of this model: `trimSpaces`, `lowerCase`, `upperCase`, `camelCase`, `unCamelCase`, `properCase`, `pascalCase`, `sentenceCase`, `hyphenate`, `underscore`, `contains`, `escapeRegExp` and `abbreviate`.
- A failed load of the bundled translations file: the rejection of the dynamic `import` escapes the synchronous `try` in `getAllTranslations`, so that promise never settles, neither `.catch` nor `.finally` of `getTranslations` runs, and the store stays loading with its list unchanged. The model has no `Receive…` call for it; the state is the one `Translations.TranslationsStore.GetTranslations` leaves.
- Catalogue.SortSpec: states a sorted permutation, not that elements the comparator calls equal keep their input order. The insertion sort keeps them in order, as `Array.prototype.sort` does, but no lemma says so.
- StringUtils.Repeat: takes a natural count. `new Array(n + 1).join(str)` gives "" for n = −1 and throws a RangeError below that; every caller passes n ≥ 1.
- Key order of objects: objects built as dictionaries (grouped reciters and translations, the RTL map) are maps, and their key order is not kept.
- AudioPlayer.MapRecitions: the same reduce-into-object grouping as `groupRecitionsByStyle`. Its properties are those of `Reciter.GroupRecitionsByStyleSpec` and `Grouping.GroupBySpec`, and it has no lemma of its own.
- Juzs.SearchJuzs: `toLocaleString()` is modelled as plain decimal digits. A runtime locale with other digits or grouping separators is not modelled.
- StringUtils.LPadSpec and StringUtils.RPadSpec: the result is stated only for a one-character pad. A longer pad is repeated `minLen − length` times, which the function computes but no lemma describes.
- StringUtils.TruncateSpec and StringUtils.CropSpec: the length bound is stated only when the suffix fits within `maxChars`.
- StringUtils.SlugifyChars: states which characters a slug can hold, not the slug itself. The delimiter is inserted literally; `replace` expands `$&`, `$$`, `` $` `` and `$'` in it, so with "$&" the source's slug keeps its spaces.
- StringUtils.ReplaceSpaceRunsChars: the delimiter is inserted literally. `str.replace(/ +/g, d)` expands the `$` patterns of `d` (`$&` is the matched run, `$$` a dollar, `` $` `` and `$'` the text around the match), so for a delimiter holding `$` the source can keep spaces or copy other text, which this contract does not cover.
- StringUtils.NormalizeLineBreaksAgree: holds only for a line end without `$` patterns. The three `replace` passes expand `$&` and the other patterns in the line end, so with "$&" every break stays as it was, while the single pass writes the literal text.
- Locales.GetLangFullLocale: a property lookup on an object literal also finds what `Object.prototype` provides. For "constructor", "toString", "hasOwnProperty", "__proto__" and the other inherited names the source returns that function or object, not `undefined`; the model reads only the table's own keys.
- Grouping.GroupBySpec: promises a group for every key. The source's `(acc[k] = acc[k] || []).push(x)` on a plain object finds the member `Object.prototype` provides for a key such as "constructor", "toString", "valueOf", "hasOwnProperty" or "__proto__"; that value is truthy and has no `push`, so the reduce throws a TypeError there. The model treats such keys like any other.
- Grouping.GroupByHas: every key gets a group only for keys that are not names inherited from `Object.prototype`; for those the source throws, as above.
- Reciter.GroupRecitionsByStyleSpec: a style name inherited from `Object.prototype` makes `groupRecitionsByStyle` throw, as for `Grouping.GroupBySpec`; the model groups it like any other style. The same holds for `AudioPlayer.MapRecitions`.
- Translations.GroupByLanguageSpec: a language name inherited from `Object.prototype` makes the `translations` computed throw, as for `Grouping.GroupBySpec`; the model groups it like any other language.
- I18n.LineMissing: the message tables are plain objects, so a locale or a key part that names a member inherited from `Object.prototype` ("constructor", "toString", …) finds that function, and `line` returns its `toString()` text, not the key. `I18n.Step` reads only a table's own entries, and the key comes back for such names in the model.
- Locales.GetLangFullLocaleUnknown: states `undefined` for every code outside the table, which the source gives only for codes that are not also names inherited from `Object.prototype`.
- Numbers.PageNumberFromIndex: requires a positive page size. The source accepts any number: 0 gives `Infinity` and a negative size a negative page. Nothing in the application calls it with such a size.

## Findings

| source | as written | input that shows it | evidently intended | confidence | as-written member | corrected member |
|---|---|---|---|---|---|---|
| src/utils/string.ts:194-202 | `unescapeHtml` turns `&amp;` back first, so an entity produced by that pass is unescaped again | `escapeHtml("&lt;")` is "&amp;lt;", which comes back as "<" | `unescapeHtml(escapeHtml(s)) == s` for every s, which holds when `&amp;` is turned back last | not executed | StringUtils.UnescapeEscapeEntity | StringUtils.UnescapeAmpLastEscape |
| src/utils/string.ts:113-120 | the three passes run one after another, so with line end "\r\n" the third pass rewrites the `\n` the first pass wrote | `normalizeLineBreaks("\r\n", "\r\n")` is "\r\r\n\r\n" | each line break becomes one line end, and normalising is idempotent | not executed | StringUtils.NormalizeLineBreaksDosExample | StringUtils.NormalizeLineBreaksOnceIdempotent |
| src/stores/ChapterStore.ts:106 | the duplicate check compares each held verse's `id` with the chapter id | fetching page 1 of chapter 2 twice holds each of its verses twice | skip a verse whose `verse_key` is held, as `SurahStore` and `JuzStore` do, so a refetch changes nothing | not executed | Chapters.RefetchDuplicates | VerseMerge.MergeByKeyIdempotent |
| src/stores/JuzStore.ts:180-190 | the translations watcher refetches `selectedJuz.id`, but the verses are looked up by `juz_number` | a selected juz with id 31 and number 1: its verses are emptied and the refetch of juz 31 finds no juz to merge into | refetch the selected juz's `juz_number` | not executed | Juzs.WatcherResponseLost | Juzs.WatcherByNumberReaches |
| src/stores/SurahStore.ts:186-198 | the first and last verse keys are taken in string order | keys "1:2", "1:9" and "1:10" give "1:10" and "1:9" | the first and last verse in reading order, "1:2" and "1:10" | not executed | Surahs.FirstAndLastStringOrder | Surahs.FirstAndLastReadingOrder |
| src/utils/reciter.ts:25-30 | `getReciterData(reciters, id)` returns `reciters[id]`, the element at index `id` | reciters with ids 1, 2 and 3: id 1 gives the reciter with id 2, and id 3 gives `undefined` | the reciter whose id is `id` | not executed | Reciter.ReciterDataByIndex | Reciter.FindReciterByNumber |
| src/utils/locale.ts:33-36 | a missing argument is replaced by "en-US" and looked up as a key | `getLangFullLocale()` is `undefined` | the documented fallback "en-US" | not executed | Locales.GetLangFullLocaleNoArgument | Locales.GetLangFullLocaleWithFallback |
| src/axios/url.ts:42 | the limit segment is "&per_page" with no "=" | `getVersesUrl("by_page", 1, "131", 0, 10)` ends with "&per_page10" | "&per_page=10" | not executed | Urls.VersesUrlLimit | Urls.GetVersesUrlWithLimitSpec |

=== FILE: audio_player_store.dfy ===
/**
 * src/stores/AudioPlayerStore.ts: the chapter audio player. The store keeps
 * the chapter being played, the selected reciter and the audio file last
 * fetched; `playNext` and `playPrevious` move through the 114 chapters.
 * There is no cache: every `getAudio` sends a request. As in the other
 * stores, each fetch is split at the request: `GetAudio` makes the state
 * changes made before it and returns the request, `ReceiveAudio` takes the
 * response.
 */
module AudioPlayer {
  import opened Wrappers
  import opened Types
  import Reciter

  /** `PlayAudioEmit`: the chapter to play, and optionally a verse and an audio source. */
  datatype AudioPayload = AudioPayload(audioID: int, verseKey: Option<string>, audioSrc: Option<string>)

  /** The audio-files request of `getAudio`: the reciter and the chapter. */
  datatype AudioRequest = AudioRequest(reciterId: int, chapterId: int)

  /** The number of chapters `playNext` cycles through. */
  const ChapterCount: int := 114

  /** The reciter selected when the store is created. */
  const DefaultReciter: Recitation := Recitation(
    7, 6, "Mishari Rashid al-`Afasy",
    TranslatedName("Mishari Rashid al-`Afasy", "english"),
    RecitationStyle("Murattal", "english",
      "Murattal is Quranic recitation at a slower pace, used for study and practice."),
    TranslatedName("Hafs", "english"))

  /** The chapter `playNext` moves to from a non-zero `id`. */
  function NextChapterId(id: int): int {
    if id >= ChapterCount then 1 else id + 1
  }

  /** `chapterId` after `playNext`: unchanged when it is 0. */
  function AfterPlayNext(id: int): int {
    if id == 0 then id else NextChapterId(id)
  }

  /** `chapterId` after `playPrevious`: unchanged when it is 0, otherwise one less, with no lower bound. */
  function AfterPlayPrevious(id: int): int {
    if id == 0 then id else id - 1
  }

  /** From a chapter in 1..114, `playNext` moves to the following chapter, and from 114 back to 1. */
  lemma PlayNextInRange(id: int)
    requires 1 <= id <= ChapterCount
    ensures 1 <= AfterPlayNext(id) <= ChapterCount
    ensures AfterPlayNext(id) == id % ChapterCount + 1
  {
  }

  /** A chapter id of 114 or more, however it was reached, goes back to 1. */
  lemma PlayNextWraps(id: int)
    requires id >= ChapterCount
    ensures AfterPlayNext(id) == 1
  {
  }

  /** `playNext` called `n` times. */
  function PlayNextTimes(id: int, n: nat): int
    decreases n
  {
    if n == 0 then id else PlayNextTimes(AfterPlayNext(id), n - 1)
  }

  /** From a chapter in 1..114, `n` steps forward land `n` chapters further on, counted round the 114. */
  lemma {:induction false} PlayNextTimesFormula(id: int, n: nat)
    requires 1 <= id <= ChapterCount
    ensures PlayNextTimes(id, n) == (id - 1 + n) % ChapterCount + 1
    decreases n
  {
    if n > 0 {
      var next := AfterPlayNext(id);
      PlayNextInRange(id);
      PlayNextTimesFormula(next, n - 1);
      if id == ChapterCount {
        assert next - 1 + (n - 1) == (id - 1 + n) - ChapterCount;
      } else {
        assert next - 1 + (n - 1) == id - 1 + n;
      }
    }
  }

  /** 114 steps forward from any chapter come back to it. */
  lemma PlayNextFullCycle(id: int)
    requires 1 <= id <= ChapterCount
    ensures PlayNextTimes(id, 114) == id
    ensures forall n :: 0 < n < 114 ==> PlayNextTimes(id, n) != id
  {
    PlayNextTimesFormula(id, 114);
    forall n | 0 < n < 114 ensures PlayNextTimes(id, n) != id {
      PlayNextTimesFormula(id, n);
    }
  }

  /**
   * `playPrevious` from chapter 1 reaches 0, where neither `playNext` nor
   * `playPrevious` moves any more.
   */
  lemma PlayPreviousStopsAtZero()
    ensures AfterPlayPrevious(1) == 0
    ensures AfterPlayNext(0) == 0 && AfterPlayPrevious(0) == 0
  {
  }

  /** Each of the first `id` steps back from chapter `id` lowers the chapter by one: after `n` of them it is `id - n`, 0 after all `id`. */
  lemma {:induction false} PlayPreviousTimes(id: int, n: nat)
    requires 0 <= n <= id
    ensures PlayPreviousIterated(id, n) == id - n
  {
    if n > 0 {
      PlayPreviousTimes(id, n - 1);
    }
  }

  /** `playPrevious` called `n` times. */
  function PlayPreviousIterated(id: int, n: nat): int {
    if n == 0 then id else AfterPlayPrevious(PlayPreviousIterated(id, n - 1))
  }

  /** `mapRecitions`: the recitations grouped by style name. */
  function MapRecitions(recitations: seq<Recitation>): map<string, seq<Recitation>> {
    Reciter.GroupRecitionsByStyle(recitations)
  }

  /**
   * `avatarPlaceholder`: the configured placeholder API, `?name="` and the
   * reciter's name; the base is read from the environment and is a parameter.
   */
  function AvatarPlaceholder(base: string, name: string): string {
    base + "?name=\"" + name
  }

  /** With the base set to the placeholder API, the store builds the URL `createReciterAvatar` builds. */
  lemma AvatarPlaceholderAgrees(name: string)
    ensures AvatarPlaceholder(Reciter.AvatarPlaceholderApi, name) == Reciter.CreateReciterAvatar(name)
  {
  }

  /** The initials of the default reciter are "MR". */
  lemma DefaultReciterInitials()
    ensures Reciter.GetReciterNameInitials(DefaultReciter.name) == Some("MR")
  {
    assert DefaultReciter.name == "Mishari" + [' '] + "Rashid" + [' '] + "al-`Afasy";
    Reciter.InitialsOfMoreWords("Mishari", "Rashid", "al-`Afasy");
  }

  class AudioPlayerStore {
    var isLoading: bool
    var audioFiles: Option<AudioFile>
    var autoStartPlayer: bool
    var chapterId: int
    var audioPayLoadSrc: Option<string>
    var selectedVerseKey: Option<string>
    var selectedReciter: Recitation
    var recitations: seq<Recitation>

    /** The initial state: nothing playing (chapter 0), reciter 7 selected, no recitations. */
    constructor()
      ensures !isLoading && audioFiles == None && !autoStartPlayer && chapterId == 0
      ensures audioPayLoadSrc == Some("") && selectedVerseKey == Some("")
      ensures selectedReciter == DefaultReciter && selectedReciter.id == 7 && selectedReciter.reciterId == 6
      ensures recitations == []
    {
      isLoading := false;
      audioFiles := None;
      autoStartPlayer := false;
      chapterId := 0;
      audioPayLoadSrc := Some("");
      selectedVerseKey := Some("");
      selectedReciter := DefaultReciter;
      recitations := [];
    }

    /** `mapRecitions`. */
    function Recitations(): map<string, seq<Recitation>>
      reads this
    {
      MapRecitions(recitations)
    }

    /** `getReciterNameInitials`: `None` where the source throws (a name without a space). */
    function ReciterNameInitials(): Option<string>
      reads this
    {
      Reciter.GetReciterNameInitials(selectedReciter.name)
    }

    /** `avatarPlaceholder`. */
    function Avatar(base: string): string
      reads this
    {
      AvatarPlaceholder(base, selectedReciter.name)
    }

    /**
     * `getAudio(payload)` up to the request: the payload's chapter, verse key
     * and source are taken over (a missing key or source clears them) and
     * loading starts; the request is sent whatever was fetched before.
     */
    method GetAudio(payload: AudioPayload) returns (request: AudioRequest)
      modifies this
      ensures request == AudioRequest(selectedReciter.id, payload.audioID)
      ensures chapterId == payload.audioID && selectedVerseKey == payload.verseKey
      ensures audioPayLoadSrc == payload.audioSrc && isLoading
      ensures audioFiles == old(audioFiles) && autoStartPlayer == old(autoStartPlayer)
      ensures selectedReciter == old(selectedReciter) && recitations == old(recitations)
    {
      chapterId := payload.audioID;
      selectedVerseKey := payload.verseKey;
      audioPayLoadSrc := payload.audioSrc;
      isLoading := true;
      request := AudioRequest(selectedReciter.id, payload.audioID);
    }

    /**
     * The rest of `getAudio`: on success the first audio file of the
     * response (`None` for an empty list); a failure is rethrown and keeps
     * the old file. Loading ends either way.
     */
    method ReceiveAudio(response: Response<seq<AudioFile>>) returns (outcome: Outcome)
      modifies this
      ensures !isLoading
      ensures response.Success? ==>
        (outcome == Resolved && audioFiles == (if response.body == [] then None else Some(response.body[0])))
      ensures response.NetworkError? ==> outcome == Rejected && audioFiles == old(audioFiles)
      ensures chapterId == old(chapterId) && selectedVerseKey == old(selectedVerseKey)
      ensures audioPayLoadSrc == old(audioPayLoadSrc) && autoStartPlayer == old(autoStartPlayer)
      ensures selectedReciter == old(selectedReciter) && recitations == old(recitations)
    {
      if response.Success? {
        audioFiles := None;
        if response.body != [] {
          audioFiles := Some(response.body[0]);
        }
        outcome := Resolved;
      } else {
        outcome := Rejected;
      }
      isLoading := false;
    }

    /** `getRecitations`' response: the recitation list is replaced; a failure is rethrown. */
    method ReceiveRecitations(response: Response<seq<Recitation>>) returns (outcome: Outcome)
      modifies this
      ensures response.Success? ==> outcome == Resolved && recitations == response.body
      ensures response.NetworkError? ==> outcome == Rejected && recitations == old(recitations)
      ensures isLoading == old(isLoading) && audioFiles == old(audioFiles) && chapterId == old(chapterId)
      ensures selectedVerseKey == old(selectedVerseKey) && audioPayLoadSrc == old(audioPayLoadSrc)
      ensures selectedReciter == old(selectedReciter) && autoStartPlayer == old(autoStartPlayer)
    {
      if response.Success? {
        recitations := response.body;
        outcome := Resolved;
      } else {
        outcome := Rejected;
      }
    }

    /**
     * `getRecition(reciter)`: select the reciter and fetch the current
     * chapter again with that reciter, even when it is 0; verse key and
     * source are cleared.
     */
    method GetRecition(reciter: Recitation) returns (request: AudioRequest)
      modifies this
      ensures selectedReciter == reciter
      ensures request == AudioRequest(reciter.id, old(chapterId))
      ensures chapterId == old(chapterId) && selectedVerseKey == None && audioPayLoadSrc == None && isLoading
      ensures audioFiles == old(audioFiles) && recitations == old(recitations)
    {
      selectedReciter := reciter;
      request := GetAudio(AudioPayload(chapterId, None, None));
    }

    /**
     * `playNext`: with no chapter (0) nothing happens; otherwise move on one
     * chapter, from 114 back to 1, and fetch it.
     */
    method PlayNext() returns (request: Option<AudioRequest>)
      modifies this
      ensures chapterId == AfterPlayNext(old(chapterId))
      ensures old(chapterId) == 0 ==>
        (request == None && isLoading == old(isLoading) && selectedVerseKey == old(selectedVerseKey)
         && audioPayLoadSrc == old(audioPayLoadSrc))
      ensures old(chapterId) != 0 ==>
        (request == Some(AudioRequest(selectedReciter.id, chapterId))
         && isLoading && selectedVerseKey == None && audioPayLoadSrc == None)
      ensures 1 <= old(chapterId) <= ChapterCount ==> 1 <= chapterId <= ChapterCount
      ensures selectedReciter == old(selectedReciter) && audioFiles == old(audioFiles) && recitations == old(recitations)
    {
      if chapterId != 0 {
        PlayNextInRange(if 1 <= chapterId <= ChapterCount then chapterId else 1);
        chapterId := NextChapterId(chapterId);
        var r := GetAudio(AudioPayload(chapterId, None, None));
        request := Some(r);
      } else {
        request := None;
      }
    }

    /**
     * `playPrevious`: with no chapter (0) nothing happens; otherwise move back
     * one chapter, with no lower bound, and fetch it.
     */
    method PlayPrevious() returns (request: Option<AudioRequest>)
      modifies this
      ensures chapterId == AfterPlayPrevious(old(chapterId))
      ensures old(chapterId) == 0 ==>
        (request == None && isLoading == old(isLoading) && selectedVerseKey == old(selectedVerseKey)
         && audioPayLoadSrc == old(audioPayLoadSrc))
      ensures old(chapterId) != 0 ==>
        (request == Some(AudioRequest(selectedReciter.id, old(chapterId) - 1))
         && isLoading && selectedVerseKey == None && audioPayLoadSrc == None)
      ensures selectedReciter == old(selectedReciter) && audioFiles == old(audioFiles) && recitations == old(recitations)
    {
      if chapterId != 0 {
        chapterId := chapterId - 1;
        var r := GetAudio(AudioPayload(chapterId, None, None));
        request := Some(r);
      } else {
        request := None;
      }
    }
  }
}

=== FILE: catalogue.dfy ===
/**
 * What the chapter, surah and juz catalogues share: the search filter, the
 * sort comparator with its field and direction, the sort-field toggle, and
 * JavaScript's default string order (used by `Array.prototype.sort` without
 * a comparator and by `<` on strings). Strings are compared character by
 * character; UTF-16 surrogate pairs are not modelled.
 */
module Catalogue {
  import opened Wrappers
  import JsString

  // ------------------------------------------------------------------ search

  predicate IsDashOrQuote(c: char) {
    c == '-' || c == '\''
  }

  /** `s.replace(/([\-\'])/, "")`: without the `g` flag only the first dash or quote goes. */
  function RemoveFirstDashOrQuote(s: string): (r: string)
    ensures |r| == |s| || |r| == |s| - 1
  {
    if s == [] then []
    else if IsDashOrQuote(s[0]) then s[1..]
    else [s[0]] + RemoveFirstDashOrQuote(s[1..])
  }

  /** Index of the first dash or quote, `|s|` when there is none. */
  function FirstDashOrQuote(s: string): (i: nat)
    ensures i <= |s|
  {
    if s == [] || IsDashOrQuote(s[0]) then 0 else 1 + FirstDashOrQuote(s[1..])
  }

  /** `FirstDashOrQuote` finds the first dash or quote: none comes before it. */
  lemma {:induction false} FirstDashOrQuoteSpec(s: string)
    ensures var i := FirstDashOrQuote(s);
      && (forall j :: 0 <= j < i ==> !IsDashOrQuote(s[j]))
      && (i < |s| ==> IsDashOrQuote(s[i]))
  {
    if s != [] && !IsDashOrQuote(s[0]) {
      FirstDashOrQuoteSpec(s[1..]);
      var i := FirstDashOrQuote(s);
      forall j | 0 < j < i ensures !IsDashOrQuote(s[j]) {
        assert s[j] == s[1..][j - 1];
      }
    }
  }

  /** Exactly the first dash or quote is cut out; later ones stay. */
  lemma {:induction false} RemoveFirstDashOrQuoteSpec(s: string)
    ensures var i := FirstDashOrQuote(s);
      RemoveFirstDashOrQuote(s) == if i == |s| then s else s[..i] + s[i + 1..]
  {
    if s != [] && !IsDashOrQuote(s[0]) {
      RemoveFirstDashOrQuoteSpec(s[1..]);
      var i := FirstDashOrQuote(s[1..]);
      if i < |s[1..]| {
        assert s[..i + 1] + s[i + 2..] == [s[0]] + (s[1..][..i] + s[1..][i + 1..]) by {
          assert s[..i + 1] == [s[0]] + s[1..][..i];
          assert s[i + 2..] == s[1..][i + 1..];
        }
      } else {
        assert s == [s[0]] + s[1..];
      }
    }
  }

  /** The search normalisation of `chapters`/`surahs`: ASCII lower case, first dash or quote removed. */
  function Normalize(s: string): string {
    RemoveFirstDashOrQuote(JsString.Lower(s))
  }

  /** A name is a hit when its normalised form contains the normalised search text. */
  predicate Matches(name: string, search: string) {
    JsString.Includes(Normalize(name), Normalize(search))
  }

  /** An empty search text matches every name; case and the first dash or quote do not matter. */
  lemma MatchesSpec(name: string, search: string)
    ensures Matches(name, "")
    ensures Matches(name, search) <==> exists i :: JsString.OccursAt(Normalize(name), Normalize(search), i)
    ensures Matches(name, JsString.Lower(search)) == Matches(name, search)
  {
    assert Normalize("") == "";
    assert JsString.OccursAt(Normalize(name), "", 0);
    LowerIdempotent(search);
  }

  lemma LowerIdempotent(s: string)
    ensures JsString.Lower(JsString.Lower(s)) == JsString.Lower(s)
  {
  }

  // ---------------------------------------------------------- string order

  /** `a < b` on strings: `a` is a proper prefix of `b`, or smaller at the first difference. */
  predicate StrLess(a: string, b: string)
    decreases |a|
  {
    if a == [] then b != []
    else if b == [] then false
    else if a[0] != b[0] then a[0] < b[0]
    else StrLess(a[1..], b[1..])
  }

  /** The string order is a strict total order. */
  lemma {:induction false} StrLessIrreflexive(a: string)
    ensures !StrLess(a, a)
    decreases |a|
  {
    if a != [] { StrLessIrreflexive(a[1..]); }
  }

  lemma {:induction false} StrLessTotal(a: string, b: string)
    ensures a == b || StrLess(a, b) || StrLess(b, a)
    ensures !(StrLess(a, b) && StrLess(b, a))
    decreases |a|
  {
    if a != [] && b != [] && a[0] == b[0] {
      StrLessTotal(a[1..], b[1..]);
      if a[1..] == b[1..] { assert a == [a[0]] + a[1..] && b == [b[0]] + b[1..]; }
    }
  }

  lemma {:induction false} StrLessTransitive(a: string, b: string, c: string)
    requires StrLess(a, b) && StrLess(b, c)
    ensures StrLess(a, c)
    decreases |a|
  {
    if a != [] && a[0] == b[0] && b[0] == c[0] {
      StrLessTransitive(a[1..], b[1..], c[1..]);
    }
  }

  /** The least string of a non-empty set, in string order. */
  lemma {:induction false} LeastString(keys: set<string>) returns (k: string)
    requires keys != {}
    ensures k in keys && forall j :: j in keys ==> k == j || StrLess(k, j)
  {
    var x :| x in keys;
    var others := keys - {x};
    k := x;
    if others == {} {
      assert keys == {x};
    } else {
      var m := LeastString(others);
      StrLessTotal(m, x);
      if StrLess(m, x) {
        k := m;
        forall j | j in keys ensures k == j || StrLess(k, j) {
          if j != x { assert j in others; }
        }
      } else {
        forall j | j in keys ensures k == j || StrLess(k, j) {
          if j != x {
            assert j in others;
            if m != j { StrLessTransitive(x, m, j); }
          }
        }
      }
    }
  }

  /** The greatest string of a non-empty set, in string order. */
  lemma {:induction false} GreatestString(keys: set<string>) returns (k: string)
    requires keys != {}
    ensures k in keys && forall j :: j in keys ==> k == j || StrLess(j, k)
  {
    var x :| x in keys;
    var others := keys - {x};
    k := x;
    if others == {} {
      assert keys == {x};
    } else {
      var m := GreatestString(others);
      StrLessTotal(m, x);
      if StrLess(x, m) {
        k := m;
        forall j | j in keys ensures k == j || StrLess(j, k) {
          if j != x { assert j in others; }
        }
      } else {
        forall j | j in keys ensures k == j || StrLess(j, k) {
          if j != x {
            assert j in others;
            if m != j { StrLessTransitive(j, m, x); }
          }
        }
      }
    }
  }

  // ------------------------------------------------------------ comparator

  /**
   * `a[currentSort]` as `<` sees it: a number (or a boolean, as 0 or 1), the
   * string form of a string, an object or an array, or `undefined` for a
   * field the record lacks. A `null` among values that are all `null` or
   * objects orders against nothing either, and is `Missing` too.
   */
  datatype SortValue = Num(n: int) | Text(s: string) | Missing

  /** `String(o)` for a plain object. */
  const ObjectText := "[object Object]"

  /** `String(array)` for an array of `n` plain objects: their texts joined by ",". */
  function ObjectsText(n: nat): string {
    JsString.Join(seq(n, _ => ObjectText), ",")
  }

  /** One more object extends the text: by the object alone, or by "," and the object. */
  lemma {:induction false} ObjectsTextSnoc(n: nat)
    ensures ObjectsText(n + 1) == ObjectsText(n) + (if n == 0 then ObjectText else "," + ObjectText)
  {
    var xs := seq(n + 1, _ => ObjectText);
    if n == 0 {
      assert |xs| == 1;
    } else {
      assert xs[1..] == seq(n, _ => ObjectText);
      assert ObjectsText(n + 1) == ObjectText + "," + ObjectsText(n);
      if n == 1 {
        assert |seq(1, _ => ObjectText)| == 1;
      } else {
        ObjectsTextSnoc(n - 1);
        assert seq(n, _ => ObjectText)[1..] == seq(n - 1, _ => ObjectText);
      }
    }
  }

  /** The text of fewer objects is a proper prefix of the text of more. */
  lemma {:induction false} ObjectsTextPrefix(m: nat, n: nat)
    requires m < n
    ensures |ObjectsText(m)| < |ObjectsText(n)| && ObjectsText(n)[..|ObjectsText(m)|] == ObjectsText(m)
    decreases n
  {
    ObjectsTextSnoc(n - 1);
    if m < n - 1 {
      ObjectsTextPrefix(m, n - 1);
    }
  }

  /** A string is below each of its proper extensions. */
  lemma {:induction false} StrLessExtension(a: string, b: string)
    requires |a| < |b| && b[..|a|] == a
    ensures StrLess(a, b)
    decreases |a|
  {
    if a != [] {
      assert b[1..][..|a| - 1] == a[1..];
      StrLessExtension(a[1..], b[1..]);
    }
  }

  /**
   * Compared with `<`, arrays of plain objects order by their length: the
   * joined texts only differ in how many objects they repeat.
   */
  lemma ObjectsTextLess()
    ensures forall m: nat, n: nat :: StrLess(ObjectsText(m), ObjectsText(n)) <==> m < n
  {
    forall m: nat, n: nat ensures StrLess(ObjectsText(m), ObjectsText(n)) <==> m < n {
      if m < n {
        ObjectsTextPrefix(m, n);
        StrLessExtension(ObjectsText(m), ObjectsText(n));
      } else if m == n {
        StrLessIrreflexive(ObjectsText(m));
      } else {
        ObjectsTextPrefix(n, m);
        StrLessExtension(ObjectsText(n), ObjectsText(m));
        StrLessTotal(ObjectsText(m), ObjectsText(n));
      }
    }
  }

  /** `<` on two field values; `undefined` is never smaller or greater than anything. */
  predicate ValueLess(a: SortValue, b: SortValue) {
    match (a, b)
    case (Num(x), Num(y)) => x < y
    case (Text(x), Text(y)) => StrLess(x, y)
    case _ => false
  }

  lemma ValueLessAsymmetric(a: SortValue, b: SortValue)
    ensures !(ValueLess(a, b) && ValueLess(b, a))
  {
    if a.Text? && b.Text? { StrLessTotal(a.s, b.s); }
  }

  /** The comparator of `surahs` and `juzs`: -1, 1 or 0, negated when the direction is "desc". */
  function Compare(a: SortValue, b: SortValue, dir: string): (r: int)
    ensures r in {-1, 0, 1}
    ensures r == 0 <==> !ValueLess(a, b) && !ValueLess(b, a)
  {
    ValueLessAsymmetric(a, b);
    var modifier := if dir == "desc" then -1 else 1;
    if ValueLess(a, b) then -1 * modifier
    else if ValueLess(b, a) then 1 * modifier
    else 0
  }

  /** Swapping the arguments negates the comparison; "desc" negates "asc". */
  lemma CompareSpec(a: SortValue, b: SortValue, dir: string)
    ensures Compare(a, b, dir) == -Compare(b, a, dir)
    ensures dir != "desc" ==> Compare(a, b, "desc") == -Compare(a, b, dir)
    ensures dir != "desc" ==> (Compare(a, b, dir) < 0 <==> ValueLess(a, b))
  {
    ValueLessAsymmetric(a, b);
  }

  // ------------------------------------------------------------------ sort

  /** The number of a numeric field value (0 otherwise). */
  function NumOf(v: SortValue): int {
    if v.Num? then v.n else 0
  }

  /**
   * Inserting `x` into a sorted list after every element that does not
   * compare greater: the step of a stable insertion sort.
   */
  function Insert<T>(x: T, sorted: seq<T>, key: T -> SortValue, dir: string): (r: seq<T>)
    ensures |r| == |sorted| + 1
    ensures multiset(r) == multiset(sorted) + multiset{x}
    ensures r[|r| - 1] == x || (sorted != [] && r[|r| - 1] == sorted[|sorted| - 1])
  {
    if sorted == [] || Compare(key(sorted[|sorted| - 1]), key(x), dir) <= 0 then sorted + [x]
    else
      var p := sorted[..|sorted| - 1];
      assert sorted == p + [sorted[|sorted| - 1]];
      Insert(x, p, key, dir) + [sorted[|sorted| - 1]]
  }

  /** `xs.sort(comparator)`, as a stable insertion sort. */
  function Sort<T>(xs: seq<T>, key: T -> SortValue, dir: string): (r: seq<T>)
    ensures |r| == |xs| && multiset(r) == multiset(xs)
  {
    if xs == [] then []
    else
      var p := xs[..|xs| - 1];
      assert xs == p + [xs[|xs| - 1]];
      Insert(xs[|xs| - 1], Sort(p, key, dir), key, dir)
  }

  /** No element is followed by one the comparator puts before it. */
  predicate Sorted<T>(xs: seq<T>, key: T -> SortValue, dir: string) {
    forall i :: 0 < i < |xs| ==> Compare(key(xs[i - 1]), key(xs[i]), dir) <= 0
  }

  lemma {:induction false} InsertSorted<T>(x: T, sorted: seq<T>, key: T -> SortValue, dir: string)
    requires Sorted(sorted, key, dir)
    ensures Sorted(Insert(x, sorted, key, dir), key, dir)
  {
    if sorted != [] && Compare(key(sorted[|sorted| - 1]), key(x), dir) > 0 {
      var p, last := sorted[..|sorted| - 1], sorted[|sorted| - 1];
      InsertSorted(x, p, key, dir);
      var q := Insert(x, p, key, dir);
      CompareSpec(key(last), key(x), dir);
      var r := q + [last];
      forall i | 0 < i < |r| ensures Compare(key(r[i - 1]), key(r[i]), dir) <= 0 {
        if i == |r| - 1 && p != [] && q[|q| - 1] != x {
          assert q[|q| - 1] == p[|p| - 1] == sorted[|sorted| - 2];
        }
      }
    }
  }

  /**
   * The sorted list holds the same elements, each as often, and no element
   * is followed by one that the comparator puts before it.
   */
  lemma {:induction false} SortSpec<T>(xs: seq<T>, key: T -> SortValue, dir: string)
    ensures multiset(Sort(xs, key, dir)) == multiset(xs)
    ensures Sorted(Sort(xs, key, dir), key, dir)
  {
    if xs != [] {
      SortSpec(xs[..|xs| - 1], key, dir);
      InsertSorted(xs[|xs| - 1], Sort(xs[..|xs| - 1], key, dir), key, dir);
    }
  }

  /**
   * Sorting on a numeric field: "asc" puts the values in non-decreasing
   * order, "desc" in non-increasing order, across the whole list.
   */
  lemma {:induction false} SortNumeric<T>(xs: seq<T>, key: T -> SortValue, dir: string)
    requires forall x :: x in xs ==> key(x).Num?
    ensures var r := Sort(xs, key, dir);
      forall i, j :: 0 <= i < j < |r| ==>
        if dir == "desc" then NumOf(key(r[i])) >= NumOf(key(r[j])) else NumOf(key(r[i])) <= NumOf(key(r[j]))
  {
    SortSpec(xs, key, dir);
    var r := Sort(xs, key, dir);
    forall x | x in r ensures key(x).Num? {
      assert x in multiset(r);
    }
    forall i, j | 0 <= i < j < |r|
      ensures if dir == "desc" then NumOf(key(r[i])) >= NumOf(key(r[j])) else NumOf(key(r[i])) <= NumOf(key(r[j]))
    {
      NumericChain(r, key, dir, i, j);
    }
  }

  lemma {:induction false} NumericChain<T>(r: seq<T>, key: T -> SortValue, dir: string, i: nat, j: nat)
    requires i <= j < |r| && Sorted(r, key, dir)
    requires forall x :: x in r ==> key(x).Num?
    ensures if dir == "desc" then NumOf(key(r[i])) >= NumOf(key(r[j])) else NumOf(key(r[i])) <= NumOf(key(r[j]))
    decreases j - i
  {
    if i < j {
      NumericChain(r, key, dir, i, j - 1);
      assert r[j - 1] in r && r[j] in r;
      assert Compare(key(r[j - 1]), key(r[j]), dir) <= 0;
    }
  }

  // ---------------------------------------------------------- sort toggle

  /** The sort field and direction of a catalogue. */
  datatype SortState = SortState(field: string, dir: string)

  /** `sort(s)`: the same field again flips the direction; another field keeps it. */
  function NextSort(st: SortState, s: string): (r: SortState)
    ensures r.field == s
    ensures s != st.field ==> r.dir == st.dir
    ensures s == st.field ==> r.dir == (if st.dir == "asc" then "desc" else "asc")
  {
    if s == st.field then SortState(s, if st.dir == "asc" then "desc" else "asc")
    else SortState(s, st.dir)
  }

  /** Choosing the same field twice from "asc" or "desc" restores the direction. */
  lemma NextSortTwice(st: SortState)
    requires st.dir in {"asc", "desc"}
    ensures NextSort(NextSort(st, st.field), st.field) == st
  {
  }
}

=== FILE: chapter_store.dfy ===
/**
 * src/stores/ChapterStore.ts: the chapter catalogue with the verses fetched
 * for each chapter. Each async action is split at its `await`: a `Get...`
 * method does what runs before the request and returns the request it would
 * send (or `None` when it returns early), and a `Receive...` method does the
 * `.then`/`.catch`/`.finally` part on the response it is given. Watchers
 * are methods the caller invokes with the new watched value.
 *
 * `selectedChapter` is kept as a value of its own. In the application it may
 * be the very object held in `chaptersList`; the pushes at lines 108 and
 * 110 would then both land in the same list and double every fetched verse.
 */
module Chapters {
  import opened Wrappers
  import opened Types
  import Numbers
  import Grouping
  import Catalogue
  import VerseMerge

  /** `isLoading`. */
  datatype Loading = Loading(chapters: bool, verses: bool, info: bool, length: int)

  /** The request `getVerses` sends: chapter, page and page size (and the translation ids). */
  datatype VersesRequest = VersesRequest(id: int, translations: string, page: int, limit: int)

  /** What `getChapterName` returns. */
  datatype ChapterName = ChapterName(ar: string, en: string, bismillah: bool)

  /** An argument typed `number | string`. */
  datatype NumberOrString = Number(n: int) | Text(s: string)

  /** Index of the first chapter with the given id: `chaptersList.find((s) => s.id === id)`. */
  function FindChapter(list: seq<Chapter>, id: Numbers.JsNumber): (r: Option<nat>)
    ensures r.Some? ==> (r.value < |list| && Numbers.Int(list[r.value].id) == id
      && forall j :: 0 <= j < r.value ==> Numbers.Int(list[j].id) != id)
    ensures r.None? ==> forall j :: 0 <= j < |list| ==> Numbers.Int(list[j].id) != id
  {
    Grouping.FindIndex(list, (c: Chapter) => Numbers.Int(c.id) == id)
  }

  /** The chapter list after a `/chapters` response: every fetched chapter appended, with no verses. */
  function AddChapters(list: seq<Chapter>, fetched: seq<ChapterSchema>): (r: seq<Chapter>)
    ensures |r| == |list| + |fetched| && r[..|list|] == list
    ensures forall i :: 0 <= i < |fetched| ==> r[|list| + i] == ChapterOf(fetched[i])
  {
    list + seq(|fetched|, i requires 0 <= i < |fetched| => ChapterOf(fetched[i]))
  }

  /** The selected chapter receives the verses appended to the chapter with its id. */
  function Mirror(selected: Option<Chapter>, chapterId: int, appended: seq<Verse>): Option<Chapter> {
    if selected.Some? && selected.value.id == chapterId
    then Some(selected.value.(verses := selected.value.verses + appended))
    else selected
  }

  /** Mirroring nothing leaves the selection as it was. */
  lemma MirrorNothing(selected: Option<Chapter>, chapterId: int)
    ensures Mirror(selected, chapterId, []) == selected
  {
    if selected.Some? {
      assert selected.value.verses + [] == selected.value.verses;
    }
  }

  /** Mirroring one more verse pushes it onto the selection when its id matches. */
  lemma MirrorSnoc(selected: Option<Chapter>, chapterId: int, appended: seq<Verse>, v: Verse)
    ensures var m := Mirror(selected, chapterId, appended);
      Mirror(selected, chapterId, appended + [v])
      == if m.Some? && m.value.id == chapterId then Some(m.value.(verses := m.value.verses + [v])) else m
  {
    if selected.Some? {
      assert selected.value.verses + (appended + [v]) == selected.value.verses + appended + [v];
    }
  }

  /**
   * The catalogue and the selected chapter after the response to
   * `getVerses(id)`: the chapter with that id merges the fetched verses by
   * the chapter rule, and the selected chapter gets the same new verses when
   * it has that id.
   */
  function VersesReceived(list: seq<Chapter>, selected: Option<Chapter>, id: int, response: Response<seq<Verse>>)
    : (seq<Chapter>, Option<Chapter>)
  {
    var ci := FindChapter(list, Numbers.Int(id));
    if response.NetworkError? || ci.None? then (list, selected)
    else
      var c := list[ci.value];
      var merged := VerseMerge.MergeById(c.verses, id, response.body);
      (list[ci.value := c.(verses := merged)], Mirror(selected, c.id, merged[|c.verses|..]))
  }

  /**
   * The catalogue and the selected chapter after the response to
   * `getVerseByKey(id, key)`: the fetched verse is added to the chapter with
   * that id unless it already holds a verse with the requested key.
   */
  function VerseByKeyReceived(list: seq<Chapter>, selected: Option<Chapter>, id: int, key: string, response: Response<Verse>)
    : (seq<Chapter>, Option<Chapter>)
  {
    var ci := FindChapter(list, Numbers.Int(id));
    if response.NetworkError? || ci.None? then (list, selected)
    else
      var c := list[ci.value];
      var added := VerseMerge.AddUnlessKeyHeld(c.verses, key, response.body);
      (list[ci.value := c.(verses := added)], Mirror(selected, c.id, added[|c.verses|..]))
  }

  /** `chapters`: the chapters whose simple or Arabic name matches the search text, unsorted. */
  function SearchChapters(list: seq<Chapter>, search: string): (r: seq<Chapter>)
    ensures |r| <= |list|
  {
    if list == [] then []
    else
      var c := list[0];
      (if Catalogue.Matches(c.nameSimple, search) || Catalogue.Matches(c.nameArabic, search) then [c] else [])
      + SearchChapters(list[1..], search)
  }

  /**
   * A chapter is listed iff it is in the catalogue and one of its names
   * matches; the catalogue order is kept, and an empty search lists every
   * chapter.
   */
  lemma {:induction false} SearchChaptersSpec(list: seq<Chapter>, search: string)
    ensures forall c :: c in SearchChapters(list, search) <==>
      c in list && (Catalogue.Matches(c.nameSimple, search) || Catalogue.Matches(c.nameArabic, search))
    ensures search == "" ==> SearchChapters(list, search) == list
  {
    if list != [] {
      SearchChaptersSpec(list[1..], search);
      Catalogue.MatchesSpec(list[0].nameSimple, search);
      assert list == [list[0]] + list[1..];
    }
  }

  /** `getChapterName(id)` on a list: a string id goes through `parseInt`. */
  function ChapterNameIn(list: seq<Chapter>, id: NumberOrString): Option<ChapterName> {
    var n := if id.Number? then Numbers.Int(id.n) else Numbers.ParseInt(id.s);
    var ci := FindChapter(list, n);
    if ci.None? then None
    else Some(ChapterName(list[ci.value].nameArabic, list[ci.value].nameSimple, list[ci.value].bismillahPre))
  }

  /**
   * A name is found iff some chapter has the id (for a string id, the
   * number its leading digits spell); it is that of the first such chapter,
   * and a string id gives the same answer as the number it writes.
   */
  lemma ChapterNameSpec(list: seq<Chapter>, n: nat)
    ensures ChapterNameIn(list, Number(n)).Some? <==> exists i :: 0 <= i < |list| && list[i].id == n
    ensures forall i :: 0 <= i < |list| && list[i].id == n && (forall j :: 0 <= j < i ==> list[j].id != n) ==>
      ChapterNameIn(list, Number(n)) == Some(ChapterName(list[i].nameArabic, list[i].nameSimple, list[i].bismillahPre))
    ensures ChapterNameIn(list, Text(Numbers.NatToString(n))) == ChapterNameIn(list, Number(n))
  {
    Numbers.ParseIntOfNatToString(n);
    var ci := FindChapter(list, Numbers.Int(n));
    if exists i :: 0 <= i < |list| && list[i].id == n {
      var i :| 0 <= i < |list| && list[i].id == n;
      assert Numbers.Int(list[i].id) == Numbers.Int(n);
    }
    forall i | 0 <= i < |list| && list[i].id == n && (forall j :: 0 <= j < i ==> list[j].id != n)
      ensures ChapterNameIn(list, Number(n)) == Some(ChapterName(list[i].nameArabic, list[i].nameSimple, list[i].bismillahPre))
    {
      assert Numbers.Int(list[i].id) == Numbers.Int(n);
      assert Numbers.Int(list[ci.value].id) == Numbers.Int(n);
    }
  }

  /**
   * The `forEach` of `getVerses` on values: each fetched verse is pushed,
   * not bookmarked, onto the chapter's verses and onto the selected chapter
   * when it has the chapter's id, unless the chapter rule skips it.
   */
  method PushFetched(held: seq<Verse>, selectedChapter: Option<Chapter>, chapterId: int, id: int, fetched: seq<Verse>)
    returns (verses: seq<Verse>, selected: Option<Chapter>)
    ensures verses == VerseMerge.MergeById(held, id, fetched)
    ensures selected == Mirror(selectedChapter, chapterId, verses[|held|..])
  {
    verses := held;
    selected := selectedChapter;
    var i := 0;
    assert verses[|held|..] == [];
    MirrorNothing(selectedChapter, chapterId);
    while i < |fetched|
      invariant 0 <= i <= |fetched|
      invariant |held| <= |verses| && verses[..|held|] == held
      invariant VerseMerge.MergeById(verses, id, fetched[i..]) == VerseMerge.MergeById(held, id, fetched)
      invariant selected == Mirror(selectedChapter, chapterId, verses[|held|..])
    {
      ghost var before := verses;
      assert VerseMerge.MergeById(verses, id, fetched[i..])
          == VerseMerge.MergeById(VerseMerge.StepById(verses, id, fetched[i]), id, fetched[i + 1..]) by {
        assert fetched[i..][1..] == fetched[i + 1..];
      }
      if !VerseMerge.HasId(verses, id) {
        var v := VerseMerge.Unbookmarked(fetched[i]);
        assert (verses + [v])[|held|..] == verses[|held|..] + [v];
        MirrorSnoc(selectedChapter, chapterId, verses[|held|..], v);
        verses := verses + [v];
        if selected.Some? && selected.value.id == chapterId {
          selected := Some(selected.value.(verses := selected.value.verses + [v]));
        }
      }
      assert verses == VerseMerge.StepById(before, id, fetched[i]);
      i := i + 1;
    }
    assert fetched[i..] == [];
  }

  class ChapterStore {
    var isLoading: Loading
    var chaptersList: seq<Chapter>
    var currentSortDir: string
    var currentSort: string
    var searchValue: string
    var selectedChapter: Option<Chapter>
    /** `perPage`, never reassigned. */
    const perPage: int

    /** The initial state of the store. */
    constructor()
      ensures isLoading == Loading(false, false, false, 0)
      ensures chaptersList == [] && selectedChapter == None
      ensures currentSortDir == "asc" && currentSort == "id" && searchValue == ""
      ensures perPage == 10
    {
      isLoading := Loading(false, false, false, 0);
      chaptersList := [];
      currentSortDir := "asc";
      currentSort := "id";
      searchValue := "";
      selectedChapter := None;
      perPage := 10;
    }

    /** `chapters`. */
    function Chapters(): seq<Chapter>
      reads this
    {
      SearchChapters(chaptersList, searchValue)
    }

    /** `versesKeyMap`: the keys of the selected chapter's verses, `undefined` without a selection. */
    function VersesKeyMap(): (r: Option<seq<string>>)
      reads this
      ensures r.None? <==> selectedChapter.None?
      ensures r.Some? ==> (|r.value| == |selectedChapter.value.verses|
        && forall i :: 0 <= i < |r.value| ==> r.value[i] == selectedChapter.value.verses[i].verseKey)
    {
      if selectedChapter.None? then None
      else
        var vs := selectedChapter.value.verses;
        Some(seq(|vs|, i requires 0 <= i < |vs| => vs[i].verseKey))
    }

    /** `getChapterName(id)`. */
    function GetChapterName(id: NumberOrString): Option<ChapterName>
      reads this
    {
      ChapterNameIn(chaptersList, id)
    }

    /** `getChapters`, up to the request: only the loading flag is set. */
    method GetChapters()
      modifies this
      ensures isLoading == old(isLoading).(chapters := true)
      ensures chaptersList == old(chaptersList) && selectedChapter == old(selectedChapter)
      ensures currentSort == old(currentSort) && currentSortDir == old(currentSortDir) && searchValue == old(searchValue)
    {
      isLoading := isLoading.(chapters := true);
    }

    /** The mount hook: the chapters are fetched only when the list is empty. */
    method OnMounted() returns (fetch: bool)
      modifies this
      ensures fetch <==> old(chaptersList) == []
      ensures isLoading == (if fetch then old(isLoading).(chapters := true) else old(isLoading))
      ensures chaptersList == old(chaptersList) && selectedChapter == old(selectedChapter)
      ensures currentSort == old(currentSort) && currentSortDir == old(currentSortDir) && searchValue == old(searchValue)
    {
      fetch := |chaptersList| == 0;
      if fetch {
        GetChapters();
      }
    }

    /**
     * The rest of `getChapters`: each fetched chapter is appended without
     * verses; a failed request rejects (the error is rethrown) and leaves the
     * list alone. The flag is cleared either way.
     */
    method ReceiveChapters(response: Response<seq<ChapterSchema>>) returns (outcome: Outcome)
      modifies this
      ensures outcome == (if response.Success? then Resolved else Rejected)
      ensures chaptersList == (if response.Success? then AddChapters(old(chaptersList), response.body) else old(chaptersList))
      ensures isLoading == old(isLoading).(chapters := false)
      ensures selectedChapter == old(selectedChapter)
      ensures currentSort == old(currentSort) && currentSortDir == old(currentSortDir) && searchValue == old(searchValue)
    {
      if response.NetworkError? {
        isLoading := isLoading.(chapters := false);
        return Rejected;
      }
      var fetched := response.body;
      ghost var list0 := chaptersList;
      var i := 0;
      while i < |fetched|
        invariant 0 <= i <= |fetched|
        invariant chaptersList == AddChapters(list0, fetched[..i])
        invariant selectedChapter == old(selectedChapter) && isLoading == old(isLoading)
        invariant currentSort == old(currentSort) && currentSortDir == old(currentSortDir) && searchValue == old(searchValue)
      {
        chaptersList := chaptersList + [ChapterOf(fetched[i])];
        i := i + 1;
      }
      assert fetched[..i] == fetched;
      isLoading := isLoading.(chapters := false);
      outcome := Resolved;
    }

    /**
     * `getVerses(id, loading, page, limit)`, up to the request: nothing at all
     * happens for id 0; otherwise the flags are set (`length` takes
     * `perPage`, not the limit) and the page defaults to 1 and the limit to
     * `perPage` when missing or 0.
     */
    method GetVerses(id: int, loading: bool, page: Option<int>, limit: Option<int>, translations: string)
      returns (request: Option<VersesRequest>)
      modifies this
      ensures id == 0 ==> request == None && isLoading == old(isLoading)
      ensures id != 0 ==> request == Some(VersesRequest(id, translations, OrDefault(page, 1), OrDefault(limit, perPage)))
      ensures id != 0 ==> isLoading == old(isLoading).(verses := loading, length := perPage)
      ensures chaptersList == old(chaptersList) && selectedChapter == old(selectedChapter)
      ensures currentSort == old(currentSort) && currentSortDir == old(currentSortDir) && searchValue == old(searchValue)
    {
      if id == 0 {
        return None;
      }
      isLoading := isLoading.(verses := loading);
      var p := OrDefault(page, 1);
      var l := OrDefault(limit, perPage);
      isLoading := isLoading.(length := perPage);
      request := Some(VersesRequest(id, translations, p, l));
    }

    /**
     * The rest of `getVerses`: the fetched verses are pushed one by one into
     * the chapter with the id, and into the selected chapter when it has that
     * id, skipped by the chapter rule; errors are logged. The flag is cleared
     * either way.
     */
    method ReceiveVerses(id: int, response: Response<seq<Verse>>)
      modifies this
      ensures (chaptersList, selectedChapter) == VersesReceived(old(chaptersList), old(selectedChapter), id, response)
      ensures isLoading == old(isLoading).(verses := false)
      ensures currentSort == old(currentSort) && currentSortDir == old(currentSortDir) && searchValue == old(searchValue)
    {
      var ci := FindChapter(chaptersList, Numbers.Int(id));
      if response.Success? && ci.Some? {
        var chapter := chaptersList[ci.value];
        var verses, selected := PushFetched(chapter.verses, selectedChapter, chapter.id, id, response.body);
        chaptersList := chaptersList[ci.value := chapter.(verses := verses)];
        selectedChapter := selected;
      }
      isLoading := isLoading.(verses := false);
    }

    /**
     * `getVerseByKey(id, verseKey)`, up to the request: nothing happens for an
     * empty key or id 0; otherwise the verses flag is set and `length` is 1.
     */
    method GetVerseByKey(id: int, verseKey: string) returns (request: Option<string>)
      modifies this
      ensures (verseKey == "" || id == 0) ==> request == None && isLoading == old(isLoading)
      ensures (verseKey != "" && id != 0) ==>
        (request == Some(verseKey) && isLoading == old(isLoading).(verses := true, length := 1))
      ensures chaptersList == old(chaptersList) && selectedChapter == old(selectedChapter)
      ensures currentSort == old(currentSort) && currentSortDir == old(currentSortDir) && searchValue == old(searchValue)
    {
      if verseKey == "" || id == 0 {
        return None;
      }
      isLoading := isLoading.(verses := true, length := 1);
      request := Some(verseKey);
    }

    /**
     * The rest of `getVerseByKey`: the fetched verse joins the chapter with the
     * id (and the selected chapter with that id) unless a verse with the
     * requested key is held. The verses flag is left as it was: its reset is
     * commented out.
     */
    method ReceiveVerseByKey(id: int, verseKey: string, response: Response<Verse>)
      modifies this
      ensures (chaptersList, selectedChapter) == VerseByKeyReceived(old(chaptersList), old(selectedChapter), id, verseKey, response)
      ensures isLoading == old(isLoading)
      ensures currentSort == old(currentSort) && currentSortDir == old(currentSortDir) && searchValue == old(searchValue)
    {
      var ci := FindChapter(chaptersList, Numbers.Int(id));
      if response.Success? && ci.Some? {
        var chapter := chaptersList[ci.value];
        if !VerseMerge.HasKey(chapter.verses, verseKey) {
          var v := VerseMerge.Unbookmarked(response.body);
          assert (chapter.verses + [v])[|chapter.verses|..] == [v];
          MirrorSnoc(selectedChapter, chapter.id, [], v);
          MirrorNothing(selectedChapter, chapter.id);
          chaptersList := chaptersList[ci.value := chapter.(verses := chapter.verses + [v])];
          if selectedChapter.Some? && selectedChapter.value.id == chapter.id {
            selectedChapter := Some(selectedChapter.value.(verses := selectedChapter.value.verses + [v]));
          }
        } else {
          assert chapter.verses[|chapter.verses|..] == [];
          assert chapter.(verses := chapter.verses) == chapter;
          assert chaptersList[ci.value := chapter] == chaptersList;
          MirrorNothing(selectedChapter, chapter.id);
        }
      }
    }

    /** `sort(s)`. */
    method Sort(s: string)
      modifies this
      ensures Catalogue.SortState(currentSort, currentSortDir)
           == Catalogue.NextSort(Catalogue.SortState(old(currentSort), old(currentSortDir)), s)
      ensures chaptersList == old(chaptersList) && selectedChapter == old(selectedChapter)
      ensures isLoading == old(isLoading) && searchValue == old(searchValue)
    {
      if s == currentSort {
        currentSortDir := if currentSortDir == "asc" then "desc" else "asc";
      }
      currentSort := s;
    }

    /**
     * The watcher on the selected translation ids: with a non-empty new value
     * and a selected chapter, the chapter's verses are emptied and page 1 is
     * requested again; otherwise nothing happens.
     */
    method OnTranslationsChange(resources: string) returns (request: Option<VersesRequest>)
      modifies this
      ensures (resources == "" || old(selectedChapter).None?) ==>
        request == None && selectedChapter == old(selectedChapter) && isLoading == old(isLoading)
      ensures resources != "" && old(selectedChapter).Some? ==>
        selectedChapter == Some(old(selectedChapter).value.(verses := []))
        && (old(selectedChapter).value.id == 0 ==> request == None && isLoading == old(isLoading))
        && (old(selectedChapter).value.id != 0 ==>
              request == Some(VersesRequest(old(selectedChapter).value.id, resources, 1, perPage))
              && isLoading == old(isLoading).(verses := true, length := perPage))
      ensures chaptersList == old(chaptersList)
      ensures currentSort == old(currentSort) && currentSortDir == old(currentSortDir) && searchValue == old(searchValue)
    {
      request := None;
      if resources != "" && selectedChapter.Some? {
        selectedChapter := Some(selectedChapter.value.(verses := []));
        request := GetVerses(selectedChapter.value.id, true, Some(1), None, resources);
      }
    }
  }

  /** `getVerses` with id 0 leaves every field of the store as it was. */
  method GetVersesZeroId(store: ChapterStore, loading: bool, page: Option<int>, limit: Option<int>, translations: string)
    returns (request: Option<VersesRequest>)
    modifies store
    ensures request == None
    ensures store.isLoading == old(store.isLoading) && store.chaptersList == old(store.chaptersList)
    ensures store.selectedChapter == old(store.selectedChapter) && store.searchValue == old(store.searchValue)
    ensures store.currentSort == old(store.currentSort) && store.currentSortDir == old(store.currentSortDir)
  {
    request := store.GetVerses(0, loading, page, limit, translations);
  }

  /**
   * What the response to `getVerses(id)` does: a chapter id absent from the
   * catalogue changes nothing; otherwise the first chapter with the id gains
   * exactly the first `AcceptedById` fetched verses, marked not bookmarked
   * (none once a verse whose id equals the chapter id is held), every other
   * chapter stays as it was, and the selected chapter gains the same verses
   * iff it has that id.
   */
  lemma VersesReceivedSpec(list: seq<Chapter>, selected: Option<Chapter>, id: int, fetched: seq<Verse>)
    ensures var (l, s) := VersesReceived(list, selected, id, Success(fetched));
      && (FindChapter(list, Numbers.Int(id)).None? ==> l == list && s == selected)
      && (FindChapter(list, Numbers.Int(id)).Some? ==>
            var ci := FindChapter(list, Numbers.Int(id)).value;
            var appended := VerseMerge.AllUnbookmarked(fetched[..VerseMerge.AcceptedById(list[ci].verses, id, fetched)]);
            && |l| == |list|
            && (forall j :: 0 <= j < |list| && j != ci ==> l[j] == list[j])
            && l[ci] == list[ci].(verses := list[ci].verses + appended)
            && (VerseMerge.HasId(list[ci].verses, id) ==> appended == [])
            && (forall v :: v in appended ==> v.bookmarked == Some(false))
            && s == (if selected.Some? && selected.value.id == id
                     then Some(selected.value.(verses := selected.value.verses + appended)) else selected))
  {
    var ci := FindChapter(list, Numbers.Int(id));
    if ci.Some? {
      var c := list[ci.value];
      VerseMerge.MergeByIdSpec(c.verses, id, fetched);
      var merged := VerseMerge.MergeById(c.verses, id, fetched);
      var appended := VerseMerge.AllUnbookmarked(fetched[..VerseMerge.AcceptedById(c.verses, id, fetched)]);
      assert merged[|c.verses|..] == appended;
    }
  }

  /**
   * The response to `getVerseByKey(id, key)` adds the fetched verse, not
   * bookmarked, iff the chapter with the id holds no verse with the
   * requested key; nothing else changes.
   */
  lemma VerseByKeyReceivedSpec(list: seq<Chapter>, selected: Option<Chapter>, id: int, key: string, v: Verse)
    ensures var (l, s) := VerseByKeyReceived(list, selected, id, key, Success(v));
      && (FindChapter(list, Numbers.Int(id)).None? ==> l == list && s == selected)
      && (FindChapter(list, Numbers.Int(id)).Some? ==>
            var ci := FindChapter(list, Numbers.Int(id)).value;
            var added := if VerseMerge.HasKey(list[ci].verses, key) then [] else [VerseMerge.Unbookmarked(v)];
            && |l| == |list|
            && (forall j :: 0 <= j < |list| && j != ci ==> l[j] == list[j])
            && l[ci].verses == list[ci].verses + added
            && s == (if selected.Some? && selected.value.id == id
                     then Some(selected.value.(verses := selected.value.verses + added)) else selected))
  {
    var ci := FindChapter(list, Numbers.Int(id));
    if ci.Some? {
      var c := list[ci.value];
      var added := VerseMerge.AddUnlessKeyHeld(c.verses, key, v);
      if VerseMerge.HasKey(c.verses, key) {
        assert added[|c.verses|..] == [];
      } else {
        assert added[|c.verses|..] == [VerseMerge.Unbookmarked(v)];
      }
    }
  }

  /**
   * Fetching the same page twice into a chapter none of whose verses has the
   * chapter's id as its own id holds every fetched verse twice.
   */
  lemma RefetchDuplicates(list: seq<Chapter>, selected: Option<Chapter>, id: int, fetched: seq<Verse>)
    requires FindChapter(list, Numbers.Int(id)).Some?
    requires !VerseMerge.HasId(list[FindChapter(list, Numbers.Int(id)).value].verses, id)
    requires !VerseMerge.HasId(fetched, id)
    ensures var once := VersesReceived(list, selected, id, Success(fetched));
      var twice := VersesReceived(once.0, once.1, id, Success(fetched));
      var ci := FindChapter(list, Numbers.Int(id)).value;
      twice.0[ci].verses == list[ci].verses + VerseMerge.AllUnbookmarked(fetched) + VerseMerge.AllUnbookmarked(fetched)
  {
    var ci := FindChapter(list, Numbers.Int(id)).value;
    var c := list[ci];
    VerseMerge.MergeByIdRefetch(c.verses, id, fetched);
    var once := VersesReceived(list, selected, id, Success(fetched));
    assert once.0[ci] == c.(verses := VerseMerge.MergeById(c.verses, id, fetched));
    assert FindChapter(once.0, Numbers.Int(id)) == Some(ci) by {
      forall j | 0 <= j < ci ensures Numbers.Int(once.0[j].id) != Numbers.Int(id) {
        assert once.0[j] == list[j];
      }
    }
  }
}

=== FILE: datetime.dfy ===
/**
 * The calendar helpers of src/utils/datetime.ts. A JavaScript `Date` is
 * modelled by its local calendar fields only; the current date, which the
 * source reads from the clock, is a parameter. Dates are written in the
 * full-date form of section 5.6 of RFC 3339 except that the year is not
 * padded to four digits; month lengths follow section 5.7 of RFC 3339
 * (the proleptic Gregorian calendar that `Date` uses).
 */
module DateTime {
  import opened Wrappers
  import Numbers
  import StringUtils

  /** The calendar fields of a `Date`: full year, month index 0..11 and day of the month. */
  datatype Date = Date(year: int, monthIndex: int, day: int)

  /** What `dateToYearMonthDay` returns: the month is 1-based. */
  datatype YearMonthDay = YearMonthDay(year: int, month: int, day: int)

  datatype DateRange = DateRange(from: string, to: string)

  /** An entry of `getMonthsInYear`; the localised month name is not modelled. */
  datatype Month = Month(id: int, daysCount: int)

  /** Gregorian leap years, section 5.7 of RFC 3339. */
  predicate IsLeapYear(year: int) {
    year % 4 == 0 && (year % 100 != 0 || year % 400 == 0)
  }

  /** Number of days of month 1..12 of `year`, the maxima of section 5.7 of RFC 3339. */
  function MonthLength(year: int, month: int): (d: int)
    requires 1 <= month <= 12
    ensures 28 <= d <= 31
    ensures month == 2 ==> (d == 29 <==> IsLeapYear(year))
  {
    if month == 2 then (if IsLeapYear(year) then 29 else 28)
    else if month in {4, 6, 9, 11} then 30
    else 31
  }

  /** The calendar fields every `Date` has. */
  predicate ValidDate(d: Date) {
    0 <= d.monthIndex < 12 && 1 <= d.day <= MonthLength(d.year, d.monthIndex + 1)
  }

  /** `new Date(year, ...)` reads years 0..99 as 1900..1999. */
  function FullYear(year: int): int {
    if 0 <= year <= 99 then 1900 + year else year
  }

  /**
   * `getMonthDateObject(year, month)` = `new Date(year, month, 0)`: day 0 of
   * month index `month` is the last day of the month before, so for `month`
   * in 1..12 it is the last day of that (1-based) month. Out-of-range months
   * roll over into neighbouring years.
   */
  function GetMonthDateObject(year: int, month: int): (d: Date)
    ensures ValidDate(d)
    ensures 1 <= month <= 12 ==> d == Date(FullYear(year), month - 1, MonthLength(FullYear(year), month))
  {
    var y := FullYear(year) + (month - 1) / 12;
    var m := (month - 1) % 12;
    Date(y, m, MonthLength(y, m + 1))
  }

  /** `dateToYearMonthDay(date)`. */
  function DateToYearMonthDay(date: Date): (r: YearMonthDay)
    ensures ValidDate(date) ==> 1 <= r.month <= 12 && 1 <= r.day <= 31
    ensures r.year == date.year && r.month == date.monthIndex + 1 && r.day == date.day
  {
    YearMonthDay(date.year, date.monthIndex + 1, date.day)
  }

  /** `numberToPaddedString(n)` = `n.toString().padStart(2, "0")`. */
  function NumberToPaddedString(n: int): string {
    StringUtils.LPad(Numbers.IntToString(n), 2, "0")
  }

  /**
   * A digit gets a leading zero, larger numbers are written as they are;
   * either way the text has at least two digits and reads back as `n`.
   */
  lemma NumberToPaddedStringSpec(n: int)
    requires n >= 0
    ensures var r := NumberToPaddedString(n);
      && (n < 10 ==> r == ['0', Numbers.DigitChar(n)])
      && (n >= 10 ==> r == Numbers.NatToString(n))
      && |r| >= 2 && Numbers.AllDigits(r) && Numbers.DigitsValue(r) == n
  {
    var s := Numbers.NatToString(n);
    Numbers.NatToStringValue(n);
    if n >= 10 {
      assert |Numbers.NatToString(n / 10)| >= 1;
    } else {
      StringUtils.RepeatChar("0", 1);
      assert StringUtils.Repeat("0", 1) == "0";
      assert ['0', Numbers.DigitChar(n)][..1] == "0";
    }
  }

  /** The two-digit forms of 0..99 are exactly two characters long. */
  lemma TwoDigits(n: int)
    requires 0 <= n <= 99
    ensures |NumberToPaddedString(n)| == 2
  {
    NumberToPaddedStringSpec(n);
    if n >= 10 {
      assert Numbers.NatToString(n) == Numbers.NatToString(n / 10) + [Numbers.DigitChar(n % 10)];
    }
  }

  /**
   * `dateToDateString(date)`: "<year>-<MM>-<DD>". Without an argument the
   * current date `now` is used.
   */
  function DateToDateString(date: Option<Date>, now: Date): string {
    var d := if date.Some? then date.value else now;
    var ymd := DateToYearMonthDay(d);
    Numbers.IntToString(ymd.year) + "-" + NumberToPaddedString(ymd.month) + "-" + NumberToPaddedString(ymd.day)
  }

  /**
   * The full-date form of section 5.6 of RFC 3339: four-digit year, two-digit
   * month 01..12 and two-digit day within the month's length.
   */
  predicate IsFullDate(s: string) {
    && |s| == 10 && s[4] == '-' && s[7] == '-'
    && Numbers.AllDigits(s[..4]) && Numbers.AllDigits(s[5..7]) && Numbers.AllDigits(s[8..])
    && var year, month, day := Numbers.DigitsValue(s[..4]), Numbers.DigitsValue(s[5..7]), Numbers.DigitsValue(s[8..]);
       1 <= month <= 12 && 1 <= day <= MonthLength(year, month)
  }

  /**
   * The date string reads back as the date: after the year and a hyphen come
   * two digits carrying the 1-based month, a hyphen and two digits carrying
   * the day.
   */
  lemma DateToDateStringSpec(d: Date, now: Date)
    requires ValidDate(d) && d.year >= 0
    ensures var s, y := DateToDateString(Some(d), now), Numbers.NatToString(d.year);
      && |s| == |y| + 6 && s[..|y|] == y && s[|y|] == '-' && s[|y| + 3] == '-'
      && Numbers.AllDigits(s[|y| + 1..|y| + 3]) && Numbers.DigitsValue(s[|y| + 1..|y| + 3]) == d.monthIndex + 1
      && Numbers.AllDigits(s[|y| + 4..]) && Numbers.DigitsValue(s[|y| + 4..]) == d.day
  {
    var y, mm, dd := Numbers.NatToString(d.year), NumberToPaddedString(d.monthIndex + 1), NumberToPaddedString(d.day);
    var s := DateToDateString(Some(d), now);
    assert s == y + "-" + mm + "-" + dd;
    assert |mm| == 2 && Numbers.AllDigits(mm) && Numbers.DigitsValue(mm) == d.monthIndex + 1 by {
      NumberToPaddedStringSpec(d.monthIndex + 1);
      TwoDigits(d.monthIndex + 1);
    }
    assert |dd| == 2 && Numbers.AllDigits(dd) && Numbers.DigitsValue(dd) == d.day by {
      NumberToPaddedStringSpec(d.day);
      TwoDigits(d.day);
    }
    DashedFields(y, mm, dd);
  }

  /** Where the fields of "<y>-<mm>-<dd>" sit when `mm` and `dd` have two characters each. */
  lemma DashedFields(y: string, mm: string, dd: string)
    requires |mm| == 2 && |dd| == 2
    ensures var s := y + "-" + mm + "-" + dd;
      && |s| == |y| + 6 && s[..|y|] == y && s[|y|] == '-' && s[|y| + 3] == '-'
      && s[|y| + 1..|y| + 3] == mm && s[|y| + 4..] == dd
  {
  }

  /** For a year with four digits the date string is an RFC 3339 full-date. */
  lemma DateToDateStringFullDate(d: Date, now: Date)
    requires ValidDate(d) && 1000 <= d.year <= 9999
    ensures IsFullDate(DateToDateString(Some(d), now))
  {
    DateToDateStringSpec(d, now);
    FourDigits(d.year);
    Numbers.NatToStringValue(d.year);
  }

  /** Years 1000..9999 are written with exactly four digits. */
  lemma FourDigits(year: nat)
    requires 1000 <= year <= 9999
    ensures |Numbers.NatToString(year)| == 4
  {
    var a := year / 10;
    var b := a / 10;
    var c := b / 10;
    assert Numbers.NatToString(c) == [Numbers.DigitChar(c)];
    assert Numbers.NatToString(b) == Numbers.NatToString(c) + [Numbers.DigitChar(b % 10)];
    assert Numbers.NatToString(a) == Numbers.NatToString(b) + [Numbers.DigitChar(a % 10)];
    assert Numbers.NatToString(year) == Numbers.NatToString(a) + [Numbers.DigitChar(year % 10)];
  }

  /**
   * `makeDateRangeFromMonth(month, year)`: from the first to the last day of
   * the month, both as "<year>-<MM>-<DD>".
   */
  function MakeDateRangeFromMonth(month: int, year: int): DateRange {
    var prefix := Numbers.IntToString(year) + "-" + NumberToPaddedString(month) + "-";
    DateRange(prefix + "01", prefix + NumberToPaddedString(GetMonthDateObject(year, month).day))
  }

  /**
   * For a month 1..12 both ends share the "<year>-<MM>-" prefix; `from` is
   * day 01 and `to` is the month's last day in the year `new Date` reads
   * (years 0..99 count as 1900..1999), 29 for February exactly in leap years.
   */
  lemma MakeDateRangeFromMonthSpec(month: int, year: int)
    requires 1 <= month <= 12
    ensures var r, p := MakeDateRangeFromMonth(month, year),
                        Numbers.IntToString(year) + "-" + NumberToPaddedString(month) + "-";
      && r.from == p + "01"
      && |r.to| == |p| + 2 && r.to[..|p|] == p
      && Numbers.AllDigits(r.to[|p|..])
      && Numbers.DigitsValue(r.to[|p|..]) == MonthLength(FullYear(year), month)
  {
    var p := Numbers.IntToString(year) + "-" + NumberToPaddedString(month) + "-";
    var days := MonthLength(FullYear(year), month);
    NumberToPaddedStringSpec(days);
    TwoDigits(days);
    var r := MakeDateRangeFromMonth(month, year);
    assert r.to == p + NumberToPaddedString(days);
    assert r.to[|p|..] == NumberToPaddedString(days);
  }

  /**
   * `getMonthsInYear(year, locale)`: a loop over the months 1..12 that
   * pushes each month's number and day count.
   */
  method GetMonthsInYear(year: int) returns (all: seq<Month>)
    ensures |all| == 12
    ensures forall k :: 0 <= k < 12 ==>
      all[k].id == k + 1 && all[k].daysCount == MonthLength(FullYear(year), k + 1)
  {
    all := [];
    for i := 1 to 13
      invariant |all| == i - 1
      invariant forall k :: 0 <= k < i - 1 ==>
        all[k].id == k + 1 && all[k].daysCount == MonthLength(FullYear(year), k + 1)
    {
      var monthDate := GetMonthDateObject(year, i);
      all := all + [Month(i, monthDate.day)];
    }
  }
}

=== FILE: grouping.dfy ===
/**
 * The collection idioms the stores and helpers share:
 * - `xs.find(p)`, through the index of the element it returns;
 * - `xs.reduce((acc, x) => { (acc[k(x)] = acc[k(x)] || []).push(x); return acc }, {})`,
 *   grouping into an object keyed by `k` (key order of the object is not kept);
 * - `[...new Set(xs)]`, the distinct values in first-appearance order;
 * - `[...new Map(xs.map(x => [k(x), x])).values()]`, one entry per key in
 *   first-appearance order holding the last element with that key.
 * Each is defined the way the JavaScript runs it, element after element,
 * and proved equal to an independent description of its result.
 */
module Grouping {
  import opened Wrappers

  // -------------------------------------------------------------- find index

  /** `xs.findIndex(p)`: the first index whose element satisfies `p`, `None` for -1. */
  function FindIndex<T>(xs: seq<T>, p: T -> bool): (r: Option<nat>)
    ensures r.Some? ==> r.value < |xs| && p(xs[r.value]) && forall j :: 0 <= j < r.value ==> !p(xs[j])
    ensures r.None? ==> forall j :: 0 <= j < |xs| ==> !p(xs[j])
  {
    if xs == [] then None
    else if p(xs[0]) then Some(0)
    else
      var rest := FindIndex(xs[1..], p);
      if rest.None? then None else Some(rest.value + 1)
  }

  // ---------------------------------------------------------------- group by

  /** The reduce-into-object grouping, one element at a time from the left. */
  function GroupBy<T, K(==)>(xs: seq<T>, key: T -> K): map<K, seq<T>>
  {
    if xs == [] then map[]
    else
      var g, x := GroupBy(xs[..|xs| - 1], key), xs[|xs| - 1];
      g[key(x) := (if key(x) in g then g[key(x)] else []) + [x]]
  }

  /** The elements of `xs` whose key is `k`, in their order in `xs`. */
  function WithKey<T, K(==)>(xs: seq<T>, key: T -> K, k: K): (r: seq<T>)
    ensures |r| <= |xs|
  {
    if xs == [] then []
    else if key(xs[0]) == k then [xs[0]] + WithKey(xs[1..], key, k)
    else WithKey(xs[1..], key, k)
  }

  /** `WithKey` of a longer list: the new element joins at the end when its key matches. */
  lemma {:induction false} WithKeySnoc<T, K>(xs: seq<T>, x: T, key: T -> K, k: K)
    ensures WithKey(xs + [x], key, k) == WithKey(xs, key, k) + (if key(x) == k then [x] else [])
  {
    if xs != [] {
      assert (xs + [x])[1..] == xs[1..] + [x];
      WithKeySnoc(xs[1..], x, key, k);
    }
  }

  /** An element is in the group of `k` exactly when it is in `xs` and its key is `k`. */
  lemma {:induction false} WithKeyMembers<T, K>(xs: seq<T>, key: T -> K, k: K)
    ensures forall x :: x in WithKey(xs, key, k) <==> x in xs && key(x) == k
  {
    if xs != [] {
      WithKeyMembers(xs[1..], key, k);
      assert forall x :: x in xs <==> x == xs[0] || x in xs[1..];
    }
  }

  /**
   * The grouping has a key exactly for the keys that occur, and the group of
   * each key holds the elements with that key in their original order: every
   * element lands in exactly one group, the one of its own key.
   */
  lemma {:induction false} GroupBySpec<T, K>(xs: seq<T>, key: T -> K)
    ensures forall k :: k in GroupBy(xs, key) <==> exists i :: 0 <= i < |xs| && key(xs[i]) == k
    ensures forall k :: k in GroupBy(xs, key) ==> GroupBy(xs, key)[k] == WithKey(xs, key, k)
  {
    if xs != [] {
      var p, x := xs[..|xs| - 1], xs[|xs| - 1];
      assert xs == p + [x];
      GroupBySpec(p, key);
      forall k ensures k in GroupBy(xs, key) <==> exists i :: 0 <= i < |xs| && key(xs[i]) == k {
        if exists i :: 0 <= i < |xs| && key(xs[i]) == k {
          var i :| 0 <= i < |xs| && key(xs[i]) == k;
          if i < |p| { assert key(p[i]) == k; }
        }
        if k in GroupBy(p, key) {
          var i :| 0 <= i < |p| && key(p[i]) == k;
          assert key(xs[i]) == k;
        }
      }
      forall k | k in GroupBy(xs, key) ensures GroupBy(xs, key)[k] == WithKey(xs, key, k) {
        WithKeySnoc(p, x, key, k);
        if k !in GroupBy(p, key) && key(x) == k {
          forall j | 0 <= j < |p| ensures key(p[j]) != k {
            GroupByHas(p, key, j);
          }
          WithKeyNone(p, key, k);
        }
      }
    }
  }

  /** The key of every element has a group. */
  lemma {:induction false} GroupByHas<T, K>(xs: seq<T>, key: T -> K, i: nat)
    requires i < |xs|
    ensures key(xs[i]) in GroupBy(xs, key)
  {
    var p := xs[..|xs| - 1];
    if i < |p| {
      GroupByHas(p, key, i);
    }
  }

  /** No element with key `k`, no group for `k`. */
  lemma {:induction false} WithKeyNone<T, K>(xs: seq<T>, key: T -> K, k: K)
    requires forall i :: 0 <= i < |xs| ==> key(xs[i]) != k
    ensures WithKey(xs, key, k) == []
  {
    if xs != [] {
      WithKeyNone(xs[1..], key, k);
    }
  }

  // ---------------------------------------------------------------- distinct

  /** `new Set(xs)` iterated: each element is added unless the set already holds it. */
  function DistinctFrom<T(==)>(xs: seq<T>, acc: seq<T>): seq<T>
  {
    if xs == [] then acc
    else DistinctFrom(xs[1..], if xs[0] in acc then acc else acc + [xs[0]])
  }

  /** `[...new Set(xs)]`. */
  function Distinct<T(==)>(xs: seq<T>): seq<T> {
    DistinctFrom(xs, [])
  }

  /** The reference: the elements of `xs` at the indices where they occur for the first time. */
  function FirstOccurrences<T(==)>(xs: seq<T>): seq<T> {
    if xs == [] then []
    else
      var p := xs[..|xs| - 1];
      FirstOccurrences(p) + (if xs[|xs| - 1] in p then [] else [xs[|xs| - 1]])
  }

  predicate NoDuplicates<T(==)>(xs: seq<T>) {
    forall i, j :: 0 <= i < j < |xs| ==> xs[i] != xs[j]
  }

  /** First occurrences hold every element of `xs` once and nothing else. */
  lemma {:induction false} FirstOccurrencesSpec<T>(xs: seq<T>)
    ensures forall x :: x in FirstOccurrences(xs) <==> x in xs
    ensures NoDuplicates(FirstOccurrences(xs))
  {
    if xs != [] {
      var p := xs[..|xs| - 1];
      assert xs == p + [xs[|xs| - 1]];
      FirstOccurrencesSpec(p);
    }
  }

  /** Folding the rest of the list onto the first occurrences of a prefix. */
  lemma {:induction false} DistinctFromFirst<T>(done: seq<T>, ys: seq<T>)
    ensures DistinctFrom(ys, FirstOccurrences(done)) == FirstOccurrences(done + ys)
    decreases |ys|
  {
    if ys == [] {
      assert done + ys == done;
    } else {
      var next := done + [ys[0]];
      var acc := FirstOccurrences(done);
      var acc' := if ys[0] in acc then acc else acc + [ys[0]];
      assert DistinctFrom(ys, acc) == DistinctFrom(ys[1..], acc');
      FirstOccurrencesPush(done, ys[0]);
      assert acc' == FirstOccurrences(next);
      DistinctFromFirst(next, ys[1..]);
      ConcatShift(done, ys);
    }
  }

  lemma ConcatShift<T>(done: seq<T>, ys: seq<T>)
    requires ys != []
    ensures (done + [ys[0]]) + ys[1..] == done + ys
  {
  }

  /** One more element: it is kept when it is new, dropped when it repeats. */
  lemma FirstOccurrencesPush<T>(done: seq<T>, y: T)
    ensures FirstOccurrences(done + [y]) ==
            if y in FirstOccurrences(done) then FirstOccurrences(done) else FirstOccurrences(done) + [y]
  {
    FirstOccurrencesSpec(done);
    assert (done + [y])[..|done|] == done;
  }

  /**
   * `[...new Set(xs)]` is the list of first occurrences: no value twice, the
   * same values as `xs`, in the order in which they first appear.
   */
  lemma DistinctSpec<T>(xs: seq<T>)
    ensures Distinct(xs) == FirstOccurrences(xs)
    ensures forall x :: x in Distinct(xs) <==> x in xs
    ensures NoDuplicates(Distinct(xs))
  {
    DistinctFromFirst([], xs);
    assert [] + xs == xs;
    FirstOccurrencesSpec(xs);
  }

  // ------------------------------------------------------- map, keeping last

  /** The keys of a list of elements. */
  function Keys<T, K>(xs: seq<T>, key: T -> K): (r: seq<K>)
    ensures |r| == |xs| && forall i :: 0 <= i < |xs| ==> r[i] == key(xs[i])
  {
    seq(|xs|, i requires 0 <= i < |xs| => key(xs[i]))
  }

  /** `map.set(key(x), x)` on a map listed in insertion order: replace in place, or append. */
  function Put<T, K(==)>(entries: seq<T>, x: T, key: T -> K): (r: seq<T>)
    ensures |r| == |entries| || |r| == |entries| + 1
  {
    if entries == [] then [x]
    else if key(entries[0]) == key(x) then [x] + entries[1..]
    else [entries[0]] + Put(entries[1..], x, key)
  }

  /** `[...new Map(xs.map(x => [key(x), x])).values()]`. */
  function KeepLast<T, K(==)>(xs: seq<T>, key: T -> K): seq<T>
  {
    if xs == [] then [] else Put(KeepLast(xs[..|xs| - 1], key), xs[|xs| - 1], key)
  }

  /** The last element of `xs` whose key is `k`. */
  function LastWithKey<T, K(==)>(xs: seq<T>, key: T -> K, k: K): T
    requires k in Keys(xs, key)
  {
    if key(xs[|xs| - 1]) == k then xs[|xs| - 1]
    else
      assert k in Keys(xs[..|xs| - 1], key) by {
        var i :| 0 <= i < |xs| && Keys(xs, key)[i] == k;
        assert Keys(xs[..|xs| - 1], key)[i] == k;
      }
      LastWithKey(xs[..|xs| - 1], key, k)
  }

  /** Putting an element whose key is new appends it; one whose key is at index `i` replaces that entry. */
  lemma {:induction false} PutSpec<T, K>(entries: seq<T>, x: T, key: T -> K)
    requires NoDuplicates(Keys(entries, key))
    ensures key(x) !in Keys(entries, key) ==> Put(entries, x, key) == entries + [x]
    ensures forall i :: 0 <= i < |entries| && key(entries[i]) == key(x) ==>
      Put(entries, x, key) == entries[i := x]
  {
    if entries != [] {
      var rest := entries[1..];
      assert forall i :: 0 <= i < |rest| ==> Keys(rest, key)[i] == Keys(entries, key)[i + 1];
      PutSpec(rest, x, key);
      if key(entries[0]) != key(x) {
        assert key(x) !in Keys(entries, key) ==> key(x) !in Keys(rest, key) by {
          if key(x) in Keys(rest, key) {
            var i :| 0 <= i < |rest| && Keys(rest, key)[i] == key(x);
            assert Keys(entries, key)[i + 1] == key(x);
          }
        }
        forall i | 0 <= i < |entries| && key(entries[i]) == key(x)
          ensures Put(entries, x, key) == entries[i := x]
        {
          assert i > 0;
          assert rest[i - 1] == entries[i];
          assert [entries[0]] + rest[i - 1 := x] == entries[i := x];
        }
      } else {
        forall i | 0 <= i < |entries| && key(entries[i]) == key(x)
          ensures Put(entries, x, key) == entries[i := x]
        {
          assert [x] + rest == entries[0 := x];
        }
      }
    }
  }

  /**
   * The `Map` keeps one entry per distinct key, in the order the keys first
   * appear, and the entry of each key is the last element with that key.
   */
  lemma {:induction false} KeepLastSpec<T, K>(xs: seq<T>, key: T -> K)
    ensures Keys(KeepLast(xs, key), key) == FirstOccurrences(Keys(xs, key))
    ensures forall i :: 0 <= i < |KeepLast(xs, key)| ==>
      key(KeepLast(xs, key)[i]) in Keys(xs, key) &&
      KeepLast(xs, key)[i] == LastWithKey(xs, key, key(KeepLast(xs, key)[i]))
  {
    if xs != [] {
      var p := xs[..|xs| - 1];
      KeepLastSpec(p, key);
      if key(xs[|xs| - 1]) in Keys(p, key) {
        KeepLastReplace(xs, key);
      } else {
        KeepLastAppend(xs, key);
      }
    }
  }


  /** The keys of `KeepLast` are the first occurrences of the keys. */
  predicate KeptKeys<T, K(==)>(xs: seq<T>, key: T -> K) {
    Keys(KeepLast(xs, key), key) == FirstOccurrences(Keys(xs, key))
  }

  /** Each entry of `KeepLast` is the last element with its key. */
  predicate KeptValues<T(==), K(==)>(xs: seq<T>, key: T -> K) {
    forall i :: 0 <= i < |KeepLast(xs, key)| ==>
      key(KeepLast(xs, key)[i]) in Keys(xs, key) &&
      KeepLast(xs, key)[i] == LastWithKey(xs, key, key(KeepLast(xs, key)[i]))
  }

  /** `KeepLast` of a list whose last key was seen: that key's entry is replaced. */
  lemma KeepLastReplaced<T, K>(xs: seq<T>, key: T -> K) returns (i: nat)
    requires xs != [] && key(xs[|xs| - 1]) in Keys(xs[..|xs| - 1], key)
    requires KeptKeys(xs[..|xs| - 1], key)
    ensures var e := KeepLast(xs[..|xs| - 1], key);
      && i < |e| && key(e[i]) == key(xs[|xs| - 1])
      && KeepLast(xs, key) == e[i := xs[|xs| - 1]]
      && NoDuplicates(Keys(e, key))
  {
    var p, x := xs[..|xs| - 1], xs[|xs| - 1];
    var e := KeepLast(p, key);
    var ke := Keys(e, key);
    assert ke == FirstOccurrences(Keys(p, key));
    FirstOccurrencesSpec(Keys(p, key));
    assert key(x) in ke;
    i :| 0 <= i < |ke| && ke[i] == key(x);
    PutSpec(e, x, key);
  }

  /** `KeepLast` of a list whose last key is new: the last element is appended. */
  lemma KeepLastAppended<T, K>(xs: seq<T>, key: T -> K)
    requires xs != [] && key(xs[|xs| - 1]) !in Keys(xs[..|xs| - 1], key)
    requires KeptKeys(xs[..|xs| - 1], key)
    ensures KeepLast(xs, key) == KeepLast(xs[..|xs| - 1], key) + [xs[|xs| - 1]]
  {
    var p, x := xs[..|xs| - 1], xs[|xs| - 1];
    var e := KeepLast(p, key);
    var kp := Keys(p, key);
    assert Keys(e, key) == FirstOccurrences(kp);
    assert key(x) !in kp;
    FirstOccurrencesSpec(kp);
    assert NoDuplicates(FirstOccurrences(kp));
    assert key(x) in FirstOccurrences(kp) ==> key(x) in kp;
    assert key(x) !in FirstOccurrences(kp);
    PutSpec(e, x, key);
    assert KeepLast(xs, key) == Put(e, x, key);
  }

  lemma KeepLastReplace<T, K>(xs: seq<T>, key: T -> K)
    requires xs != [] && key(xs[|xs| - 1]) in Keys(xs[..|xs| - 1], key)
    requires KeptKeys(xs[..|xs| - 1], key) && KeptValues(xs[..|xs| - 1], key)
    ensures KeptKeys(xs, key) && KeptValues(xs, key)
  {
    var i := KeepLastReplaced(xs, key);
    KeepLastReplaceKeys(xs, key, i);
    KeepLastReplaceValues(xs, key, i);
  }

  lemma KeepLastReplaceKeys<T, K>(xs: seq<T>, key: T -> K, i: nat)
    requires xs != [] && key(xs[|xs| - 1]) in Keys(xs[..|xs| - 1], key)
    requires KeptKeys(xs[..|xs| - 1], key)
    requires var e := KeepLast(xs[..|xs| - 1], key);
      i < |e| && key(e[i]) == key(xs[|xs| - 1]) && KeepLast(xs, key) == e[i := xs[|xs| - 1]]
    ensures KeptKeys(xs, key)
  {
    var p, x := xs[..|xs| - 1], xs[|xs| - 1];
    var ks, kp := Keys(xs, key), Keys(p, key);
    assert ks[..|ks| - 1] == kp && ks[|ks| - 1] == key(x);
    var e := KeepLast(p, key);
    assert Keys(e[i := x], key) == Keys(e, key);
  }

  lemma KeepLastReplaceValues<T, K>(xs: seq<T>, key: T -> K, i: nat)
    requires xs != [] && key(xs[|xs| - 1]) in Keys(xs[..|xs| - 1], key)
    requires KeptValues(xs[..|xs| - 1], key)
    requires var e := KeepLast(xs[..|xs| - 1], key);
      && i < |e| && key(e[i]) == key(xs[|xs| - 1]) && KeepLast(xs, key) == e[i := xs[|xs| - 1]]
      && NoDuplicates(Keys(e, key))
    ensures KeptValues(xs, key)
  {
    var p, x := xs[..|xs| - 1], xs[|xs| - 1];
    var e := KeepLast(p, key);
    var r := e[i := x];
    forall j | 0 <= j < |r| ensures key(r[j]) in Keys(xs, key) && r[j] == LastWithKey(xs, key, key(r[j])) {
      if j != i {
        assert key(r[j]) != key(x) by { assert Keys(e, key)[j] != Keys(e, key)[i]; }
        KeyInPrefix(xs, key, key(r[j]));
      } else {
        assert Keys(xs, key)[|xs| - 1] == key(x);
      }
    }
  }

  lemma KeepLastAppend<T, K>(xs: seq<T>, key: T -> K)
    requires xs != [] && key(xs[|xs| - 1]) !in Keys(xs[..|xs| - 1], key)
    requires KeptKeys(xs[..|xs| - 1], key) && KeptValues(xs[..|xs| - 1], key)
    ensures KeptKeys(xs, key) && KeptValues(xs, key)
  {
    KeepLastAppended(xs, key);
    KeepLastAppendKeys(xs, key);
    KeepLastAppendValues(xs, key);
  }

  lemma KeepLastAppendKeys<T, K>(xs: seq<T>, key: T -> K)
    requires xs != [] && key(xs[|xs| - 1]) !in Keys(xs[..|xs| - 1], key)
    requires KeptKeys(xs[..|xs| - 1], key)
    requires KeepLast(xs, key) == KeepLast(xs[..|xs| - 1], key) + [xs[|xs| - 1]]
    ensures KeptKeys(xs, key)
  {
    AppendKeys(xs, KeepLast(xs[..|xs| - 1], key), key);
  }

  /** Appending an element with a new key to entries keyed by first occurrence. */
  lemma AppendKeys<T, K>(xs: seq<T>, e: seq<T>, key: T -> K)
    requires xs != [] && key(xs[|xs| - 1]) !in Keys(xs[..|xs| - 1], key)
    requires Keys(e, key) == FirstOccurrences(Keys(xs[..|xs| - 1], key))
    ensures Keys(e + [xs[|xs| - 1]], key) == FirstOccurrences(Keys(xs, key))
  {
    var p, x := xs[..|xs| - 1], xs[|xs| - 1];
    assert xs == p + [x];
    KeysSnoc(p, x, key);
    KeysSnoc(e, x, key);
    FirstOccurrencesSnoc(Keys(p, key), key(x));
  }

  /** A new value is appended to the first occurrences. */
  lemma FirstOccurrencesSnoc<K>(ks: seq<K>, k: K)
    requires k !in ks
    ensures FirstOccurrences(ks + [k]) == FirstOccurrences(ks) + [k]
  {
    assert (ks + [k])[..|ks|] == ks;
  }

  lemma KeysSnoc<T, K>(e: seq<T>, x: T, key: T -> K)
    ensures Keys(e + [x], key) == Keys(e, key) + [key(x)]
  {
    var a, b := Keys(e + [x], key), Keys(e, key) + [key(x)];
    assert |a| == |b|;
    forall i | 0 <= i < |a| ensures a[i] == b[i] {
      if i < |e| {
        assert (e + [x])[i] == e[i];
      }
    }
  }

  lemma KeepLastAppendValues<T, K>(xs: seq<T>, key: T -> K)
    requires xs != [] && key(xs[|xs| - 1]) !in Keys(xs[..|xs| - 1], key)
    requires KeptValues(xs[..|xs| - 1], key)
    requires KeepLast(xs, key) == KeepLast(xs[..|xs| - 1], key) + [xs[|xs| - 1]]
    ensures KeptValues(xs, key)
  {
    AppendValues(xs, KeepLast(xs[..|xs| - 1], key), key);
  }

  /** Appending the last element to entries that are each the last of their key in the prefix. */
  lemma AppendValues<T, K>(xs: seq<T>, e: seq<T>, key: T -> K)
    requires xs != [] && key(xs[|xs| - 1]) !in Keys(xs[..|xs| - 1], key)
    requires forall i :: 0 <= i < |e| ==>
      key(e[i]) in Keys(xs[..|xs| - 1], key) && e[i] == LastWithKey(xs[..|xs| - 1], key, key(e[i]))
    ensures var r := e + [xs[|xs| - 1]];
      forall i :: 0 <= i < |r| ==> key(r[i]) in Keys(xs, key) && r[i] == LastWithKey(xs, key, key(r[i]))
  {
    var x := xs[|xs| - 1];
    var r := e + [x];
    forall j | 0 <= j < |r| ensures key(r[j]) in Keys(xs, key) && r[j] == LastWithKey(xs, key, key(r[j])) {
      if j < |e| {
        assert r[j] == e[j];
        KeyInPrefix(xs, key, key(r[j]));
      } else {
        assert Keys(xs, key)[|xs| - 1] == key(x);
      }
    }
  }

  /** A key of the prefix is a key of the list, and its last element is found in the prefix when the last element has another key. */
  lemma KeyInPrefix<T, K>(xs: seq<T>, key: T -> K, k: K)
    requires xs != [] && k in Keys(xs[..|xs| - 1], key) && key(xs[|xs| - 1]) != k
    ensures k in Keys(xs, key)
    ensures LastWithKey(xs, key, k) == LastWithKey(xs[..|xs| - 1], key, k)
  {
    var kp := Keys(xs[..|xs| - 1], key);
    var m :| 0 <= m < |kp| && kp[m] == k;
    assert Keys(xs, key)[m] == k;
  }
}

=== FILE: i18n.dfy ===
/**
 * src/plugins/i18n.ts: message lookup by dotted key in the current locale's
 * message table, `{n}` placeholder formatting, and the locale state. The
 * message tables are a parameter (the plugin's options); reading and
 * writing the stored locale is left to the caller.
 */
module I18n {
  import opened Wrappers
  import Numbers
  import JsString

  /** A message table entry: a message, or a nested table. */
  datatype Node = Message(text: string) | Table(entries: map<string, Node>)

  /** What the key walk holds at each step: an entry, or `undefined`. */
  datatype Walked = Undefined | Found(node: Node)

  // ------------------------------------------------------------- format

  /**
   * The length of the digit run of a `{digits}` placeholder at the start of
   * `s`, if one is there: "{", one or more digits, "}".
   */
  function PlaceholderAt(s: string): (r: Option<nat>)
    ensures r.Some? ==>
      (r.value >= 1 && r.value + 2 <= |s| && s[0] == '{' && s[r.value + 1] == '}'
       && Numbers.AllDigits(s[1..r.value + 1]))
  {
    if s == [] || s[0] != '{' then None
    else
      var n := Numbers.DigitRun(s[1..]);
      if n >= 1 && n + 1 < |s| && s[n + 1] == '}' then
        assert s[1..n + 1] == s[1..][..n];
        Some(n)
      else None
  }

  /**
   * `args[i]` for the digit string `i`, as JavaScript reads a property: only
   * a canonical numeral below the length names an element; anything else,
   * "01" for one, is `undefined`, which the replacement writes as "undefined".
   */
  function Arg(args: seq<string>, digits: string): string
    requires Numbers.AllDigits(digits)
  {
    if Numbers.Canonical(digits) && Numbers.DigitsValue(digits) < |args| then args[Numbers.DigitsValue(digits)]
    else "undefined"
  }

  /**
   * `format(line, args)`: every `{digits}` placeholder, left to right and
   * without overlap, is replaced by the argument it names (the test meant
   * to keep unmatched placeholders compares a type name with `undefined`
   * and always passes).
   */
  function Format(s: string, args: seq<string>): string
    decreases |s|
  {
    if s == [] then []
    else
      var p := PlaceholderAt(s);
      if p.Some? then Arg(args, s[1..p.value + 1]) + Format(s[p.value + 2..], args)
      else [s[0]] + Format(s[1..], args)
  }

  /** No placeholder starts at any position of `s`. */
  predicate NoPlaceholder(s: string) {
    forall i :: 0 <= i < |s| ==> PlaceholderAt(s[i..]).None?
  }

  /** Text without a placeholder is left as it is. */
  lemma {:induction false} FormatNoPlaceholder(s: string, args: seq<string>)
    requires NoPlaceholder(s)
    ensures Format(s, args) == s
    decreases |s|
  {
    if s != [] {
      assert s[0..] == s;
      forall i | 0 <= i < |s[1..]| ensures PlaceholderAt(s[1..][i..]).None? {
        assert s[1..][i..] == s[i + 1..];
      }
      FormatNoPlaceholder(s[1..], args);
    }
  }

  /** Text without "{" has no placeholder. */
  lemma NoBraceNoPlaceholder(s: string)
    requires '{' !in s
    ensures NoPlaceholder(s)
  {
    forall i | 0 <= i < |s| ensures PlaceholderAt(s[i..]).None? {
      assert s[i..][0] == s[i];
    }
  }

  /** Text without "{" in front of the rest is copied as it is. */
  lemma {:induction false} FormatPlainPrefix(pre: string, rest: string, args: seq<string>)
    requires '{' !in pre
    ensures Format(pre + rest, args) == pre + Format(rest, args)
    decreases |pre|
  {
    if pre != [] {
      var s := pre + rest;
      assert pre[0] in pre;
      assert s[0] == pre[0] && s[1..] == pre[1..] + rest;
      assert PlaceholderAt(s) == None;
      assert Format(s, args) == [pre[0]] + Format(pre[1..] + rest, args);
      FormatPlainPrefix(pre[1..], rest, args);
      assert pre == [pre[0]] + pre[1..];
    } else {
      assert pre + rest == rest;
    }
  }

  /** A "{", a run of digits and a "}" in front of the rest is a placeholder. */
  lemma PlaceholderOfDigits(d: string, rest: string)
    requires Numbers.AllDigits(d) && |d| >= 1
    ensures PlaceholderAt("{" + d + "}" + rest) == Some(|d|)
  {
    var close := "}" + rest;
    var s := "{" + d + "}" + rest;
    assert s[0] == '{' && s[1..] == d + close;
    Numbers.DigitRunExact(d, close);
    assert s[|d| + 1] == '}';
  }

  /** A placeholder in front of the rest is replaced by the argument its digits name. */
  lemma FormatDigits(d: string, rest: string, args: seq<string>)
    requires Numbers.AllDigits(d) && |d| >= 1
    ensures Format("{" + d + "}" + rest, args) == Arg(args, d) + Format(rest, args)
  {
    var s := "{" + d + "}" + rest;
    PlaceholderOfDigits(d, rest);
    assert s[1..|d| + 1] == d;
    assert s[|d| + 2..] == rest;
  }

  /**
   * A placeholder `{i}` written as `String(i)` is replaced by the `i`-th
   * argument, or by "undefined" when there are not that many arguments.
   */
  lemma FormatPlaceholder(i: nat, rest: string, args: seq<string>)
    ensures Format("{" + Numbers.NatToString(i) + "}" + rest, args)
      == (if i < |args| then args[i] else "undefined") + Format(rest, args)
  {
    var d := Numbers.NatToString(i);
    FormatDigits(d, rest, args);
    Numbers.NatToStringValue(i);
  }

  /** A zero-padded index such as "{01}" names no argument. */
  lemma FormatPaddedIndex(d: string, rest: string, args: seq<string>)
    requires Numbers.AllDigits(d) && |d| >= 1
    ensures Format("{0" + d + "}" + rest, args) == "undefined" + Format(rest, args)
  {
    assert "{0" + d == "{" + ("0" + d);
    FormatDigits("0" + d, rest, args);
  }

  // ------------------------------------------------------------- line

  /** One step of the key walk: into a table by the key part; a message or `undefined` is kept as it is. */
  function Step(o: Walked, part: string): Walked {
    if o.Found? && o.node.Table? then
      (if part in o.node.entries then Found(o.node.entries[part]) else Undefined)
    else o
  }

  /** The key walk: `parts.reduce(step, start)`. */
  function Walk(o: Walked, parts: seq<string>): Walked
    decreases |parts|
  {
    if parts == [] then o else Walk(Step(o, parts[0]), parts[1..])
  }

  /** Once the walk reaches a message or `undefined`, the remaining key parts are ignored. */
  lemma {:induction false} WalkStops(o: Walked, parts: seq<string>)
    requires o.Undefined? || o.node.Message?
    ensures Walk(o, parts) == o
    decreases |parts|
  {
    if parts != [] {
      WalkStops(Step(o, parts[0]), parts[1..]);
    }
  }

  /** The text of a looked-up entry, as `toString` gives it; a nested table prints as an object. */
  function Text(n: Node): string {
    if n.Message? then n.text else "[object Object]"
  }

  /**
   * `t.line(key, replacement)` with the message tables of every locale: the
   * key's dot-separated parts are walked from the current locale's table;
   * an `undefined` result gives the key itself; with replacements the
   * result is formatted.
   */
  function Line(tables: map<string, Node>, locale: string, key: string, replacement: Option<seq<string>>): string {
    var start := if locale in tables then Found(tables[locale]) else Undefined;
    var result := Walk(start, JsString.Split(key, '.'));
    if result.Undefined? then key
    else if replacement.Some? then Format(Text(result.node), replacement.value)
    else Text(result.node)
  }

  /** A locale without a table, or a key whose first part is missing, gives the key back. */
  lemma LineMissing(tables: map<string, Node>, locale: string, key: string, replacement: Option<seq<string>>)
    requires locale !in tables || (tables[locale].Table? && JsString.Split(key, '.')[0] !in tables[locale].entries)
    ensures Line(tables, locale, key, replacement) == key
  {
    var parts := JsString.Split(key, '.');
    var start := if locale in tables then Found(tables[locale]) else Undefined;
    assert Walk(start, parts) == Walk(Step(start, parts[0]), parts[1..]);
    WalkStops(Step(start, parts[0]), parts[1..]);
  }

  /**
   * "section.name" under a locale whose table has the message `text` there
   * gives `text`, and with replacements `text` formatted; a further part
   * after a message is ignored.
   */
  lemma LineTwoParts(tables: map<string, Node>, locale: string, section: string, name: string, text: string,
                     more: string, replacement: Option<seq<string>>)
    requires '.' !in section && '.' !in name
    requires locale in tables && tables[locale].Table? && section in tables[locale].entries
    requires tables[locale].entries[section].Table? && name in tables[locale].entries[section].entries
    requires tables[locale].entries[section].entries[name] == Message(text)
    ensures Line(tables, locale, section + "." + name, replacement)
      == if replacement.Some? then Format(text, replacement.value) else text
    ensures Line(tables, locale, section + "." + name + "." + more, replacement)
      == if replacement.Some? then Format(text, replacement.value) else text
  {
    var two := JsString.Split(section + "." + name, '.');
    assert |two| >= 2 && two[0] == section && two[1] == name by {
      JsString.SplitCons(section, name, '.');
      JsString.SplitFirst(name, "", '.');
    }
    WalkTwo(tables[locale], section, name, text, two);
    var longer := section + "." + (name + "." + more);
    assert section + "." + name + "." + more == longer;
    var three := JsString.Split(longer, '.');
    assert |three| >= 2 && three[0] == section && three[1] == name by {
      JsString.SplitCons(section, name + "." + more, '.');
      JsString.SplitCons(name, more, '.');
    }
    WalkTwo(tables[locale], section, name, text, three);
  }

  /** Walking a section and a name to a message ignores the parts after them. */
  lemma WalkTwo(table: Node, section: string, name: string, text: string, parts: seq<string>)
    requires table.Table? && section in table.entries
    requires table.entries[section].Table? && name in table.entries[section].entries
    requires table.entries[section].entries[name] == Message(text)
    requires |parts| >= 2 && parts[0] == section && parts[1] == name
    ensures Walk(Found(table), parts) == Found(Message(text))
  {
    assert parts[1..][0] == name && parts[1..][1..] == parts[2..];
    WalkStops(Found(Message(text)), parts[2..]);
  }

  /** The English heading: "common.headingTitle" under "en" is "The Noble Quran". */
  lemma HeadingTitle(tables: map<string, Node>)
    requires "en" in tables && tables["en"].Table? && "common" in tables["en"].entries
    requires tables["en"].entries["common"].Table?
    requires "headingTitle" in tables["en"].entries["common"].entries
    requires tables["en"].entries["common"].entries["headingTitle"] == Message("The Noble Quran")
    ensures Line(tables, "en", "common.headingTitle", None) == "The Noble Quran"
  {
    var key := "common" + "." + "headingTitle";
    assert key == "common.headingTitle";
    assert '.' !in "common" && '.' !in "headingTitle";
    LineTwoParts(tables, "en", "common", "headingTitle", "The Noble Quran", "", None);
  }

  // ------------------------------------------------------------- plugin state

  /** The plugin's locale state: the locale code and the writing direction. */
  class Locale {
    var locale: string
    var rtl: bool

    /** Before install: English, left to right. */
    constructor()
      ensures locale == "en" && !rtl
    {
      locale := "en";
      rtl := false;
    }

    /** `install`: a stored locale, when there is one, replaces the state. */
    method Install(stored: Option<(string, bool)>)
      modifies this
      ensures stored.Some? ==> locale == stored.value.0 && rtl == stored.value.1
      ensures stored.None? ==> locale == old(locale) && rtl == old(rtl)
    {
      if stored.Some? {
        locale := stored.value.0;
        rtl := stored.value.1;
      }
    }

    /** `t.line` under the current locale. */
    function Translate(tables: map<string, Node>, key: string, replacement: Option<seq<string>>): string
      reads this
    {
      Line(tables, locale, key, replacement)
    }

    /** `setLocale(str, direction)`: both are taken over. */
    method SetLocale(str: string, direction: bool)
      modifies this
      ensures locale == str && rtl == direction
    {
      locale := str;
      rtl := direction;
    }
  }
}

=== FILE: interval.dfy ===
/**
 * The loading counter of src/utils/interval.ts. Only the body that the
 * interval timer runs is modelled, as a method on the shared counter; the
 * timer itself (`setInterval`, `clearInterval`) is not.
 */
module Interval {
  import opened Wrappers

  /** `ms = 1000` and `val = 10`: the defaults of `setLoadingIInterval`. */
  const DefaultMs: int := 1000
  const DefaultStep: int := 10

  /** A default parameter applies only when the argument is missing. */
  function ArgOr(arg: Option<int>, default: int): int {
    if arg.Some? then arg.value else default
  }

  /** One tick: back to 0 when the counter has reached `ms`, otherwise `val` more. */
  function TickValue(value: int, ms: int, val: int): int {
    if value == ms then 0 else value + val
  }

  /** The counter after `n` ticks from `start`. */
  function Ticks(start: int, ms: int, val: int, n: nat): int {
    if n == 0 then start else TickValue(Ticks(start, ms, val, n - 1), ms, val)
  }

  /** `loadingIntervalValue`, a counter shared by every interval started. */
  class LoadingInterval {
    var value: int

    /** The counter starts at 0. */
    constructor()
      ensures value == 0
    {
      value := 0;
    }

    /** The callback that `setLoadingIInterval(ms, val)` schedules every `ms` milliseconds. */
    method Tick(ms: Option<int>, val: Option<int>)
      modifies this
      ensures value == TickValue(old(value), ArgOr(ms, DefaultMs), ArgOr(val, DefaultStep))
    {
      var limit, step := ArgOr(ms, DefaultMs), ArgOr(val, DefaultStep);
      if value == limit {
        value := 0;
        return;
      }
      value := value + step;
    }
  }

  /** The tick that finds the counter at `ms` leaves it at exactly 0, without adding `val`. */
  lemma ResetTick(ms: int, val: int)
    ensures TickValue(ms, ms, val) == 0
    ensures forall v :: v != ms ==> TickValue(v, ms, val) == v + val
  {
  }

  /**
   * With the defaults the counter climbs 0, 10, ..., 1000 and falls back to 0:
   * after `n` ticks from 0 it is 10 times `n` modulo 101.
   */
  lemma {:induction false} DefaultCycle(n: nat)
    ensures Ticks(0, DefaultMs, DefaultStep, n) == 10 * (n % 101)
  {
    if n > 0 {
      DefaultCycle(n - 1);
      ModStep(n - 1);
    }
  }

  /** Counting modulo 101: one more wraps 100 to 0 and otherwise adds one. */
  lemma ModStep(k: nat)
    ensures (k + 1) % 101 == if k % 101 == 100 then 0 else k % 101 + 1
  {
  }

  /** With the defaults the counter stays a multiple of 10 within 0..1000. */
  lemma DefaultRange(n: nat)
    ensures var v := Ticks(0, DefaultMs, DefaultStep, n); 0 <= v <= 1000 && v % 10 == 0
  {
    DefaultCycle(n);
  }

  /**
   * When `val` is positive and does not divide `ms`, the counter never equals
   * `ms`, so it is never reset: after `n` ticks it is `n * val`, growing
   * without bound.
   */
  lemma {:induction false} NeverResets(ms: int, val: int, n: nat)
    requires val > 0 && ms % val != 0
    ensures Ticks(0, ms, val, n) == n * val
    ensures Ticks(0, ms, val, n) != ms
  {
    if n > 0 {
      NeverResets(ms, val, n - 1);
      assert n * val == (n - 1) * val + val;
    }
    MultipleMod(n, val);
  }

  /** A multiple of `val` leaves no remainder. */
  lemma MultipleMod(n: nat, val: int)
    requires val > 0
    ensures (n * val) % val == 0
  {
    var x, q, r := n * val, (n * val) / val, (n * val) % val;
    assert x == q * val + r && 0 <= r < val;
    assert (n - q) * val == r;
    ProductBounds(n - q, val);
  }

  /** A non-zero multiple of a positive `val` is at least `val` away from 0. */
  lemma ProductBounds(k: int, val: int)
    requires val > 0
    ensures k >= 1 ==> k * val >= val
    ensures k <= -1 ==> k * val <= -val
  {
    if k >= 1 {
      assert k * val == (k - 1) * val + val;
    } else if k <= -1 {
      assert k * val == (k + 1) * val - val;
    }
  }
}

=== FILE: js_string.dfy ===
/**
 * The few JavaScript string built-ins the model relies on: `includes`,
 * `indexOf` for one character, `split` on one character, `Array.prototype.join`,
 * and ASCII case mapping (`toLowerCase`/`toUpperCase` restricted to ASCII).
 */
module JsString {

  /** `p` is a prefix of `s`. */
  predicate IsPrefix(p: string, s: string) {
    |p| <= |s| && s[..|p|] == p
  }

  /** `t` occurs in `s` starting at index `i`. */
  predicate OccursAt(s: string, t: string, i: int) {
    0 <= i <= |s| - |t| && s[i..i + |t|] == t
  }

  /** `s.includes(t)`. */
  function Includes(s: string, t: string): (r: bool)
    ensures r <==> exists i :: OccursAt(s, t, i)
    decreases |s|
  {
    if IsPrefix(t, s) then
      assert OccursAt(s, t, 0);
      true
    else if s == [] then
      false
    else
      var rest := Includes(s[1..], t);
      if rest then
        var i :| OccursAt(s[1..], t, i);
        assert OccursAt(s, t, i + 1) by { assert s[i + 1..i + 1 + |t|] == s[1..][i..i + |t|]; }
        true
      else
        assert !OccursAt(s, t, 0);
        assert forall i :: OccursAt(s, t, i) ==> OccursAt(s[1..], t, i - 1) by {
          forall i | OccursAt(s, t, i) ensures OccursAt(s[1..], t, i - 1) {
            OccursShift(s, t, i);
          }
        }
        false
  }

  /** An occurrence past the first character is an occurrence in the rest. */
  lemma OccursShift(s: string, t: string, i: int)
    requires OccursAt(s, t, i) && i > 0
    ensures OccursAt(s[1..], t, i - 1)
  {
    var u := s[1..];
    forall k | 0 <= k < |t| ensures u[i - 1..i - 1 + |t|][k] == t[k] {
      assert u[i - 1 + k] == s[i + k] == s[i..i + |t|][k];
    }
  }

  /** Index of the first occurrence of `c` in `s` (`s.indexOf(c)` when it is found). */
  function IndexOf(s: string, c: char): (r: nat)
    requires c in s
    ensures r < |s| && s[r] == c && c !in s[..r]
  {
    if s[0] == c then 0 else 1 + IndexOf(s[1..], c)
  }

  /** `s.lastIndexOf(c)`: the index of the last occurrence of `c`, or -1. */
  function LastIndexOf(s: string, c: char): (r: int)
    ensures -1 <= r < |s|
    ensures r >= 0 ==> s[r] == c
    ensures forall i :: r < i < |s| ==> s[i] != c
  {
    if s == [] then -1
    else if s[|s| - 1] == c then |s| - 1
    else LastIndexOf(s[..|s| - 1], c)
  }

  /** `xs.join(sep)`. */
  function Join(xs: seq<string>, sep: string): string
  {
    if |xs| == 0 then ""
    else if |xs| == 1 then xs[0]
    else xs[0] + sep + Join(xs[1..], sep)
  }

  /** `s.split(sep)` for a one-character separator. */
  function Split(s: string, sep: char): (r: seq<string>)
    ensures |r| >= 1
    ensures forall k :: 0 <= k < |r| ==> sep !in r[k]
    ensures Join(r, [sep]) == s
    decreases |s|
  {
    if sep !in s then [s]
    else
      var i := IndexOf(s, sep);
      var rest := Split(s[i + 1..], sep);
      assert s == s[..i] + [sep] + s[i + 1..];
      [s[..i]] + rest
  }

  /** Splitting a joined list on a separator that no element contains gives the list back. */
  lemma {:induction false} SplitJoin(xs: seq<string>, sep: char)
    requires |xs| >= 1
    requires forall k :: 0 <= k < |xs| ==> sep !in xs[k]
    ensures Split(Join(xs, [sep]), sep) == xs
  {
    if |xs| > 1 {
      var t := Join(xs[1..], [sep]);
      assert Join(xs, [sep]) == xs[0] + [sep] + t;
      SplitCons(xs[0], t, sep);
      SplitJoin(xs[1..], sep);
      assert xs == [xs[0]] + xs[1..];
    }
  }

  /** The first piece of a split is the text before the first separator. */
  lemma SplitFirst(a: string, rest: string, sep: char)
    requires sep !in a
    ensures Split(a + [sep] + rest, sep)[0] == a
    ensures Split(a, sep) == [a]
  {
    var s := a + [sep] + rest;
    assert s[|a|] == sep && s[..|a|] == a;
    IndexOfUnique(s, sep, |a|);
  }

  /** Splitting text that starts with a separator-free piece and a separator. */
  lemma SplitCons(a: string, rest: string, sep: char)
    requires sep !in a
    ensures Split(a + [sep] + rest, sep) == [a] + Split(rest, sep)
  {
    var s := a + [sep] + rest;
    assert s[|a|] == sep && s[..|a|] == a && s[|a| + 1..] == rest;
    IndexOfUnique(s, sep, |a|);
  }

  /** The first occurrence is the only index holding `c` with no `c` before it. */
  lemma {:induction false} IndexOfUnique(s: string, c: char, i: nat)
    requires i < |s| && s[i] == c && c !in s[..i]
    ensures IndexOf(s, c) == i
  {
    if i > 0 {
      assert s[0] in s[..i];
      assert s[1..][..i - 1] == s[1..i];
      assert forall x :: x in s[1..i] ==> x in s[..i];
      IndexOfUnique(s[1..], c, i - 1);
    }
  }

  /** ASCII `toLowerCase` of one character; other characters are unchanged. */
  function LowerChar(c: char): (r: char)
    ensures !('A' <= r <= 'Z')
    ensures ('a' <= c <= 'z' || !('A' <= c <= 'Z')) ==> r == c
  {
    if 'A' <= c <= 'Z' then (c as int - 'A' as int + 'a' as int) as char else c
  }

  /** ASCII `toUpperCase` of one character; other characters are unchanged. */
  function UpperChar(c: char): (r: char)
    ensures !('a' <= r <= 'z')
    ensures !('a' <= c <= 'z') ==> r == c
  {
    if 'a' <= c <= 'z' then (c as int - 'a' as int + 'A' as int) as char else c
  }

  /** `s.toLowerCase()` restricted to ASCII letters. */
  function Lower(s: string): (r: string)
    ensures |r| == |s|
    ensures forall i :: 0 <= i < |s| ==> r[i] == LowerChar(s[i])
  {
    seq(|s|, i requires 0 <= i < |s| => LowerChar(s[i]))
  }
}

=== FILE: juz_store.dfy ===
/**
 * src/stores/JuzStore.ts: the catalogue of the thirty juzs with the verses
 * fetched for each. Fetched verses are deduplicated by verse key, each
 * response's pagination record replaces the juz's, and the juz list itself
 * is deduplicated by juz number when it is loaded. Async actions are split
 * at their `await` as in the chapter store; the selected juz is kept as a
 * value of its own.
 */
module Juzs {
  import opened Wrappers
  import opened Types
  import Numbers
  import JsString
  import Grouping
  import Catalogue
  import VerseMerge
  import VerseHelpers = Verse

  /** One page of `/verses/by_juz`: its verses and its pagination record. */
  datatype VersesPage = VersesPage(verses: seq<Verse>, pagination: Pagination)

  /** The request `getVerses` sends: juz number, translation ids, page and page size. */
  datatype VersesRequest = VersesRequest(juzNumber: int, translations: string, page: int, limit: int)

  /**
   * One entry of `JuzMapByChaptersTest`: the chapter key, the two ends of its
   * verse range as written (`to` is `undefined` when there is no "-"), and
   * one slot per verse number of the range.
   */
  datatype ChapterSlots = ChapterSlots(chapterId: string, from: string, to: Option<string>, verses: seq<Option<Verse>>)

  function JuzNumber(j: Juz): int {
    j.juzNumber
  }

  /** `juzList.find((s) => s.juz_number === juzNumber)`, as an index. */
  function FindJuz(list: seq<Juz>, juzNumber: int): (r: Option<nat>)
    ensures r.Some? ==> (r.value < |list| && list[r.value].juzNumber == juzNumber
      && forall j :: 0 <= j < r.value ==> list[j].juzNumber != juzNumber)
    ensures r.None? ==> forall j :: 0 <= j < |list| ==> list[j].juzNumber != juzNumber
  {
    Grouping.FindIndex(list, (j: Juz) => j.juzNumber == juzNumber)
  }

  // ------------------------------------------------------------ juz list

  /** A deduplicated juz entered into the list: `{ ...c, verses: [] }`. */
  function Emptied(js: seq<Juz>): (r: seq<Juz>)
    ensures |r| == |js| && forall i :: 0 <= i < |js| ==> r[i] == js[i].(verses := [])
  {
    seq(|js|, i requires 0 <= i < |js| => js[i].(verses := []))
  }

  /** The juz list after a `/juzs` response: one entry per juz number appended. */
  function AddJuzs(list: seq<Juz>, fetched: seq<Juz>): seq<Juz> {
    list + Emptied(Grouping.KeepLast(fetched, JuzNumber))
  }

  /**
   * The entries a `/juzs` response adds come one per distinct juz number,
   * in the order the numbers first appear, each being the last fetched
   * record with its number, with no verses; the entries already held stay.
   */
  lemma AddJuzsSpec(list: seq<Juz>, fetched: seq<Juz>)
    ensures var r := AddJuzs(list, fetched);
      var added := r[|list|..];
      && r[..|list|] == list
      && Grouping.Keys(added, JuzNumber) == Grouping.FirstOccurrences(Grouping.Keys(fetched, JuzNumber))
      && Grouping.NoDuplicates(Grouping.Keys(added, JuzNumber))
      && forall i :: 0 <= i < |added| ==>
           added[i].juzNumber in Grouping.Keys(fetched, JuzNumber)
           && added[i] == Grouping.LastWithKey(fetched, JuzNumber, added[i].juzNumber).(verses := [])
  {
    var u := Grouping.KeepLast(fetched, JuzNumber);
    Grouping.KeepLastSpec(fetched, JuzNumber);
    Grouping.FirstOccurrencesSpec(Grouping.Keys(fetched, JuzNumber));
    var r := AddJuzs(list, fetched);
    var added := r[|list|..];
    assert added == Emptied(u);
    assert Grouping.Keys(added, JuzNumber) == Grouping.Keys(u, JuzNumber);
  }

  // ------------------------------------------------------------ juzs view

  /** `juzs` before sorting: the juzs whose number, written in decimal, contains the search text. */
  function SearchJuzs(list: seq<Juz>, search: string): (r: seq<Juz>)
    ensures |r| <= |list|
  {
    if list == [] then []
    else
      (if JsString.Includes(Numbers.IntToString(list[0].juzNumber), search) then [list[0]] else [])
      + SearchJuzs(list[1..], search)
  }

  /** The names of the fields of a juz record. */
  const JuzFields: set<string> := {"id", "juz_number", "first_verse_id", "last_verse_id",
    "verses_count", "verse_mapping", "verses", "pagination"}

  /**
   * `a[currentSort]` on a juz record, as `<` sees it: its numeric fields as
   * numbers, `verse_mapping` and `verses` by their string forms, and
   * `undefined` for any other name. `pagination` is `null` or an object, and
   * `<` orders neither.
   */
  function Field(name: string): (key: Juz -> Catalogue.SortValue)
    ensures forall j :: key(j).Num? <==>
      name in {"id", "juz_number", "first_verse_id", "last_verse_id", "verses_count"}
    ensures forall j :: key(j).Missing? <==>
      name !in JuzFields || (name == "pagination" && j.pagination.None?)
    ensures forall a, b :: name == "verses" ==>
      (Catalogue.ValueLess(key(a), key(b)) <==> |a.verses| < |b.verses|)
  {
    Catalogue.ObjectsTextLess();
    (j: Juz) =>
      if name == "id" then Catalogue.Num(j.id)
      else if name == "juz_number" then Catalogue.Num(j.juzNumber)
      else if name == "first_verse_id" then Catalogue.Num(j.firstVerseId)
      else if name == "last_verse_id" then Catalogue.Num(j.lastVerseId)
      else if name == "verses_count" then Catalogue.Num(j.versesCount)
      else if name == "verse_mapping" then Catalogue.Text(Catalogue.ObjectText)
      else if name == "verses" then Catalogue.Text(Catalogue.ObjectsText(|j.verses|))
      else if name == "pagination" && j.pagination.Some? then Catalogue.Text(Catalogue.ObjectText)
      else Catalogue.Missing
  }

  /** `juzs`. */
  function ListJuzs(list: seq<Juz>, search: string, sortField: string, sortDir: string): seq<Juz> {
    Catalogue.Sort(SearchJuzs(list, search), Field(sortField), sortDir)
  }

  lemma {:induction false} SearchJuzsSpec(list: seq<Juz>, search: string)
    ensures forall j :: j in SearchJuzs(list, search) <==>
      j in list && JsString.Includes(Numbers.IntToString(j.juzNumber), search)
  {
    if list != [] {
      SearchJuzsSpec(list[1..], search);
      assert list == [list[0]] + list[1..];
    }
  }

  /**
   * A juz is listed iff it is held and its number's decimal text contains
   * the search text; the listed juzs are in comparator order, and sorted on
   * a numeric field their values ascend for "asc" and descend for "desc".
   */
  lemma ListJuzsSpec(list: seq<Juz>, search: string, sortField: string, sortDir: string)
    ensures var r := ListJuzs(list, search, sortField, sortDir);
      && (forall j :: j in r <==> j in list && JsString.Includes(Numbers.IntToString(j.juzNumber), search))
      && Catalogue.Sorted(r, Field(sortField), sortDir)
      && (sortField in {"id", "juz_number", "first_verse_id", "last_verse_id", "verses_count"} ==>
            forall i, k :: 0 <= i < k < |r| ==>
              var a, b := Catalogue.NumOf(Field(sortField)(r[i])), Catalogue.NumOf(Field(sortField)(r[k]));
              if sortDir == "desc" then a >= b else a <= b)
  {
    var found := SearchJuzs(list, search);
    var r := ListJuzs(list, search, sortField, sortDir);
    SearchJuzsSpec(list, search);
    Catalogue.SortSpec(found, Field(sortField), sortDir);
    forall j ensures j in r <==> j in found {
      assert j in r <==> j in multiset(r);
      assert j in found <==> j in multiset(found);
    }
    if sortField in {"id", "juz_number", "first_verse_id", "last_verse_id", "verses_count"} {
      Catalogue.SortNumeric(found, Field(sortField), sortDir);
    }
  }

  /** Juz 1, 10 and 21 contain "1"; juz 2 does not. */
  lemma SearchByDigits(list: seq<Juz>)
    requires |list| == 4
    requires list[0].juzNumber == 1 && list[1].juzNumber == 2 && list[2].juzNumber == 10 && list[3].juzNumber == 21
    ensures SearchJuzs(list, "1") == [list[0], list[2], list[3]]
  {
    DigitsWithOne();
    var l1, l2, l3 := list[1..], list[2..], list[3..];
    assert l1[1..] == l2 && l2[1..] == l3 && l3[1..] == [];
    assert SearchJuzs(l3, "1") == [list[3]];
    assert SearchJuzs(l2, "1") == [list[2], list[3]];
    assert SearchJuzs(l1, "1") == [list[2], list[3]];
  }

  lemma DigitsWithOne()
    ensures JsString.Includes(Numbers.IntToString(1), "1")
    ensures !JsString.Includes(Numbers.IntToString(2), "1")
    ensures JsString.Includes(Numbers.IntToString(10), "1")
    ensures JsString.Includes(Numbers.IntToString(21), "1")
  {
    assert Numbers.IntToString(1) == "1" && Numbers.IntToString(2) == "2";
    assert Numbers.IntToString(10) == "10" && Numbers.IntToString(21) == "21";
    assert JsString.OccursAt("1", "1", 0) && JsString.OccursAt("10", "1", 0) && JsString.OccursAt("21", "1", 1);
    forall i ensures !JsString.OccursAt("2", "1", i) {
      if 0 <= i <= 0 { assert "2"[i..i + 1] == "2"; }
    }
  }

  // ------------------------------------------------------------ verses

  /**
   * The juz list and the selected juz after the response to
   * `getVerses(juzNumber)`: the juz with that number merges the verses by
   * key and takes the response's pagination; the selected juz takes the
   * pagination only when it already has one, whichever juz it is.
   */
  function VersesReceived(list: seq<Juz>, selected: Option<Juz>, juzNumber: int, page: VersesPage)
    : (seq<Juz>, Option<Juz>)
  {
    var ji := FindJuz(list, juzNumber);
    if ji.None? then (list, selected)
    else
      var j := list[ji.value];
      (list[ji.value := j.(verses := VerseMerge.MergeByKey(j.verses, page.verses), pagination := Some(page.pagination))],
       if selected.Some? && selected.value.pagination.Some?
       then Some(selected.value.(pagination := Some(page.pagination))) else selected)
  }

  /**
   * After a response for a held juz number, that juz holds the response's
   * pagination exactly and keeps its verse keys unique, every other juz is
   * as it was, a selected juz without pagination stays as it was, and the
   * same response again changes nothing more.
   */
  lemma VersesReceivedSpec(list: seq<Juz>, selected: Option<Juz>, juzNumber: int, page: VersesPage)
    ensures var (l, s) := VersesReceived(list, selected, juzNumber, page);
      && |l| == |list|
      && (forall i :: 0 <= i < |list| && list[i].juzNumber != juzNumber ==> l[i] == list[i])
      && (FindJuz(list, juzNumber).None? ==> l == list)
      && (FindJuz(list, juzNumber).Some? ==>
            var ji := FindJuz(list, juzNumber).value;
            && l[ji].pagination == Some(page.pagination)
            && (VerseMerge.UniqueKeys(list[ji].verses) ==> VerseMerge.UniqueKeys(l[ji].verses))
            && (forall key :: VerseMerge.HasKey(l[ji].verses, key) <==>
                  VerseMerge.HasKey(list[ji].verses, key) || VerseMerge.HasKey(page.verses, key)))
      && (selected.None? || selected.value.pagination.None? ==> s == selected)
      && VersesReceived(l, s, juzNumber, page) == (l, s)
  {
    var ji := FindJuz(list, juzNumber);
    var (l, s) := VersesReceived(list, selected, juzNumber, page);
    if ji.Some? {
      var j := list[ji.value];
      VerseMerge.MergeByKeySpec(j.verses, page.verses);
      VerseMerge.MergeByKeyIdempotent(j.verses, page.verses);
      assert l[ji.value].juzNumber == juzNumber;
      forall k | 0 <= k < ji.value ensures l[k].juzNumber != juzNumber {
        assert l[k] == list[k];
      }
      assert FindJuz(l, juzNumber) == ji;
      var merged := l[ji.value];
      assert merged.(verses := VerseMerge.MergeByKey(merged.verses, page.verses), pagination := Some(page.pagination)) == merged;
      assert l[ji.value := merged] == l;
    }
  }

  /**
   * The watcher asks for juz number `selectedJuz.id`: when no held juz has
   * that number (the id is not the juz number), the response is merged
   * nowhere, although the selected juz's verses were just emptied.
   */
  lemma WatcherResponseLost(list: seq<Juz>, sel: Juz, page: VersesPage)
    requires forall j :: j in list ==> j.juzNumber != sel.id
    requires sel.pagination.None?
    ensures VersesReceived(list, Some(sel.(verses := [])), sel.id, page) == (list, Some(sel.(verses := [])))
  {
    assert FindJuz(list, sel.id).None? by {
      forall k | 0 <= k < |list| ensures list[k].juzNumber != sel.id {
        assert list[k] in list;
      }
    }
  }

  /** When the selected juz is one of the held juzs, asking for its number reaches it. */
  lemma WatcherByNumberReaches(list: seq<Juz>, sel: Juz)
    requires sel in list
    ensures FindJuz(list, sel.juzNumber).Some?
  {
    var i :| 0 <= i < |list| && list[i] == sel;
    assert list[i].juzNumber == sel.juzNumber;
  }

  // ---------------------------------------------------- chapter slots view

  predicate Ascending(r: seq<nat>) {
    forall i, j :: 0 <= i < j < |r| ==> r[i] < r[j]
  }

  /** The keys of the verse mapping in ascending order, the order `Object.entries` gives integer keys. */
  function SortedKeys(keys: set<nat>): (r: seq<nat>)
    ensures |r| == |keys|
    ensures forall k :: k in r <==> k in keys
    ensures Ascending(r)
    decreases keys
  {
    if keys == {} then []
    else
      var k := VerseHelpers.LeastKey(keys);
      var rest := SortedKeys(keys - {k});
      AscendingCons(k, rest, keys - {k});
      [k] + rest
  }

  /** A key below every later key keeps a list ascending. */
  lemma AscendingCons(k: nat, rest: seq<nat>, others: set<nat>)
    requires Ascending(rest) && (forall x :: x in rest ==> x in others)
    requires forall x :: x in others ==> k < x
    ensures Ascending([k] + rest)
    ensures forall x :: x in [k] + rest <==> x == k || x in rest
  {
    var r := [k] + rest;
    forall i, j | 0 <= i < j < |r| ensures r[i] < r[j] {
      assert r[j] == rest[j - 1];
      if i > 0 {
        assert r[i] == rest[i - 1];
      } else {
        assert rest[j - 1] in others;
      }
    }
  }

  /** The first verse of the juz whose verse number is `n`, whatever its chapter; `null` if none. */
  function VerseNumbered(verses: seq<Verse>, n: int): (r: Option<Verse>)
    ensures r.Some? ==> exists i :: (0 <= i < |verses| && verses[i] == r.value
      && r.value.verseNumber == n && forall j :: 0 <= j < i ==> verses[j].verseNumber != n)
    ensures r.None? ==> forall i :: 0 <= i < |verses| ==> verses[i].verseNumber != n
  {
    var i := Grouping.FindIndex(verses, (v: Verse) => v.verseNumber == n);
    if i.None? then None else Some(verses[i.value])
  }

  /**
   * The entry of one chapter key: its range text split at "-", and one slot
   * per number of `_range(Number(to), Number(from))`; a missing or
   * non-numeric end makes the length NaN and the slot list empty.
   */
  function ChapterSlotsOf(chapter: nat, range: string, verses: seq<Verse>): ChapterSlots {
    var parts := JsString.Split(range, '-');
    var from := parts[0];
    var to := if |parts| > 1 then Some(parts[1]) else None;
    var a := Numbers.ToNumber(from);
    var b := if to.Some? then Numbers.ToNumber(to.value) else Numbers.NaN;
    var numbers := if a.Int? && b.Int? then Numbers.Range(b.value, a.value) else [];
    ChapterSlots(Numbers.NatToString(chapter), from, to,
                 seq(|numbers|, i requires 0 <= i < |numbers| => VerseNumbered(verses, numbers[i])))
  }

  /** `JuzMapByChaptersTest` for a selected juz: one entry per chapter key, keys ascending. */
  function JuzSlots(juz: Juz): (r: seq<ChapterSlots>)
    ensures |r| == |juz.verseMapping|
  {
    var keys := SortedKeys(juz.verseMapping.Keys);
    seq(|keys|, i requires 0 <= i < |keys| => ChapterSlotsOf(keys[i], juz.verseMapping[keys[i]], juz.verses))
  }

  /**
   * For a range "a-b" there are `b - a + 1` slots (none when b < a), and
   * slot `i` holds the first verse of the juz numbered `a + i`, in any
   * chapter, or `null`.
   */
  lemma ChapterSlotsSpec(chapter: nat, a: nat, b: nat, verses: seq<Verse>)
    ensures var e := ChapterSlotsOf(chapter, Numbers.NatToString(a) + "-" + Numbers.NatToString(b), verses);
      && e.chapterId == Numbers.NatToString(chapter)
      && e.from == Numbers.NatToString(a) && e.to == Some(Numbers.NatToString(b))
      && |e.verses| == (if b >= a then b - a + 1 else 0)
      && forall i :: 0 <= i < |e.verses| ==> e.verses[i] == VerseNumbered(verses, a + i)
  {
    var sa, sb := Numbers.NatToString(a), Numbers.NatToString(b);
    SplitRange(sa, sb);
    assert Numbers.ToNumber(sa) == Numbers.Int(a) by {
      Numbers.NatToStringValue(a);
    }
    assert Numbers.ToNumber(sb) == Numbers.Int(b) by {
      Numbers.NatToStringValue(b);
    }
  }

  /** Splitting "a-b" at "-" gives the two numerals. */
  lemma SplitRange(sa: string, sb: string)
    requires Numbers.AllDigits(sa) && Numbers.AllDigits(sb)
    ensures JsString.Split(sa + "-" + sb, '-') == [sa, sb]
  {
    NoDash(sa);
    NoDash(sb);
    assert JsString.Join([sa, sb], "-") == sa + "-" + sb;
    JsString.SplitJoin([sa, sb], '-');
  }

  /** A decimal numeral has no "-". */
  lemma NoDash(s: string)
    requires Numbers.AllDigits(s)
    ensures '-' !in s
  {
    forall i | 0 <= i < |s| ensures s[i] != '-' {
      assert Numbers.IsDigit(s[i]);
    }
  }

  /** A range without "-" has `undefined` as its upper end and no slots. */
  lemma ChapterSlotsNoDash(chapter: nat, a: nat, verses: seq<Verse>)
    ensures ChapterSlotsOf(chapter, Numbers.NatToString(a), verses).to == None
    ensures ChapterSlotsOf(chapter, Numbers.NatToString(a), verses).verses == []
  {
    NoDash(Numbers.NatToString(a));
    JsString.SplitFirst(Numbers.NatToString(a), "", '-');
  }

  class JuzStore {
    var isLoading: bool
    var juzList: seq<Juz>
    var selectedJuz: Option<Juz>
    var currentSortDir: string
    var currentSort: string
    var searchValue: string
    const perPage: int

    /** The initial state of the store. */
    constructor()
      ensures !isLoading && juzList == [] && selectedJuz == None
      ensures currentSortDir == "asc" && currentSort == "id" && searchValue == ""
      ensures perPage == 10
    {
      isLoading := false;
      juzList := [];
      selectedJuz := None;
      currentSortDir := "asc";
      currentSort := "id";
      searchValue := "";
      perPage := 10;
    }

    /** `juzs`. */
    function Juzs(): seq<Juz>
      reads this
    {
      ListJuzs(juzList, searchValue, currentSort, currentSortDir)
    }

    /** `JuzMapByChaptersTest`: `undefined` without a selected juz. */
    function JuzMapByChapters(): (r: Option<seq<ChapterSlots>>)
      reads this
      ensures r.None? <==> selectedJuz.None?
      ensures r.Some? ==> |r.value| == |selectedJuz.value.verseMapping|
    {
      if selectedJuz.None? then None else Some(JuzSlots(selectedJuz.value))
    }

    /** `juzVersesByChapterMap`: the selected juz's verses grouped by chapter id. */
    function JuzVersesByChapterMap(): (r: Option<map<int, seq<Verse>>>)
      reads this
      ensures r.None? <==> selectedJuz.None?
    {
      if selectedJuz.None? then None
      else Some(Grouping.GroupBy(selectedJuz.value.verses, (v: Verse) => v.chapterId))
    }

    /** `getFirstVerseOfJuz`: `verses[0]`, `undefined` without a selection or verses. */
    function FirstVerseOfJuz(): (r: Option<Verse>)
      reads this
      ensures r.Some? <==> selectedJuz.Some? && selectedJuz.value.verses != []
      ensures r.Some? ==> r.value == selectedJuz.value.verses[0]
    {
      if selectedJuz.None? || selectedJuz.value.verses == [] then None
      else Some(selectedJuz.value.verses[0])
    }

    /** `getLastVerseOfJuz`: the id of the last verse; 0 without a selection or verses. */
    function LastVerseOfJuz(): (r: int)
      reads this
      ensures selectedJuz.None? || selectedJuz.value.verses == [] ==> r == 0
      ensures selectedJuz.Some? && selectedJuz.value.verses != [] ==>
        r == selectedJuz.value.verses[|selectedJuz.value.verses| - 1].id
    {
      if selectedJuz.None? || selectedJuz.value.verses == [] then 0
      else selectedJuz.value.verses[|selectedJuz.value.verses| - 1].id
    }

    /** `getJuzs`, up to the request. */
    method GetJuzs()
      modifies this
      ensures isLoading
      ensures juzList == old(juzList) && selectedJuz == old(selectedJuz)
      ensures currentSort == old(currentSort) && currentSortDir == old(currentSortDir) && searchValue == old(searchValue)
    {
      isLoading := true;
    }

    /**
     * The rest of `getJuzs`: the fetched juzs, deduplicated by juz number, are
     * appended with no verses; a failure is rethrown; the flag is cleared.
     */
    method ReceiveJuzs(response: Response<seq<Juz>>) returns (outcome: Outcome)
      modifies this
      ensures outcome == (if response.Success? then Resolved else Rejected)
      ensures juzList == (if response.Success? then AddJuzs(old(juzList), response.body) else old(juzList))
      ensures !isLoading
      ensures selectedJuz == old(selectedJuz)
      ensures currentSort == old(currentSort) && currentSortDir == old(currentSortDir) && searchValue == old(searchValue)
    {
      if response.NetworkError? {
        isLoading := false;
        return Rejected;
      }
      var result := Grouping.KeepLast(response.body, JuzNumber);
      ghost var list0 := juzList;
      var i := 0;
      while i < |result|
        invariant 0 <= i <= |result|
        invariant juzList == list0 + Emptied(result[..i])
        invariant selectedJuz == old(selectedJuz)
        invariant currentSort == old(currentSort) && currentSortDir == old(currentSortDir) && searchValue == old(searchValue)
      {
        assert Emptied(result[..i + 1]) == Emptied(result[..i]) + [result[i].(verses := [])];
        juzList := juzList + [result[i].(verses := [])];
        i := i + 1;
      }
      assert result[..i] == result;
      isLoading := false;
      outcome := Resolved;
    }

    /** The hook before mount: the juzs are fetched only when the list is empty. */
    method OnBeforeMount() returns (fetch: bool)
      modifies this
      ensures fetch <==> old(juzList) == []
      ensures isLoading == (fetch || old(isLoading))
      ensures juzList == old(juzList) && selectedJuz == old(selectedJuz)
      ensures currentSort == old(currentSort) && currentSortDir == old(currentSortDir) && searchValue == old(searchValue)
    {
      fetch := |juzList| == 0;
      if fetch {
        GetJuzs();
      }
    }

    /** `getVerses(juzNumber, loading, page, limit)`, up to the request. */
    method GetVerses(juzNumber: int, loading: bool, page: Option<int>, limit: Option<int>, translations: string)
      returns (request: VersesRequest)
      modifies this
      ensures request == VersesRequest(juzNumber, translations, OrDefault(page, 1), OrDefault(limit, perPage))
      ensures isLoading == loading
      ensures juzList == old(juzList) && selectedJuz == old(selectedJuz)
      ensures currentSort == old(currentSort) && currentSortDir == old(currentSortDir) && searchValue == old(searchValue)
    {
      isLoading := loading;
      var p := OrDefault(page, 1);
      var l := OrDefault(limit, perPage);
      request := VersesRequest(juzNumber, translations, p, l);
    }

    /**
     * The rest of `getVerses`: the verses are pushed one by one into the juz
     * with the number unless their key is held, and the pagination records
     * are replaced; a failure is rethrown and changes nothing; the flag is
     * cleared.
     */
    method ReceiveVerses(juzNumber: int, response: Response<VersesPage>) returns (outcome: Outcome)
      modifies this
      ensures outcome == (if response.Success? then Resolved else Rejected)
      ensures response.NetworkError? ==> juzList == old(juzList) && selectedJuz == old(selectedJuz)
      ensures response.Success? ==>
        (juzList, selectedJuz) == VersesReceived(old(juzList), old(selectedJuz), juzNumber, response.body)
      ensures !isLoading
      ensures currentSort == old(currentSort) && currentSortDir == old(currentSortDir) && searchValue == old(searchValue)
    {
      if response.NetworkError? {
        isLoading := false;
        return Rejected;
      }
      var ji := FindJuz(juzList, juzNumber);
      if ji.Some? {
        var fetched := response.body.verses;
        var juz := juzList[ji.value];
        var verses := juz.verses;
        var i := 0;
        while i < |fetched|
          invariant 0 <= i <= |fetched|
          invariant VerseMerge.MergeByKey(verses, fetched[i..]) == VerseMerge.MergeByKey(juz.verses, fetched)
          invariant unchanged(this)
        {
          assert fetched[i..][1..] == fetched[i + 1..];
          if !VerseMerge.HasKey(verses, fetched[i].verseKey) {
            verses := verses + [VerseMerge.Unbookmarked(fetched[i])];
          }
          i := i + 1;
        }
        assert fetched[i..] == [];
        juzList := juzList[ji.value := juz.(verses := verses, pagination := Some(response.body.pagination))];
        if selectedJuz.Some? && selectedJuz.value.pagination.Some? {
          selectedJuz := Some(selectedJuz.value.(pagination := Some(response.body.pagination)));
        }
      }
      isLoading := false;
      outcome := Resolved;
    }

    /** `sort(s)`. */
    method Sort(s: string)
      modifies this
      ensures Catalogue.SortState(currentSort, currentSortDir)
           == Catalogue.NextSort(Catalogue.SortState(old(currentSort), old(currentSortDir)), s)
      ensures juzList == old(juzList) && selectedJuz == old(selectedJuz)
      ensures isLoading == old(isLoading) && searchValue == old(searchValue)
    {
      if s == currentSort {
        currentSortDir := if currentSortDir == "asc" then "desc" else "asc";
      }
      currentSort := s;
    }

    /**
     * The watcher on the selected translation ids, as written: the selected
     * juz's verses are emptied and page 1 is requested for the juz NUMBER
     * `selectedJuz.id`.
     */
    method OnTranslationsChange(resources: string) returns (request: Option<VersesRequest>)
      modifies this
      ensures (resources == "" || old(selectedJuz).None?) ==>
        request == None && selectedJuz == old(selectedJuz) && isLoading == old(isLoading)
      ensures resources != "" && old(selectedJuz).Some? ==>
        selectedJuz == Some(old(selectedJuz).value.(verses := []))
        && request == Some(VersesRequest(old(selectedJuz).value.id, resources, 1, perPage))
        && isLoading
      ensures juzList == old(juzList)
      ensures currentSort == old(currentSort) && currentSortDir == old(currentSortDir) && searchValue == old(searchValue)
    {
      request := None;
      if resources != "" && selectedJuz.Some? {
        selectedJuz := Some(selectedJuz.value.(verses := []));
        var r := GetVerses(selectedJuz.value.id, true, Some(1), None, resources);
        request := Some(r);
      }
    }

    /** The watcher with the juz number passed, as `getVerses` expects. */
    method OnTranslationsChangeByNumber(resources: string) returns (request: Option<VersesRequest>)
      modifies this
      ensures (resources == "" || old(selectedJuz).None?) ==>
        request == None && selectedJuz == old(selectedJuz) && isLoading == old(isLoading)
      ensures resources != "" && old(selectedJuz).Some? ==>
        selectedJuz == Some(old(selectedJuz).value.(verses := []))
        && request == Some(VersesRequest(old(selectedJuz).value.juzNumber, resources, 1, perPage))
        && isLoading
      ensures juzList == old(juzList)
      ensures currentSort == old(currentSort) && currentSortDir == old(currentSortDir) && searchValue == old(searchValue)
    {
      request := None;
      if resources != "" && selectedJuz.Some? {
        selectedJuz := Some(selectedJuz.value.(verses := []));
        var r := GetVerses(selectedJuz.value.juzNumber, true, Some(1), None, resources);
        request := Some(r);
      }
    }
  }

  /** Every verse of the selected juz is in exactly the group of its chapter id, in juz order. */
  lemma JuzVersesByChapterSpec(store: JuzStore)
    requires store.selectedJuz.Some?
    ensures var g := store.JuzVersesByChapterMap().value;
      var vs := store.selectedJuz.value.verses;
      && (forall c :: c in g <==> exists i :: 0 <= i < |vs| && vs[i].chapterId == c)
      && (forall c :: c in g ==> g[c] == Grouping.WithKey(vs, (v: Verse) => v.chapterId, c))
      && (forall c, v :: c in g ==> (v in g[c] <==> v in vs && v.chapterId == c))
  {
    var vs := store.selectedJuz.value.verses;
    var key := (v: Verse) => v.chapterId;
    Grouping.GroupBySpec(vs, key);
    forall c | c in Grouping.GroupBy(vs, key) {
      Grouping.WithKeyMembers(vs, key, c);
    }
  }
}

=== FILE: locale.dfy ===
/**
 * src/utils/locale.ts: the table from language code to full locale, the
 * languages the interface offers, and the lookup of a full locale.
 */
module Locales {
  import opened Wrappers

  /** `LANG_LOCALE_MAP`. */
  const LangLocaleMap: map<string, string> := map[
    "en" := "en-US", "ar" := "ar-EG", "bn" := "bn-BD", "fa" := "fa-IR",
    "fr" := "fr-FR", "id" := "id-ID", "it" := "it-IT", "nl" := "nl-NL",
    "pt" := "pt-BR", "ru" := "ru-RU", "sq" := "sq-AL", "th" := "th-TH",
    "tr" := "tr-TR", "ur" := "ur-PK", "zh" := "zh-CN", "ms" := "ms-MY"]

  /** The 16 codes of the table. */
  const Codes: seq<string> := ["en", "ar", "bn", "fa", "fr", "id", "it", "nl",
                               "pt", "ru", "sq", "th", "tr", "ur", "zh", "ms"]

  /** An interface language: its code, its name and whether it is written right to left. */
  datatype Language = Language(key: string, value: string, rtl: bool)

  /** `LANGUAGES`. */
  const Languages: seq<Language> := [Language("en", "English", false), Language("ar", "Arabic", true)]

  /** The interface offers English, left to right, and Arabic, right to left, and nothing else. */
  lemma LanguagesSpec()
    ensures |Languages| == 2
    ensures forall l :: l in Languages ==>
      ((l.key == "en" && l.value == "English" && !l.rtl) || (l.key == "ar" && l.value == "Arabic" && l.rtl))
  {
  }

  /** The key an argument is looked up under: a missing or empty argument becomes "en-US". */
  function KeyOf(locale: Option<string>): string {
    if locale.None? || locale.value == "" then "en-US" else locale.value
  }

  /** `getLangFullLocale(locale)`: `undefined` (`None`) when the key is not in the table. */
  function GetLangFullLocale(locale: Option<string>): (r: Option<string>)
    ensures r.Some? <==> KeyOf(locale) in LangLocaleMap
    ensures r.Some? ==> r.value == LangLocaleMap[KeyOf(locale)]
  {
    if KeyOf(locale) in LangLocaleMap then Some(LangLocaleMap[KeyOf(locale)]) else None
  }

  /** The table has an entry for each of the 16 codes and for nothing else. */
  lemma LangLocaleMapKeys()
    ensures forall c :: c in LangLocaleMap <==> c in Codes
  {
    forall c | c in Codes ensures c in LangLocaleMap {
    }
    forall c | c in LangLocaleMap ensures c in Codes {
    }
  }

  /** Each code is mapped to a full locale made of the code, "-" and a two-letter region, e.g. "ar" to "ar-EG". */
  lemma GetLangFullLocaleKnown(c: string)
    requires c in Codes
    ensures GetLangFullLocale(Some(c)).Some?
    ensures var full := GetLangFullLocale(Some(c)).value;
      |full| == 5 && full[..2] == c && full[2] == '-'
  {
    LangLocaleMapKeys();
    LangLocaleMapShape(c);
  }

  /** The entry of one code is the code, "-" and two more characters. */
  lemma LangLocaleMapShape(c: string)
    requires c in LangLocaleMap
    ensures |LangLocaleMap[c]| == 5 && LangLocaleMap[c][..2] == c && LangLocaleMap[c][2] == '-'
  {
  }

  /** Two of the entries, written out. */
  lemma GetLangFullLocaleExamples()
    ensures GetLangFullLocale(Some("ar")) == Some("ar-EG")
    ensures GetLangFullLocale(Some("en")) == Some("en-US")
  {
  }

  /** A code outside the table gives `undefined`. */
  lemma GetLangFullLocaleUnknown(code: string)
    requires code != "" && code !in Codes
    ensures GetLangFullLocale(Some(code)) == None
  {
    LangLocaleMapKeys();
  }

  /**
   * Without an argument the fallback "en-US" is looked up as a key; it is a
   * value of the table, not a key, so the result is `undefined`, not "en-US".
   */
  lemma GetLangFullLocaleNoArgument()
    ensures GetLangFullLocale(None) == None && GetLangFullLocale(Some("")) == None
    ensures "en-US" in LangLocaleMap.Values
  {
    assert LangLocaleMap["en"] == "en-US";
  }

  /** The documented fallback: a missing or empty argument looks up "en". */
  function GetLangFullLocaleWithFallback(locale: Option<string>): (r: Option<string>)
    ensures (locale.None? || locale.value == "") ==> r == Some("en-US")
    ensures r.None? <==> locale.Some? && locale.value != "" && locale.value !in LangLocaleMap
  {
    var key := if locale.None? || locale.value == "" then "en" else locale.value;
    if key in LangLocaleMap then Some(LangLocaleMap[key]) else None
  }

  /** With the fallback corrected, every argument that names a code gives the same locale as before. */
  lemma FallbackAgrees(locale: Option<string>)
    requires locale.Some? && locale.value != ""
    ensures GetLangFullLocaleWithFallback(locale) == GetLangFullLocale(locale)
  {
  }
}

=== FILE: numbers.dfy ===
/**
 * Integer helpers of src/utils/number.ts, with the decimal rendering and
 * parsing that JavaScript's `String(n)` and `Number(s)` perform on them.
 */
module Numbers {

  /** A JavaScript number as far as this model needs one: an integer, or NaN. */
  datatype JsNumber = Int(value: int) | NaN

  predicate IsDigit(c: char) {
    '0' <= c <= '9'
  }

  predicate AllDigits(s: string) {
    forall i :: 0 <= i < |s| ==> IsDigit(s[i])
  }

  /** A decimal numeral as `String(n)` writes it: non-empty, no leading zero unless it is "0". */
  predicate Canonical(s: string) {
    AllDigits(s) && |s| >= 1 && (s[0] == '0' ==> |s| == 1)
  }

  function DigitChar(d: nat): (c: char)
    requires d < 10
    ensures IsDigit(c)
  {
    ('0' as int + d) as char
  }

  /** Value of a digit string, most significant digit first; "" is 0, as in `Number("")`. */
  function DigitsValue(s: string): nat
    requires AllDigits(s)
  {
    if s == [] then 0 else DigitsValue(s[..|s| - 1]) * 10 + (s[|s| - 1] as int - '0' as int)
  }

  /** `String(n)` for a natural number. */
  function NatToString(n: nat): (r: string)
    ensures Canonical(r)
    ensures r[0] == '0' <==> n == 0
  {
    if n < 10 then [DigitChar(n)] else NatToString(n / 10) + [DigitChar(n % 10)]
  }

  /** `String(i)` for an integer. */
  function IntToString(i: int): string {
    if i < 0 then "-" + NatToString(-i) else NatToString(i)
  }

  /** Reading back what `NatToString` wrote gives the number. */
  lemma {:induction false} NatToStringValue(n: nat)
    ensures DigitsValue(NatToString(n)) == n
  {
    if n >= 10 {
      var s := NatToString(n);
      assert s[..|s| - 1] == NatToString(n / 10);
      NatToStringValue(n / 10);
    }
  }

  /** A digit string with a non-zero digit has a positive value. */
  lemma {:induction false} PositiveValue(s: string)
    requires AllDigits(s) && |s| >= 1 && s[0] != '0'
    ensures DigitsValue(s) > 0
  {
    if |s| > 1 {
      assert s[..|s| - 1][0] == s[0];
      PositiveValue(s[..|s| - 1]);
    }
  }

  /** Writing out the value of a canonical numeral gives the numeral back. */
  lemma {:induction false} CanonicalRoundTrip(s: string)
    requires Canonical(s)
    ensures NatToString(DigitsValue(s)) == s
  {
    if |s| > 1 {
      var p := s[..|s| - 1];
      var d := s[|s| - 1] as int - '0' as int;
      assert p[0] == s[0];
      PositiveValue(p);
      CanonicalRoundTrip(p);
      var n := DigitsValue(s);
      assert n == DigitsValue(p) * 10 + d;
      assert n / 10 == DigitsValue(p) && n % 10 == d;
      assert s == p + [s[|s| - 1]];
    }
  }

  /**
   * `Number(s)` on the strings this model passes to it: a digit string is its
   * value ("" is 0); any other string is NaN.
   */
  function ToNumber(s: string): (r: JsNumber)
    ensures r.Int? <==> AllDigits(s)
    ensures r.Int? ==> r.value >= 0
  {
    if AllDigits(s) then Int(DigitsValue(s)) else NaN
  }

  /** `formatStringNumber`: `String(Number(s))` on a digit string. */
  function FormatStringNumber(s: string): (r: string)
    requires AllDigits(s)
    ensures Canonical(r)
    ensures DigitsValue(r) == DigitsValue(s)
    ensures Canonical(s) ==> r == s
  {
    NatToStringValue(DigitsValue(s));
    if Canonical(s) then
      CanonicalRoundTrip(s);
      NatToString(DigitsValue(s))
    else
      NatToString(DigitsValue(s))
  }

  /** The examples in the comment above `formatStringNumber`. */
  lemma FormatStringNumberExamples()
    ensures FormatStringNumber("001") == "1"
    ensures FormatStringNumber("1") == "1"
  {
    assert DigitsValue("001") == 1 by {
      assert "001"[..2] == "00";
      assert "00"[..1] == "0";
    }
  }

  /** `getPageNumberFromIndexAndPerPage`: `Math.ceil((index + 1) / perPage)`. */
  function PageNumberFromIndex(index: int, perPage: int): (r: int)
    requires perPage > 0
    ensures (r - 1) * perPage < index + 1 <= r * perPage
  {
    -((-(index + 1)) / perPage)
  }

  /** For a non-negative index the page is the 0-based page plus one. */
  lemma PageNumberFromNonNegativeIndex(index: int, perPage: int)
    requires index >= 0 && perPage > 0
    ensures PageNumberFromIndex(index, perPage) == index / perPage + 1
    ensures PageNumberFromIndex(index, perPage) >= 1
  {
    var q, r := index / perPage, PageNumberFromIndex(index, perPage);
    assert q * perPage <= index < (q + 1) * perPage;
    LessTimes(r - 1, q + 1, perPage);
    LessTimes(q, r, perPage);
  }

  /** Multiplying by a positive factor keeps a strict order. */
  lemma LessTimes(a: int, b: int, p: int)
    requires p > 0 && a * p < b * p
    ensures a < b
  {
  }

  /** Later items never sit on an earlier page. */
  lemma PageNumberMonotonic(i: int, j: int, perPage: int)
    requires i <= j && perPage > 0
    ensures PageNumberFromIndex(i, perPage) <= PageNumberFromIndex(j, perPage)
  {
  }

  /** The examples in the comment above `getPageNumberFromIndexAndPerPage`. */
  lemma PageNumberExamples()
    ensures PageNumberFromIndex(0, 10) == 1
    ensures PageNumberFromIndex(1, 10) == 1
    ensures PageNumberFromIndex(10, 10) == 2
    ensures PageNumberFromIndex(11, 10) == 2
  {
  }

  /**
   * `_range(end, start)`: `Array.from({ length: end - start + 1 }, (_, i) => i + start)`;
   * a negative length is clamped to 0 by `Array.from`.
   */
  function Range(end: int, start: int): (r: seq<int>)
    ensures |r| == if end >= start then end - start + 1 else 0
    ensures forall i :: 0 <= i < |r| ==> r[i] == start + i
  {
    if end < start then [] else seq(end - start + 1, i => start + i)
  }

  /** `_range(end, start)` holds exactly the integers from `start` to `end`, each once, ascending. */
  lemma RangeContents(end: int, start: int)
    ensures forall x :: x in Range(end, start) <==> start <= x <= end
    ensures forall i, j :: 0 <= i < j < |Range(end, start)| ==> Range(end, start)[i] < Range(end, start)[j]
  {
    var r := Range(end, start);
    forall x | start <= x <= end ensures x in r {
      assert r[x - start] == x;
    }
  }

  /** Length of the run of digits at the start of `s`. */
  function DigitRun(s: string): (n: nat)
    ensures n <= |s| && AllDigits(s[..n]) && (n < |s| ==> !IsDigit(s[n]))
  {
    if s == [] || !IsDigit(s[0]) then 0
    else
      var n := 1 + DigitRun(s[1..]);
      assert s[..n] == [s[0]] + s[1..][..n - 1];
      n
  }

  /**
   * `parseInt(s)` on text without leading blanks or sign: the value of the
   * leading digits, NaN when `s` does not start with a digit.
   */
  function ParseInt(s: string): (r: JsNumber)
    ensures r.NaN? <==> s == [] || !IsDigit(s[0])
  {
    var n := DigitRun(s);
    if n == 0 then NaN else Int(DigitsValue(s[..n]))
  }

  /** `parseInt` reads back what `String(n)` wrote, whatever follows a non-digit. */
  lemma ParseIntNatToString(n: nat, rest: string)
    requires rest == [] || !IsDigit(rest[0])
    ensures ParseInt(NatToString(n) + rest) == Int(n)
  {
    var s, d := NatToString(n) + rest, NatToString(n);
    assert s[..|d|] == d;
    DigitRunExact(d, rest);
    NatToStringValue(n);
  }

  /** `parseInt` reads back what `String(n)` wrote. */
  lemma ParseIntOfNatToString(n: nat)
    ensures ParseInt(NatToString(n)) == Int(n)
  {
    ParseIntNatToString(n, "");
    assert NatToString(n) + "" == NatToString(n);
  }

  lemma {:induction false} DigitRunExact(d: string, rest: string)
    requires AllDigits(d) && (rest == [] || !IsDigit(rest[0]))
    ensures DigitRun(d + rest) == |d|
  {
    if d != [] {
      assert (d + rest)[1..] == d[1..] + rest;
      DigitRunExact(d[1..], rest);
    } else {
      assert d + rest == rest;
    }
  }
}

=== FILE: page_store.dfy ===
/**
 * src/stores/PageStore.ts: the 604 pages of the mushaf with the verses
 * fetched for each. Fetched verses are appended without any duplicate
 * check. The page list is `undefined` until the mount hook fills it.
 */
module PageStoreModel {
  import opened Wrappers
  import opened Types
  import Numbers
  import Grouping
  import VerseMerge

  /** The request `getVerses` sends: page number, translation ids, result page and page size. */
  datatype VersesRequest = VersesRequest(pageNumber: int, translations: string, page: int, limit: int)

  /** `pages`: `_range(604, 1)`. */
  function PageNumbers(): (r: seq<int>)
    ensures |r| == 604 && forall i :: 0 <= i < 604 ==> r[i] == i + 1
  {
    Numbers.Range(604, 1)
  }

  /** What the mount hook stores: one empty page per page number. */
  function InitialPages(): (r: seq<Page>)
    ensures |r| == 604
    ensures forall i :: 0 <= i < 604 ==> r[i] == Page(i + 1, [])
  {
    var numbers := PageNumbers();
    seq(|numbers|, i requires 0 <= i < |numbers| => Page(numbers[i], []))
  }

  /** `pageList.find((p) => p.pageNumber === id)`, as an index. */
  function FindPage(list: seq<Page>, id: int): (r: Option<nat>)
    ensures r.Some? ==> (r.value < |list| && list[r.value].pageNumber == id
      && forall j :: 0 <= j < r.value ==> list[j].pageNumber != id)
    ensures r.None? ==> forall j :: 0 <= j < |list| ==> list[j].pageNumber != id
  {
    Grouping.FindIndex(list, (p: Page) => p.pageNumber == id)
  }

  /** After mount, page `n` is found at index `n - 1` for every `n` in 1..604, and no other is found. */
  lemma FindInitialPage(id: int)
    ensures 1 <= id <= 604 ==> FindPage(InitialPages(), id) == Some(id - 1)
    ensures !(1 <= id <= 604) ==> FindPage(InitialPages(), id) == None
  {
    var list := InitialPages();
    if 1 <= id <= 604 {
      assert list[id - 1].pageNumber == id;
    }
  }

  /** The page list after the response to `getVerses(id)`: every fetched verse appended to page `id`. */
  function VersesReceived(pageList: Option<seq<Page>>, id: int, response: Response<seq<Verse>>): Option<seq<Page>> {
    if pageList.None? || response.NetworkError? then pageList
    else
      var pi := FindPage(pageList.value, id);
      if pi.None? then pageList
      else
        var p := pageList.value[pi.value];
        Some(pageList.value[pi.value := p.(verses := VerseMerge.MergeAll(p.verses, response.body))])
  }

  /**
   * A response for a page that is held appends every fetched verse, not
   * bookmarked, to that page and changes no other page; before mount, for a
   * page number not held, or on failure, nothing changes.
   */
  lemma VersesReceivedSpec(pageList: Option<seq<Page>>, id: int, fetched: seq<Verse>)
    ensures var l := VersesReceived(pageList, id, Success(fetched));
      && (pageList.None? ==> l == None)
      && (pageList.Some? && FindPage(pageList.value, id).None? ==> l == pageList)
      && (pageList.Some? && FindPage(pageList.value, id).Some? ==>
            var pi := FindPage(pageList.value, id).value;
            && l.Some? && |l.value| == |pageList.value|
            && l.value[pi] == Page(id, pageList.value[pi].verses + VerseMerge.AllUnbookmarked(fetched))
            && forall j :: 0 <= j < |l.value| && j != pi ==> l.value[j] == pageList.value[j])
  {
    if pageList.Some? && FindPage(pageList.value, id).Some? {
      var pi := FindPage(pageList.value, id).value;
      VerseMerge.MergeAllSpec(pageList.value[pi].verses, fetched);
    }
  }

  /** Fetching page `n` twice after mount holds every fetched verse twice. */
  lemma FetchTwiceDoubles(n: int, fetched: seq<Verse>)
    requires 1 <= n <= 604
    ensures var once := VersesReceived(Some(InitialPages()), n, Success(fetched));
      var twice := VersesReceived(once, n, Success(fetched));
      twice.Some? && twice.value[n - 1].verses == VerseMerge.AllUnbookmarked(fetched) + VerseMerge.AllUnbookmarked(fetched)
  {
    FindInitialPage(n);
    var once := VersesReceived(Some(InitialPages()), n, Success(fetched));
    VersesReceivedSpec(Some(InitialPages()), n, fetched);
    assert once.value[n - 1].pageNumber == n;
    forall j | 0 <= j < n - 1 ensures once.value[j].pageNumber != n {
      assert once.value[j] == InitialPages()[j];
    }
    assert FindPage(once.value, n) == Some(n - 1);
    VersesReceivedSpec(once, n, fetched);
    assert [] + VerseMerge.AllUnbookmarked(fetched) == VerseMerge.AllUnbookmarked(fetched);
  }

  class PageStore {
    var isLoading: bool
    var pageList: Option<seq<Page>>
    var selectedPage: Option<Page>
    var searchValue: string
    const perPage: int

    /** The initial state of the store: no page list yet. */
    constructor()
      ensures !isLoading && pageList == None && selectedPage == None && searchValue == ""
      ensures perPage == 10
    {
      isLoading := false;
      pageList := None;
      selectedPage := None;
      searchValue := "";
      perPage := 10;
    }

    /** `pages`. */
    function Pages(): seq<int> {
      PageNumbers()
    }

    /** The mount hook: one empty page for each of the numbers 1 to 604. */
    method OnMounted()
      modifies this
      ensures pageList == Some(InitialPages())
      ensures isLoading == old(isLoading) && selectedPage == old(selectedPage) && searchValue == old(searchValue)
    {
      pageList := Some(InitialPages());
    }

    /** `getVerses(id, loading, page, limit)`, up to the request. */
    method GetVerses(id: int, loading: bool, page: Option<int>, limit: Option<int>, translations: string)
      returns (request: VersesRequest)
      modifies this
      ensures request == VersesRequest(id, translations, OrDefault(page, 1), OrDefault(limit, perPage))
      ensures isLoading == loading
      ensures pageList == old(pageList) && selectedPage == old(selectedPage) && searchValue == old(searchValue)
    {
      isLoading := loading;
      var p := OrDefault(page, 1);
      var l := OrDefault(limit, perPage);
      request := VersesRequest(id, translations, p, l);
    }

    /**
     * The rest of `getVerses`: every fetched verse is pushed onto the page
     * with the number; errors are logged; the flag is cleared.
     */
    method ReceiveVerses(id: int, response: Response<seq<Verse>>)
      modifies this
      ensures pageList == VersesReceived(old(pageList), id, response)
      ensures !isLoading
      ensures selectedPage == old(selectedPage) && searchValue == old(searchValue)
    {
      if pageList.Some? && response.Success? {
        var pi := FindPage(pageList.value, id);
        if pi.Some? {
          var fetched := response.body;
          var p := pageList.value[pi.value];
          var verses := p.verses;
          var i := 0;
          while i < |fetched|
            invariant 0 <= i <= |fetched|
            invariant VerseMerge.MergeAll(verses, fetched[i..]) == VerseMerge.MergeAll(p.verses, fetched)
            invariant unchanged(this)
          {
            assert fetched[i..][1..] == fetched[i + 1..];
            verses := verses + [VerseMerge.Unbookmarked(fetched[i])];
            i := i + 1;
          }
          assert fetched[i..] == [];
          pageList := Some(pageList.value[pi.value := p.(verses := verses)]);
        }
      }
      isLoading := false;
    }
  }
}

=== FILE: reciter.dfy ===
/**
 * The reciter helpers of src/utils/reciter.ts: lookup, grouping by
 * recitation style, name initials and the avatar placeholder URL.
 */
module Reciter {
  import opened Wrappers
  import opened Types
  import JsString
  import Grouping

  /** `AVATAR_PLACEHOLDER_API`. */
  const AvatarPlaceholderApi: string := "https://ui-avatars.com/api/"

  /** `getReciterData(reciters, id)`: the element at INDEX `id`; `undefined` outside the array. */
  function GetReciterData(reciters: seq<Recitation>, id: int): (r: Option<Recitation>)
    ensures r.Some? <==> 0 <= id < |reciters|
    ensures r.Some? ==> r.value == reciters[id]
  {
    if 0 <= id < |reciters| then Some(reciters[id]) else None
  }

  /**
   * With reciter ids numbered from 1 in array order, `getReciterData(id)`
   * returns the reciter whose id is `id + 1`, and `undefined` for the last id.
   */
  lemma ReciterDataByIndex(reciters: seq<Recitation>, id: int)
    requires forall i :: 0 <= i < |reciters| ==> reciters[i].id == i + 1
    requires 1 <= id <= |reciters|
    ensures id < |reciters| ==> GetReciterData(reciters, id).value.id == id + 1
    ensures id == |reciters| ==> GetReciterData(reciters, id) == None
  {
  }

  /** The reciter whose id is `id`: the first one in the array, `undefined` when none has it. */
  function FindReciter(reciters: seq<Recitation>, id: int): (r: Option<Recitation>)
    ensures r.Some? ==> exists i :: (0 <= i < |reciters| && reciters[i] == r.value && r.value.id == id
      && forall j :: 0 <= j < i ==> reciters[j].id != id)
    ensures r.None? <==> forall i :: 0 <= i < |reciters| ==> reciters[i].id != id
  {
    var i := Grouping.FindIndex(reciters, (x: Recitation) => x.id == id);
    if i.None? then None else Some(reciters[i.value])
  }

  /** Looked up by id, the reciters numbered from 1 give back the reciter with that id. */
  lemma FindReciterByNumber(reciters: seq<Recitation>, id: int)
    requires forall i :: 0 <= i < |reciters| ==> reciters[i].id == i + 1
    requires 1 <= id <= |reciters|
    ensures FindReciter(reciters, id) == Some(reciters[id - 1])
  {
    assert reciters[id - 1].id == id;
  }

  function StyleName(r: Recitation): string {
    r.style.name
  }

  /** `groupRecitionsByStyle(reciters)`. */
  function GroupRecitionsByStyle(reciters: seq<Recitation>): map<string, seq<Recitation>> {
    Grouping.GroupBy(reciters, StyleName)
  }

  /**
   * There is a group for each style name that occurs and no other; each
   * reciter is in exactly the group of its style, and each group keeps the
   * array order.
   */
  lemma GroupRecitionsByStyleSpec(reciters: seq<Recitation>)
    ensures var g := GroupRecitionsByStyle(reciters);
      && (forall s :: s in g <==> exists i :: 0 <= i < |reciters| && reciters[i].style.name == s)
      && (forall s :: s in g ==> g[s] == Grouping.WithKey(reciters, StyleName, s))
      && (forall s, r :: s in g ==> (r in g[s] <==> r in reciters && r.style.name == s))
  {
    Grouping.GroupBySpec(reciters, StyleName);
    forall s | s in GroupRecitionsByStyle(reciters) {
      Grouping.WithKeyMembers(reciters, StyleName, s);
    }
  }

  /** `s.charAt(0)`. */
  function FirstChar(s: string): (r: string)
    ensures s == [] ==> r == []
    ensures s != [] ==> r == [s[0]]
  {
    if s == [] then [] else [s[0]]
  }

  /**
   * `getReciterNameInitials(reciter)`: the first characters of the first two
   * space-separated words; a name without a space throws (`split[1]` is
   * `undefined`), which is `None` here.
   */
  function GetReciterNameInitials(name: string): (r: Option<string>)
    ensures r.None? <==> ' ' !in name
    ensures r.Some? ==> |r.value| <= 2
  {
    var split := JsString.Split(name, ' ');
    if |split| < 2 then
      assert name == JsString.Join(split, " ");
      None
    else
      assert ' ' in name by {
        assert name == split[0] + " " + JsString.Join(split[1..], " ");
        assert name[|split[0]|] == ' ';
      }
      Some(FirstChar(split[0]) + FirstChar(split[1]))
  }

  /** The initials are read off the first two pieces of the split. */
  lemma InitialsFromSplit(name: string, a: string, b: string)
    requires var split := JsString.Split(name, ' '); |split| >= 2 && split[0] == a && split[1] == b
    ensures GetReciterNameInitials(name) == Some(FirstChar(a) + FirstChar(b))
  {
  }

  /** For "First Second" the initials are the first letters of the two words. */
  lemma InitialsOfTwoWords(first: string, second: string)
    requires first != [] && second != [] && ' ' !in first && ' ' !in second
    ensures GetReciterNameInitials(first + [' '] + second) == Some([first[0], second[0]])
  {
    var split := JsString.Split(first + [' '] + second, ' ');
    assert |split| >= 2 && split[0] == first && split[1] == second by {
      JsString.SplitCons(first, second, ' ');
      JsString.SplitFirst(second, "", ' ');
    }
    InitialsFromSplit(first + [' '] + second, first, second);
    assert FirstChar(first) + FirstChar(second) == [first[0], second[0]];
  }

  /** Words after the second play no part in the initials. */
  lemma InitialsOfMoreWords(first: string, second: string, rest: string)
    requires first != [] && second != [] && ' ' !in first && ' ' !in second
    ensures GetReciterNameInitials(first + [' '] + second + [' '] + rest) == Some([first[0], second[0]])
  {
    var name := first + [' '] + second + [' '] + rest;
    Regroup(first + [' '], second, [' '], rest);
    var split := JsString.Split(first + [' '] + (second + [' '] + rest), ' ');
    assert |split| >= 2 && split[0] == first && split[1] == second by {
      JsString.SplitCons(first, second + [' '] + rest, ' ');
      JsString.SplitCons(second, rest, ' ');
    }
    InitialsFromSplit(name, first, second);
    assert FirstChar(first) + FirstChar(second) == [first[0], second[0]];
  }

  lemma Regroup(x: string, y: string, z: string, w: string)
    ensures x + y + z + w == x + (y + z + w)
  {
  }

  /** `createReciterAvatar(name)`: the placeholder API with `?name="` and the name, quote left open. */
  function CreateReciterAvatar(name: string): string {
    AvatarPlaceholderApi + "?name=\"" + name
  }

  /**
   * The URL is the fixed prefix, ending in an opening quote, followed by the
   * name, so the name can be read back; no closing quote is added.
   */
  lemma CreateReciterAvatarSpec(name: string)
    ensures var u := CreateReciterAvatar(name);
      var n := |AvatarPlaceholderApi| + 7;
      && |u| == n + |name| && u[..|AvatarPlaceholderApi|] == AvatarPlaceholderApi
      && u[n - 1] == '"' && u[n..] == name
      && (name != [] && name[|name| - 1] != '"' ==> u[|u| - 1] != '"')
  {
    var u := CreateReciterAvatar(name);
    var n := |AvatarPlaceholderApi| + 7;
    var q := "?name=\"";
    assert |q| == 7 && q[6] == '"';
    assert u == AvatarPlaceholderApi + q + name;
    assert u[n - 1] == q[6];
  }
}

=== FILE: string_utils.dfy ===
/**
 * The string helpers of src/utils/string.ts. Characters are Unicode scalar
 * values; case mapping is ASCII only. Regular-expression replacements are
 * written out as the left-to-right scans that a global `replace` performs.
 */
module StringUtils {
  import opened Wrappers
  import JsString

  // ---------------------------------------------------------------------------
  // ltrim / rtrim / trim

  /** `WHITE_SPACES`: the default set of characters the trim functions remove. */
  const WhiteSpaces: seq<string> := [
    " ", "\n", "\r", "\t", "\U{000C}", "\U{000B}", "\U{00A0}", "\U{1680}", "\U{180E}",
    "\U{2000}", "\U{2001}", "\U{2002}", "\U{2003}", "\U{2004}", "\U{2005}", "\U{2006}",
    "\U{2007}", "\U{2008}", "\U{2009}", "\U{200A}", "\U{2028}", "\U{2029}", "\U{202F}",
    "\U{205F}", "\U{3000}"
  ]

  /**
   * `chars = chars || WHITE_SPACES`: only a missing argument falls back to the
   * default; an array, even an empty one, is truthy and is kept.
   */
  function CharsOrDefault(chars: Option<seq<string>>): seq<string> {
    if chars.Some? then chars.value else WhiteSpaces
  }

  /**
   * The character `c` is removed by a trim over `chars`: the source compares
   * the one-character string at the cursor with each entry, so entries that are
   * not exactly one character never match.
   */
  predicate Trims(c: char, chars: seq<string>) {
    [c] in chars
  }

  /** Reference meaning of `ltrim`: drop the longest prefix of characters from `chars`. */
  function LTrimmed(s: string, chars: seq<string>): (r: string)
    ensures |r| <= |s|
  {
    if s != [] && Trims(s[0], chars) then LTrimmed(s[1..], chars) else s
  }

  /** `LTrimmed` keeps a suffix that starts with a kept character, and drops only trimmed ones. */
  lemma {:induction false} LTrimmedSpec(s: string, chars: seq<string>)
    ensures var r := LTrimmed(s, chars);
      && r == s[|s| - |r|..]
      && (r != [] ==> !Trims(r[0], chars))
      && forall i :: 0 <= i < |s| - |r| ==> Trims(s[i], chars)
  {
    if s != [] && Trims(s[0], chars) {
      LTrimmedSpec(s[1..], chars);
      var r := LTrimmed(s, chars);
      forall i | 0 <= i < |s| - |r| ensures Trims(s[i], chars) {
        if i > 0 { assert s[i] == s[1..][i - 1]; }
      }
    }
  }

  /** Reference meaning of `rtrim`: drop the longest suffix of characters from `chars`. */
  function RTrimmed(s: string, chars: seq<string>): (r: string)
    ensures |r| <= |s|
  {
    if s != [] && Trims(s[|s| - 1], chars) then RTrimmed(s[..|s| - 1], chars) else s
  }

  /** `RTrimmed` keeps a prefix that ends with a kept character, and drops only trimmed ones. */
  lemma {:induction false} RTrimmedSpec(s: string, chars: seq<string>)
    ensures var r := RTrimmed(s, chars);
      && r == s[..|r|]
      && (r != [] ==> !Trims(r[|r| - 1], chars))
      && forall i :: |r| <= i < |s| ==> Trims(s[i], chars)
  {
    if s != [] && Trims(s[|s| - 1], chars) {
      var p := s[..|s| - 1];
      RTrimmedSpec(p, chars);
      var r := RTrimmed(s, chars);
      assert r == p[..|r|] && p[..|r|] == s[..|r|];
      forall i | |r| <= i < |s| ensures Trims(s[i], chars) {
        if i < |s| - 1 { assert s[i] == p[i]; }
      }
    }
  }

  /** `ltrim(str, chars)`: advances `start` past characters found in `chars`. */
  method LTrim(str: string, chars: Option<seq<string>>) returns (r: string)
    ensures r == LTrimmed(str, CharsOrDefault(chars))
  {
    r := LTrimWith(str, CharsOrDefault(chars));
  }

  /** The scan of `ltrim` once `chars` has its default. */
  method LTrimWith(str: string, cs: seq<string>) returns (r: string)
    ensures r == LTrimmed(str, cs)
  {
    var start, len, charLen, found := 0, |str|, |cs|, true;
    while found && start < len
      invariant 0 <= start <= len
      invariant LTrimmed(str[start..], cs) == LTrimmed(str, cs)
      invariant !found && start < len ==> !Trims(str[start], cs)
      decreases len - start + (if found then 1 else 0)
    {
      found := false;
      var c := str[start];
      var i := 0;
      while i < charLen
        invariant 0 <= i <= charLen && !found
        invariant forall k :: 0 <= k < i ==> cs[k] != [c]
      {
        if [c] == cs[i] {
          found := true;
          assert str[start..][0] == c && str[start..][1..] == str[start + 1..];
          start := start + 1;
          break;
        }
        i := i + 1;
      }
    }
    r := if start >= len then "" else str[start..];
  }

  /** `rtrim(str, chars)`: moves `end` back past characters found in `chars`. */
  method RTrim(str: string, chars: Option<seq<string>>) returns (r: string)
    ensures r == RTrimmed(str, CharsOrDefault(chars))
  {
    r := RTrimWith(str, CharsOrDefault(chars));
  }

  /** The scan of `rtrim` once `chars` has its default. */
  method RTrimWith(str: string, cs: seq<string>) returns (r: string)
    ensures r == RTrimmed(str, cs)
  {
    var end, charLen, found := |str| - 1, |cs|, true;
    assert str[..end + 1] == str;
    while found && end >= 0
      invariant -1 <= end < |str|
      invariant RTrimmed(str[..end + 1], cs) == RTrimmed(str, cs)
      invariant !found && end >= 0 ==> !Trims(str[end], cs)
      decreases end + 1 + (if found then 1 else 0)
    {
      found := false;
      var c := str[end];
      var i := 0;
      while i < charLen
        invariant 0 <= i <= charLen && !found
        invariant forall k :: 0 <= k < i ==> cs[k] != [c]
      {
        if [c] == cs[i] {
          found := true;
          ghost var t := str[..end + 1];
          assert t[..end] == str[..end] && t[end] == c;
          assert RTrimmed(t, cs) == RTrimmed(str[..end], cs);
          end := end - 1;
          break;
        }
        i := i + 1;
      }
    }
    r := if end >= 0 then str[..end + 1] else "";
  }

  /** `trim(str, chars)` = `ltrim(rtrim(str, chars), chars)`. */
  function Trim(str: string, chars: Option<seq<string>>): string {
    TrimWith(str, CharsOrDefault(chars))
  }

  /** `trim` once `chars` has its default. */
  function TrimWith(str: string, cs: seq<string>): string {
    LTrimmed(RTrimmed(str, cs), cs)
  }

  /** Where the text kept by `trim` starts in the original string. */
  function TrimOffset(str: string, cs: seq<string>): int {
    |RTrimmed(str, cs)| - |TrimWith(str, cs)|
  }

  /**
   * `trim` keeps a contiguous piece of its input with no trimmed character at
   * either end, and everything it removed was a trimmed character.
   */
  lemma {:induction false} TrimEnds(str: string, cs: seq<string>)
    ensures var r, a := TrimWith(str, cs), TrimOffset(str, cs);
      && 0 <= a && a + |r| <= |str| && r == str[a..a + |r|]
      && (forall i :: 0 <= i < a ==> Trims(str[i], cs))
      && (forall i :: a + |r| <= i < |str| ==> Trims(str[i], cs))
      && (r != [] ==> !Trims(r[0], cs) && !Trims(r[|r| - 1], cs))
  {
    var t := RTrimmed(str, cs);
    var r := LTrimmed(t, cs);
    var a := |t| - |r|;
    RTrimmedSpec(str, cs);
    LTrimmedSpec(t, cs);
    assert r == str[a..a + |r|];
    forall i | 0 <= i < a ensures Trims(str[i], cs) {
      assert str[i] == t[i];
    }
    if r != [] {
      assert r[|r| - 1] == t[|t| - 1];
    }
  }

  /** Trimming twice is trimming once. */
  lemma TrimIdempotent(str: string, chars: Option<seq<string>>)
    ensures Trim(Trim(str, chars), chars) == Trim(str, chars)
  {
    TrimEnds(str, CharsOrDefault(chars));
  }

  /** An empty `chars` array is truthy, is kept, and matches nothing: the string is returned as it is. */
  lemma TrimEmptyChars(str: string)
    ensures Trim(str, Some([])) == str
  {
  }

  lemma RTrimExample(s: string)
    requires s == " a b\t"
    ensures RTrimmed(s, WhiteSpaces) == " a b"
  {
    assert Trims(s[|s| - 1], WhiteSpaces);
    assert s[..|s| - 1] == " a b";
    assert !Trims('b', WhiteSpaces);
  }

  lemma LTrimExample(s: string)
    requires s == " a b"
    ensures LTrimmed(s, WhiteSpaces) == "a b"
  {
    assert Trims(s[0], WhiteSpaces);
    assert s[1..] == "a b";
    assert !Trims('a', WhiteSpaces);
  }

  lemma TrimExample(s: string)
    requires s == " a b\t"
    ensures Trim(s, None) == "a b"
  {
    RTrimExample(s);
    LTrimExample(" a b");
  }

  // ---------------------------------------------------------------------------
  // repeat / lpad / rpad

  /** `repeat(str, n)` = `new Array(n + 1).join(str)`: `n` copies of `str`. */
  function Repeat(str: string, n: nat): (r: string)
    ensures |r| == n * |str|
  {
    if n == 0 then "" else str + Repeat(str, n - 1)
  }

  /** Repeating a one-character string gives a run of that character. */
  lemma {:induction false} RepeatChar(ch: string, n: nat)
    requires |ch| == 1
    ensures |Repeat(ch, n)| == n
    ensures forall i :: 0 <= i < n ==> Repeat(ch, n)[i] == ch[0]
  {
    if n > 0 {
      RepeatChar(ch, n - 1);
    }
  }

  /** `ch = ch || " "`. */
  function PadOrSpace(ch: string): string {
    if ch == "" then " " else ch
  }

  /** `rpad(str, minLen, ch)`. */
  function RPad(str: string, minLen: int, ch: string): string {
    if |str| < minLen then str + Repeat(PadOrSpace(ch), minLen - |str|) else str
  }

  /** `lpad(str, minLen, ch)`. */
  function LPad(str: string, minLen: int, ch: string): string {
    if |str| < minLen then Repeat(PadOrSpace(ch), minLen - |str|) + str else str
  }

  /**
   * With a one-character pad, `lpad` returns `str` untouched when it is long
   * enough, and otherwise exactly `minLen` characters: pad characters, then `str`.
   */
  lemma LPadSpec(str: string, minLen: int, ch: string)
    requires |ch| == 1
    ensures |str| >= minLen ==> LPad(str, minLen, ch) == str
    ensures |str| < minLen ==>
      var r := LPad(str, minLen, ch);
      |r| == minLen && r[minLen - |str|..] == str &&
      forall i :: 0 <= i < minLen - |str| ==> r[i] == ch[0]
  {
    if |str| < minLen {
      RepeatChar(ch, minLen - |str|);
    }
  }

  /**
   * With a one-character pad, `rpad` returns `str` untouched when it is long
   * enough, and otherwise exactly `minLen` characters: `str`, then pad characters.
   */
  lemma RPadSpec(str: string, minLen: int, ch: string)
    requires |ch| == 1
    ensures |str| >= minLen ==> RPad(str, minLen, ch) == str
    ensures |str| < minLen ==>
      var r := RPad(str, minLen, ch);
      |r| == minLen && r[..|str|] == str &&
      forall i :: |str| <= i < minLen ==> r[i] == ch[0]
  {
    if |str| < minLen {
      RepeatChar(ch, minLen - |str|);
      var r := RPad(str, minLen, ch);
      forall i | |str| <= i < minLen ensures r[i] == ch[0] {
        assert r[i] == Repeat(ch, minLen - |str|)[i - |str|];
      }
    }
  }

  // ---------------------------------------------------------------------------
  // escapeHtml / unescapeHtml

  /** `str.replace(/c/g, rep)` for a single character `c`. */
  function ReplaceChar(s: string, c: char, rep: string): string {
    if s == [] then [] else (if s[0] == c then rep else [s[0]]) + ReplaceChar(s[1..], c, rep)
  }

  /** Every character of the result is a kept character of `s` or comes from `rep`. */
  lemma {:induction false} ReplaceCharMembers(s: string, c: char, rep: string)
    ensures forall x :: x in ReplaceChar(s, c, rep) ==> (x in s && x != c) || x in rep
  {
    if s != [] {
      ReplaceCharMembers(s[1..], c, rep);
    }
  }

  lemma {:induction false} ReplaceCharConcat(a: string, b: string, c: char, rep: string)
    ensures ReplaceChar(a + b, c, rep) == ReplaceChar(a, c, rep) + ReplaceChar(b, c, rep)
  {
    if a == [] {
      assert a + b == b;
    } else {
      assert (a + b)[0] == a[0];
      assert (a + b)[1..] == a[1..] + b;
      ReplaceCharConcat(a[1..], b, c, rep);
    }
  }

  /**
   * `str.replace(/pat/g, rep)` for a literal pattern: scan left to right,
   * replace each match and resume after it.
   */
  function ReplaceAll(s: string, pat: string, rep: string): string
    requires pat != []
    decreases |s|
  {
    if s == [] then []
    else if JsString.IsPrefix(pat, s) then rep + ReplaceAll(s[|pat|..], pat, rep)
    else [s[0]] + ReplaceAll(s[1..], pat, rep)
  }

  /** `escapeHtml(str)`: five global replacements, `&` first. */
  function EscapeHtml(str: string): string {
    ReplaceChar(ReplaceChar(ReplaceChar(ReplaceChar(ReplaceChar(
      str, '&', "&amp;"), '<', "&lt;"), '>', "&gt;"), '\'', "&#39;"), '"', "&quot;")
  }

  /** `unescapeHtml(str)`: five global replacements, `&amp;` first. */
  function UnescapeHtml(str: string): string {
    ReplaceAll(ReplaceAll(ReplaceAll(ReplaceAll(ReplaceAll(
      str, "&amp;", "&"), "&lt;", "<"), "&gt;", ">"), "&#39;", "'"), "&quot;", "\"")
  }

  /**
   * `unescapeHtml` with `&amp;` turned back last, so that the `&` it restores
   * cannot start another entity.
   */
  function UnescapeHtmlAmpLast(str: string): string {
    ReplaceAll(ReplaceAll(ReplaceAll(ReplaceAll(ReplaceAll(
      str, "&lt;", "<"), "&gt;", ">"), "&#39;", "'"), "&quot;", "\""), "&amp;", "&")
  }

  /** The special characters of HTML in the order `escapeHtml` replaces them, and their entities. */
  const Specials: string := "&<>'\""
  const Entities: seq<string> := ["&amp;", "&lt;", "&gt;", "&#39;", "&quot;"]

  /** The position of `c` in `Specials`, or 5 for an ordinary character. */
  function SpecialIndex(c: char): (j: nat)
    ensures j <= 5
    ensures j < 5 <==> c in Specials
    ensures j < 5 ==> Specials[j] == c
  {
    if c == '&' then 0 else if c == '<' then 1 else if c == '>' then 2
    else if c == '\'' then 3 else if c == '"' then 4 else 5
  }

  /** How `c` is written after the first `k` escaping replacements. */
  function Escaped(k: nat, c: char): string {
    var j := SpecialIndex(c);
    if j < k && j < 5 then Entities[j] else [c]
  }

  function EscapedText(k: nat, s: string): string {
    if s == [] then [] else Escaped(k, s[0]) + EscapedText(k, s[1..])
  }

  /**
   * How `c` is written while the entities of the specials numbered in `done`
   * have been turned back and the others not yet.
   */
  function Pending(done: set<nat>, c: char): string {
    var j := SpecialIndex(c);
    if j < 5 && j !in done then Entities[j] else [c]
  }

  function PendingText(done: set<nat>, s: string): string {
    if s == [] then [] else Pending(done, s[0]) + PendingText(done, s[1..])
  }

  /** A replacement of a character the text does not contain changes nothing. */
  lemma {:induction false} ReplaceCharAbsent(s: string, c: char, rep: string)
    requires c !in s
    ensures ReplaceChar(s, c, rep) == s
  {
    if s != [] {
      ReplaceCharAbsent(s[1..], c, rep);
    }
  }

  /** Replacing in a one-character string. */
  lemma ReplaceCharSingle(x: char, c: char, rep: string)
    ensures ReplaceChar([x], c, rep) == if x == c then rep else [x]
  {
    assert [x][1..] == [];
  }

  /** The only special an entity contains is its leading `&`. */
  lemma EntityChars(j: nat, k: nat)
    requires j < 5 && 0 < k < 5
    ensures Specials[k] !in Entities[j]
    ensures Entities[j][0] == '&' && '&' !in Entities[j][1..]
  {
    var e := Entities[j];
    EntityTail(j);
    assert Specials[0] == '&' && Specials[k] != '&';
    forall i | 0 <= i < |e| ensures e[i] != Specials[k] {
      if i > 0 { assert e[i] !in Specials; }
    }
    forall i | 0 <= i < |e| - 1 ensures e[1..][i] != '&' {
      assert e[1..][i] == e[i + 1];
    }
  }

  /** Entities differ in their second character. */
  lemma EntitySecond(j: nat, k: nat)
    requires j < 5 && k < 5 && j != k
    ensures |Entities[j]| > 1 && |Entities[k]| > 1 && Entities[j][1] != Entities[k][1]
  {
  }

  /** The k-th escaping replacement on one character. */
  lemma EscapeChar(k: nat, c: char)
    requires k < 5
    ensures ReplaceChar(Escaped(k, c), Specials[k], Entities[k]) == Escaped(k + 1, c)
  {
    var j := SpecialIndex(c);
    if j < k {
      EntityChars(j, k);
      ReplaceCharAbsent(Entities[j], Specials[k], Entities[k]);
    } else {
      ReplaceCharSingle(c, Specials[k], Entities[k]);
    }
  }

  /** The k-th escaping replacement moves the whole text one stage on. */
  lemma {:induction false} EscapePass(k: nat, s: string)
    requires k < 5
    ensures ReplaceChar(EscapedText(k, s), Specials[k], Entities[k]) == EscapedText(k + 1, s)
  {
    if s != [] {
      ReplaceCharConcat(Escaped(k, s[0]), EscapedText(k, s[1..]), Specials[k], Entities[k]);
      EscapeChar(k, s[0]);
      EscapePass(k, s[1..]);
    }
  }

  lemma {:induction false} EscapedNone(s: string)
    ensures EscapedText(0, s) == s
  {
    if s != [] {
      EscapedNone(s[1..]);
    }
  }

  lemma {:induction false} EscapedAllPending(s: string)
    ensures EscapedText(5, s) == PendingText({}, s)
  {
    if s != [] {
      EscapedAllPending(s[1..]);
    }
  }

  lemma {:induction false} PendingNone(s: string)
    ensures PendingText({0, 1, 2, 3, 4}, s) == s
  {
    if s != [] {
      PendingNone(s[1..]);
    }
  }

  /** Escaping writes every special character as its entity and leaves the rest. */
  lemma EscapeHtmlPending(s: string)
    ensures EscapeHtml(s) == PendingText({}, s)
  {
    EscapedNone(s);
    EscapePass(0, s);
    EscapePass(1, s);
    EscapePass(2, s);
    EscapePass(3, s);
    EscapePass(4, s);
    EscapedAllPending(s);
  }

  /** The escaped text contains no markup-significant character other than `&`. */
  lemma {:induction false} EscapeHtmlSafe(str: string)
    ensures var r := EscapeHtml(str); '<' !in r && '>' !in r && '\'' !in r && '"' !in r
  {
    EscapeHtmlPending(str);
    PendingSafe(str);
  }

  lemma {:induction false} PendingSafe(s: string)
    ensures var r := PendingText({}, s); '<' !in r && '>' !in r && '\'' !in r && '"' !in r
  {
    if s != [] {
      PendingSafe(s[1..]);
      PendingCharSafe(s[0]);
    }
  }

  /** One escaped character holds none of `<`, `>`, `'` and `"`. */
  lemma PendingCharSafe(c: char)
    ensures var r := Pending({}, c); '<' !in r && '>' !in r && '\'' !in r && '"' !in r
  {
    var j := SpecialIndex(c);
    if j < 5 {
      EntityChars(j, 1);
      EntityChars(j, 2);
      EntityChars(j, 3);
      EntityChars(j, 4);
    }
  }

  /** A replacement scan passes over text that cannot start a match unchanged. */
  lemma {:induction false} ReplaceAllSkips(u: string, t: string, pat: string, rep: string)
    requires pat != [] && pat[0] !in u
    ensures ReplaceAll(u + t, pat, rep) == u + ReplaceAll(t, pat, rep)
  {
    if u == [] {
      assert u + t == t;
    } else {
      assert (u + t)[0] == u[0];
      assert (u + t)[1..] == u[1..] + t;
      ReplaceAllSkips(u[1..], t, pat, rep);
    }
  }

  /** A match at the front of the text is replaced and the scan resumes after it. */
  lemma ReplaceAllMatch(pat: string, t: string, rep: string)
    requires pat != []
    ensures ReplaceAll(pat + t, pat, rep) == rep + ReplaceAll(t, pat, rep)
  {
    assert (pat + t)[..|pat|] == pat;
    assert (pat + t)[|pat|..] == t;
  }

  /** One entity is not mistaken for another: the scan for the k-th entity passes over the j-th. */
  lemma EntitySkipped(j: nat, k: nat, t: string)
    requires j < 5 && k < 5 && j != k
    ensures ReplaceAll(Entities[j] + t, Entities[k], [Specials[k]]) ==
      Entities[j] + ReplaceAll(t, Entities[k], [Specials[k]])
  {
    EntitySecond(j, k);
    EntityChars(j, 1);
    EntityChars(k, 1);
    SecondCharSkips(Entities[j], t, Entities[k], [Specials[k]]);
  }

  /**
   * Text that differs from the pattern in its second character, and holds the
   * pattern's first character only at its start, is passed over unchanged.
   */
  lemma SecondCharSkips(e: string, t: string, pat: string, rep: string)
    requires |e| > 1 && |pat| > 1 && e[1] != pat[1] && pat[0] !in e[1..]
    ensures ReplaceAll(e + t, pat, rep) == e + ReplaceAll(t, pat, rep)
  {
    assert (e + t)[1] == e[1];
    assert !JsString.IsPrefix(pat, e + t);
    assert (e + t)[1..] == e[1..] + t;
    ReplaceAllSkips(e[1..], t, pat, rep);
    assert e == [e[0]] + e[1..];
  }

  /**
   * The pass for the k-th entity on one character followed by more text. A
   * restored `&` must not be followed by the text of an entity, so once the
   * `&amp;` pass is done no `&` may remain in the text.
   */
  lemma UnescapeHead(done: set<nat>, k: nat, c: char, tail: string)
    requires k < 5 && k !in done && (0 in done ==> c != '&')
    ensures ReplaceAll(Pending(done, c) + tail, Entities[k], [Specials[k]]) ==
      Pending(done + {k}, c) + ReplaceAll(tail, Entities[k], [Specials[k]])
  {
    var j := SpecialIndex(c);
    if j == k {
      ReplaceAllMatch(Entities[k], tail, [Specials[k]]);
    } else if j < 5 && j !in done {
      EntitySkipped(j, k, tail);
    } else {
      ReplaceAllSkips([c], tail, Entities[k], [Specials[k]]);
    }
  }

  /** The pass for the k-th entity turns exactly those entities back into their character. */
  lemma {:induction false} UnescapePass(done: set<nat>, k: nat, s: string)
    requires k < 5 && k !in done && (0 in done ==> '&' !in s)
    ensures ReplaceAll(PendingText(done, s), Entities[k], [Specials[k]]) == PendingText(done + {k}, s)
  {
    if s != [] {
      UnescapePass(done, k, s[1..]);
      UnescapeHead(done, k, s[0], PendingText(done, s[1..]));
    }
  }

  /** The replacement scan that turns the k-th entity back into its character. */
  function Unescape(k: nat, t: string): string
    requires k < 5
  {
    ReplaceAll(t, Entities[k], [Specials[k]])
  }

  lemma UnescapeHtmlPasses(t: string)
    ensures UnescapeHtml(t) == Unescape(4, Unescape(3, Unescape(2, Unescape(1, Unescape(0, t)))))
  {
  }

  lemma UnescapeHtmlAmpLastPasses(t: string)
    ensures UnescapeHtmlAmpLast(t) == Unescape(0, Unescape(4, Unescape(3, Unescape(2, Unescape(1, t)))))
  {
  }

  /** For text without `&`, unescaping the escaped text gives the text back. */
  lemma UnescapeEscape(str: string)
    requires '&' !in str
    ensures UnescapeHtml(EscapeHtml(str)) == str
  {
    EscapeHtmlPending(str);
    UnescapeHtmlPasses(PendingText({}, str));
    UnescapeInOrder(str);
    PendingNone(str);
  }

  /** The five passes of `unescapeHtml`, one at a time, on escaped text without `&`. */
  lemma UnescapeInOrder(str: string)
    requires '&' !in str
    ensures Unescape(4, Unescape(3, Unescape(2, Unescape(1, Unescape(0, PendingText({}, str))))))
      == PendingText({0, 1, 2, 3, 4}, str)
  {
    UnescapePassTo({}, 0, {0}, str);
    UnescapePassTo({0}, 1, {0, 1}, str);
    UnescapePassTo({0, 1}, 2, {0, 1, 2}, str);
    UnescapePassTo({0, 1, 2}, 3, {0, 1, 2, 3}, str);
    UnescapePassTo({0, 1, 2, 3}, 4, {0, 1, 2, 3, 4}, str);
  }

  /** `UnescapePass`, naming the set of entities turned back afterwards. */
  lemma UnescapePassTo(done: set<nat>, k: nat, after: set<nat>, s: string)
    requires k < 5 && k !in done && (0 in done ==> '&' !in s) && after == done + {k}
    ensures Unescape(k, PendingText(done, s)) == PendingText(after, s)
  {
    UnescapePass(done, k, s);
  }

  /**
   * With `&` in the text the round trip of `unescapeHtml` fails: the text of
   * an entity, such as "&lt;", is escaped to "&amp;lt;" and comes back as the
   * single character "<".
   */
  lemma UnescapeEscapeEntity(k: nat)
    requires 0 < k < 5
    ensures UnescapeHtml(EscapeHtml(Entities[k])) == [Specials[k]] != Entities[k]
  {
    EscapeHtmlPending(Entities[k]);
    UnescapeEscapedEntity(k);
    assert |Entities[k]| > 1;
  }

  lemma UnescapeEscapedEntity(k: nat)
    requires 0 < k < 5
    ensures UnescapeHtml(PendingText({}, Entities[k])) == [Specials[k]]
  {
    UnescapeHtmlPasses(PendingText({}, Entities[k]));
    EntityPasses(k);
  }

  lemma EntityPasses(k: nat)
    requires 0 < k < 5
    ensures Unescape(4, Unescape(3, Unescape(2, Unescape(1, Unescape(0, PendingText({}, Entities[k])))))) == [Specials[k]]
  {
    var c := Specials[k];
    assert c != '&';
    var t1 := Unescape(0, PendingText({}, Entities[k]));
    assert t1 == PendingText({0}, [c]) by {
      EscapeEntity(k);
      AmpersandPassEntity(k);
    }
    var t2 := Unescape(1, t1);
    assert t2 == PendingText({0, 1}, [c]) by { UnescapePassTo({0}, 1, {0, 1}, [c]); }
    var t3 := Unescape(2, t2);
    assert t3 == PendingText({0, 1, 2}, [c]) by { UnescapePassTo({0, 1}, 2, {0, 1, 2}, [c]); }
    var t4 := Unescape(3, t3);
    assert t4 == PendingText({0, 1, 2, 3}, [c]) by { UnescapePassTo({0, 1, 2}, 3, {0, 1, 2, 3}, [c]); }
    assert Unescape(4, t4) == PendingText({0, 1, 2, 3, 4}, [c]) by {
      UnescapePassTo({0, 1, 2, 3}, 4, {0, 1, 2, 3, 4}, [c]);
    }
    PendingNone([c]);
  }

  /** Past its leading `&`, an entity holds no special character. */
  lemma EntityTail(j: nat)
    requires j < 5
    ensures Entities[j][0] == '&'
    ensures forall i :: 1 <= i < |Entities[j]| ==> Entities[j][i] !in Specials
  {
    var e := Entities[j];
    forall i | 1 <= i < |e| ensures e[i] !in Specials {
      assert e[i] in "amplgt#39quo;";
    }
  }

  /** Escaping the text of an entity escapes only its leading `&`. */
  lemma EscapeEntity(k: nat)
    requires 0 < k < 5
    ensures PendingText({}, Entities[k]) == Entities[0] + Entities[k][1..]
  {
    var e := Entities[k];
    var rest := e[1..];
    EntityTail(k);
    assert e == ['&'] + rest;
    PendingTextConcat({}, ['&'], rest);
    forall i | 0 <= i < |rest| ensures rest[i] !in Specials {
      assert rest[i] == e[i + 1];
    }
    PendingPlain({}, rest);
  }

  /** The `&amp;` pass turns an escaped entity text back into the entity text. */
  lemma AmpersandPassEntity(k: nat)
    requires 0 < k < 5
    ensures Unescape(0, Entities[0] + Entities[k][1..]) == Entities[k] == PendingText({0}, [Specials[k]])
  {
    var rest := Entities[k][1..];
    EntityChars(k, 1);
    AmpersandRestored(rest);
    assert Entities[k] == "&" + rest;
    assert SpecialIndex(Specials[k]) == k;
    assert [Specials[k]][1..] == [];
  }

  /** The `&amp;` pass on an escaped `&` followed by text without `&`. */
  lemma AmpersandRestored(rest: string)
    requires '&' !in rest
    ensures Unescape(0, Entities[0] + rest) == "&" + rest
  {
    ReplaceAllMatch(Entities[0], rest, "&");
    ReplaceAllSkips(rest, "", Entities[0], "&");
    assert rest + "" == rest;
  }

  /** Unescaping with `&amp;` last undoes escaping for every text. */
  lemma UnescapeAmpLastEscape(str: string)
    ensures UnescapeHtmlAmpLast(EscapeHtml(str)) == str
  {
    EscapeHtmlPending(str);
    UnescapeHtmlAmpLastPasses(PendingText({}, str));
    UnescapeAmpLastInOrder(str);
    PendingNone(str);
  }

  /** The five passes with `&amp;` last, one at a time, on escaped text. */
  lemma UnescapeAmpLastInOrder(str: string)
    ensures Unescape(0, Unescape(4, Unescape(3, Unescape(2, Unescape(1, PendingText({}, str))))))
      == PendingText({0, 1, 2, 3, 4}, str)
  {
    var t1 := Unescape(1, PendingText({}, str));
    assert t1 == PendingText({1}, str) by { UnescapePassTo({}, 1, {1}, str); }
    var t2 := Unescape(2, t1);
    assert t2 == PendingText({1, 2}, str) by { UnescapePassTo({1}, 2, {1, 2}, str); }
    var t3 := Unescape(3, t2);
    assert t3 == PendingText({1, 2, 3}, str) by { UnescapePassTo({1, 2}, 3, {1, 2, 3}, str); }
    var t4 := Unescape(4, t3);
    assert t4 == PendingText({1, 2, 3, 4}, str) by { UnescapePassTo({1, 2, 3}, 4, {1, 2, 3, 4}, str); }
    UnescapePassTo({1, 2, 3, 4}, 0, {0, 1, 2, 3, 4}, str);
  }

  lemma {:induction false} PendingTextConcat(done: set<nat>, a: string, b: string)
    ensures PendingText(done, a + b) == PendingText(done, a) + PendingText(done, b)
  {
    if a == [] {
      assert a + b == b;
    } else {
      assert (a + b)[0] == a[0];
      assert (a + b)[1..] == a[1..] + b;
      PendingTextConcat(done, a[1..], b);
    }
  }

  /** Text without special characters is written as it is at every stage. */
  lemma {:induction false} PendingPlain(done: set<nat>, s: string)
    requires forall i :: 0 <= i < |s| ==> s[i] !in Specials
    ensures PendingText(done, s) == s
  {
    if s != [] {
      PendingPlain(done, s[1..]);
    }
  }

  // ---------------------------------------------------------------------------
  // truncate / crop

  /** `append = append || "..."`: a missing or empty suffix falls back to the ellipsis. */
  function AppendOrEllipsis(append: Option<string>): (r: string)
    ensures r != []
  {
    if append.Some? && append.value != "" then append.value else "..."
  }

  /** `str.substring(0, end)`: a negative end counts as 0 and an end past the text as its length. */
  function Substring(str: string, end: int): (r: string)
    ensures r == str[..if end < 0 then 0 else if end > |str| then |str| else end]
  {
    if end <= 0 then "" else if end >= |str| then str else str[..end]
  }

  /**
   * `truncate(str, maxChars, append, onlyFullWords)`: the trimmed text when it
   * fits, otherwise a cut prefix followed by the suffix.
   */
  function Truncate(str: string, maxChars: int, append: Option<string>, onlyFullWords: bool): string {
    Shorten(Trim(str, None), maxChars, AppendOrEllipsis(append), onlyFullWords)
  }

  /**
   * The part of `truncate` after trimming. With `onlyFullWords` the limit is
   * one higher and the cut goes back to the last space (to nothing when there
   * is none); without it the cut is trimmed again.
   */
  function Shorten(t: string, maxChars: int, app: string, onlyFullWords: bool): string {
    var limit := if onlyFullWords then maxChars + 1 else maxChars;
    if |t| <= limit then t
    else
      var cut := Substring(t, limit - |app|);
      var kept := if onlyFullWords then Substring(cut, JsString.LastIndexOf(cut, ' ')) else Trim(cut, None);
      kept + app
  }

  /** `crop(str, maxChars, append)` = `truncate(str, maxChars, append, true)`. */
  function Crop(str: string, maxChars: int, append: Option<string>): string {
    Truncate(str, maxChars, append, true)
  }

  /**
   * Text that fits is returned trimmed. Text that does not fit, with room for
   * the suffix, becomes at most `maxChars` characters: a trimmed prefix of the
   * trimmed text followed by the suffix.
   */
  lemma TruncateSpec(str: string, maxChars: int, append: Option<string>)
    ensures var t, app, r := Trim(str, None), AppendOrEllipsis(append), Truncate(str, maxChars, append, false);
      && (|t| <= maxChars ==> r == t)
      && (|t| > maxChars >= |app| ==>
            && |r| <= maxChars
            && r[|r| - |app|..] == app
            && r[..|r| - |app|] == Trim(t[..maxChars - |app|], None))
  {
    var t, app := Trim(str, None), AppendOrEllipsis(append);
    if |t| > maxChars >= |app| {
      var cut := t[..maxChars - |app|];
      TrimEnds(cut, WhiteSpaces);
    }
  }

  /**
   * `crop` keeps only whole words: when the text does not fit, the kept part
   * is a prefix of the trimmed text that stops just before a space (or is
   * empty), and with room for the suffix the result has at most `maxChars`
   * characters.
   */
  lemma CropSpec(str: string, maxChars: int, append: Option<string>)
    ensures var t, app, r := Trim(str, None), AppendOrEllipsis(append), Crop(str, maxChars, append);
      && (|t| <= maxChars + 1 ==> r == t)
      && (|t| > maxChars + 1 ==>
            && |r| >= |app| && r[|r| - |app|..] == app
            && JsString.IsPrefix(r[..|r| - |app|], t)
            && (|r| == |app| || t[|r| - |app|] == ' ')
            && (maxChars >= |app| ==> |r| <= maxChars))
  {
    var t, app := Trim(str, None), AppendOrEllipsis(append);
    if |t| > maxChars + 1 {
      ShortenWords(t, maxChars, app);
    }
  }

  lemma ShortenWords(t: string, maxChars: int, app: string)
    requires |t| > maxChars + 1
    ensures var r := Shorten(t, maxChars, app, true);
      && |r| >= |app| && r[|r| - |app|..] == app
      && JsString.IsPrefix(r[..|r| - |app|], t)
      && (|r| == |app| || t[|r| - |app|] == ' ')
      && (maxChars >= |app| ==> |r| <= maxChars)
  {
    var cut := Substring(t, maxChars + 1 - |app|);
    assert cut == t[..|cut|];
    var li := JsString.LastIndexOf(cut, ' ');
    var kept := Substring(cut, li);
    assert kept == t[..|kept|];
    var r := kept + app;
    assert r[..|kept|] == kept;
    assert r[|kept|..] == app;
  }

  // ---------------------------------------------------------------------------
  // replaceAccents

  /** A regular-expression character class, as a list of inclusive ranges. */
  type CharClass = seq<(char, char)>

  predicate InClass(c: char, cls: CharClass)
    decreases |cls|
  {
    cls != [] && ((cls[0].0 <= c <= cls[0].1) || InClass(c, cls[1..]))
  }

  /** `str.replace(/[cls]/g, rep)`. */
  function ReplaceClass(s: string, cls: CharClass, rep: string): string {
    if s == [] then [] else (if InClass(s[0], cls) then rep else [s[0]]) + ReplaceClass(s[1..], cls, rep)
  }

  /** The replacements of `replaceAccents`, in the order it applies them. */
  const AccentTable: seq<(CharClass, string)> := [
    ([('\U{00C0}', '\U{00C5}')], "A"),
    ([('\U{00C6}', '\U{00C6}')], "AE"),
    ([('\U{00C7}', '\U{00C7}')], "C"),
    ([('\U{00C8}', '\U{00CB}')], "E"),
    ([('\U{00CC}', '\U{00CF}')], "I"),
    ([('\U{00D0}', '\U{00D0}')], "D"),
    ([('\U{00D1}', '\U{00D1}')], "N"),
    ([('\U{00D2}', '\U{00D6}'), ('\U{00D8}', '\U{00D8}')], "O"),
    ([('\U{00D9}', '\U{00DC}')], "U"),
    ([('\U{00DD}', '\U{00DD}')], "Y"),
    ([('\U{00DE}', '\U{00DE}')], "P"),
    ([('\U{00E0}', '\U{00E5}')], "a"),
    ([('\U{00E6}', '\U{00E6}')], "ae"),
    ([('\U{00E7}', '\U{00E7}')], "c"),
    ([('\U{00E8}', '\U{00EB}')], "e"),
    ([('\U{00EC}', '\U{00EF}')], "i"),
    ([('\U{00F1}', '\U{00F1}')], "n"),
    ([('\U{00F2}', '\U{00F6}'), ('\U{00F8}', '\U{00F8}')], "o"),
    ([('\U{00F9}', '\U{00FC}')], "u"),
    ([('\U{00FE}', '\U{00FE}')], "p"),
    ([('\U{00FD}', '\U{00FD}'), ('\U{00FF}', '\U{00FF}')], "y")
  ]

  /** The range `[\xC0-\xFF]` that `replaceAccents` searches for. */
  predicate IsLatin1Letter(c: char) {
    '\U{00C0}' <= c <= '\U{00FF}'
  }

  predicate HasLatin1Letter(s: string) {
    exists i :: 0 <= i < |s| && IsLatin1Letter(s[i])
  }

  /** The replacements from the k-th one on, applied in turn. */
  function ApplyAccents(s: string, k: nat): string
    decreases |AccentTable| - k
  {
    if k >= |AccentTable| then s
    else ApplyAccents(ReplaceClass(s, AccentTable[k].0, AccentTable[k].1), k + 1)
  }

  /** `replaceAccents(str)`: the 21 replacements, run only when a character of `[\xC0-\xFF]` is present. */
  function ReplaceAccents(str: string): string {
    if HasLatin1Letter(str) then ApplyAccents(str, 0) else str
  }

  /**
   * Reference lookup: which replacement, if any, matches `c` (21 for none).
   * Only the multiplication and division signs and the letters sharp s and
   * eth are in `[\xC0-\xFF]` and matched by none.
   */
  function AccentIndex(c: char): (j: nat)
    ensures j <= 21
    ensures j == 21 && IsLatin1Letter(c) <==> c in ['\U{00D7}', '\U{00DF}', '\U{00F0}', '\U{00F7}']
  {
    if c < '\U{00C0}' || c > '\U{00FF}' then 21
    else if c <= '\U{00C5}' then 0
    else if c == '\U{00C6}' then 1
    else if c == '\U{00C7}' then 2
    else if c <= '\U{00CB}' then 3
    else if c <= '\U{00CF}' then 4
    else if c == '\U{00D0}' then 5
    else if c == '\U{00D1}' then 6
    else if c <= '\U{00D6}' || c == '\U{00D8}' then 7
    else if c == '\U{00D7}' then 21
    else if c <= '\U{00DC}' then 8
    else if c == '\U{00DD}' then 9
    else if c == '\U{00DE}' then 10
    else if c == '\U{00DF}' then 21
    else if c <= '\U{00E5}' then 11
    else if c == '\U{00E6}' then 12
    else if c == '\U{00E7}' then 13
    else if c <= '\U{00EB}' then 14
    else if c <= '\U{00EF}' then 15
    else if c == '\U{00F0}' then 21
    else if c == '\U{00F1}' then 16
    else if c <= '\U{00F6}' || c == '\U{00F8}' then 17
    else if c == '\U{00F7}' then 21
    else if c <= '\U{00FC}' then 18
    else if c == '\U{00FE}' then 19
    else 20
  }

  /** How `c` is written after the first `k` replacements of `replaceAccents`. */
  function AccentStage(k: nat, c: char): string {
    var j := AccentIndex(c);
    if j < k && j < |AccentTable| then AccentTable[j].1 else [c]
  }

  function AccentStageText(k: nat, s: string): string {
    if s == [] then [] else AccentStage(k, s[0]) + AccentStageText(k, s[1..])
  }

  /** Membership in a class of one or two ranges. */
  lemma InClassShort(c: char, cls: CharClass)
    requires 1 <= |cls| <= 2
    ensures InClass(c, cls) <==> (cls[0].0 <= c <= cls[0].1) || (|cls| == 2 && cls[1].0 <= c <= cls[1].1)
  {
    if |cls| == 2 {
      assert cls[1..][1..] == [];
    } else {
      assert cls[1..] == [];
    }
  }

  /** The j-th replacement matches exactly the characters the lookup sends to it. */
  lemma AccentClassExact(j: nat, c: char)
    requires j < |AccentTable|
    ensures InClass(c, AccentTable[j].0) <==> AccentIndex(c) == j
  {
    InClassShort(c, AccentTable[j].0);
    if j < 7 {
      AccentClassLow(j, c);
    } else if j < 14 {
      AccentClassMiddle(j, c);
    } else {
      AccentClassHigh(j, c);
    }
  }

  // one case per replacement, so that each sees its own ranges

  lemma AccentClassLow(j: nat, c: char)
    requires j < 7 && InClass(c, AccentTable[j].0) == ((AccentTable[j].0[0].0 <= c <= AccentTable[j].0[0].1) ||
      (|AccentTable[j].0| == 2 && AccentTable[j].0[1].0 <= c <= AccentTable[j].0[1].1))
    ensures InClass(c, AccentTable[j].0) <==> AccentIndex(c) == j
  {
    if j == 0 {
    } else if j == 1 {
    } else if j == 2 {
    } else if j == 3 {
    } else if j == 4 {
    } else if j == 5 {
    }
  }

  lemma AccentClassMiddle(j: nat, c: char)
    requires 7 <= j < 14 && InClass(c, AccentTable[j].0) == ((AccentTable[j].0[0].0 <= c <= AccentTable[j].0[0].1) ||
      (|AccentTable[j].0| == 2 && AccentTable[j].0[1].0 <= c <= AccentTable[j].0[1].1))
    ensures InClass(c, AccentTable[j].0) <==> AccentIndex(c) == j
  {
    if j == 7 {
    } else if j == 8 {
    } else if j == 9 {
    } else if j == 10 {
    } else if j == 11 {
    } else if j == 12 {
    }
  }

  lemma AccentClassHigh(j: nat, c: char)
    requires 14 <= j < |AccentTable| && InClass(c, AccentTable[j].0) == ((AccentTable[j].0[0].0 <= c <= AccentTable[j].0[0].1) ||
      (|AccentTable[j].0| == 2 && AccentTable[j].0[1].0 <= c <= AccentTable[j].0[1].1))
    ensures InClass(c, AccentTable[j].0) <==> AccentIndex(c) == j
  {
    if j == 14 {
    } else if j == 15 {
    } else if j == 16 {
    } else if j == 17 {
    } else if j == 18 {
    } else if j == 19 {
    }
  }

  /** Every replacement text is plain ASCII, below the accented range. */
  lemma AccentRepsAscii(j: nat, x: char)
    requires j < |AccentTable| && x in AccentTable[j].1
    ensures x < '\U{00C0}'
  {
  }

  lemma ReplaceClassConcat(a: string, b: string, cls: CharClass, rep: string)
    ensures ReplaceClass(a + b, cls, rep) == ReplaceClass(a, cls, rep) + ReplaceClass(b, cls, rep)
  {
    if a == [] {
      assert a + b == b;
    } else {
      assert (a + b)[0] == a[0];
      assert (a + b)[1..] == a[1..] + b;
      ReplaceClassConcat(a[1..], b, cls, rep);
    }
  }

  lemma {:induction false} ReplaceClassAbsent(s: string, cls: CharClass, rep: string)
    requires forall i :: 0 <= i < |s| ==> !InClass(s[i], cls)
    ensures ReplaceClass(s, cls, rep) == s
  {
    if s != [] {
      ReplaceClassAbsent(s[1..], cls, rep);
    }
  }

  /** The k-th replacement on one character moves it one stage on. */
  lemma AccentPassChar(k: nat, c: char)
    requires k < |AccentTable|
    ensures ReplaceClass(AccentStage(k, c), AccentTable[k].0, AccentTable[k].1) == AccentStage(k + 1, c)
  {
    var j := AccentIndex(c);
    var cls, rep := AccentTable[k].0, AccentTable[k].1;
    AccentClassExact(k, c);
    if j < k {
      var t := AccentTable[j].1;
      forall i | 0 <= i < |t| ensures !InClass(t[i], cls) {
        AccentRepsAscii(j, t[i]);
        AccentClassExact(k, t[i]);
      }
      ReplaceClassAbsent(t, cls, rep);
    } else {
      assert [c][1..] == [];
    }
  }

  lemma {:induction false} AccentPass(k: nat, s: string)
    requires k < |AccentTable|
    ensures ReplaceClass(AccentStageText(k, s), AccentTable[k].0, AccentTable[k].1) == AccentStageText(k + 1, s)
  {
    if s != [] {
      ReplaceClassConcat(AccentStage(k, s[0]), AccentStageText(k, s[1..]), AccentTable[k].0, AccentTable[k].1);
      AccentPassChar(k, s[0]);
      AccentPass(k, s[1..]);
    }
  }

  lemma {:induction false} ApplyAccentsStaged(k: nat, s: string)
    requires k <= |AccentTable|
    ensures ApplyAccents(AccentStageText(k, s), k) == AccentStageText(|AccentTable|, s)
    decreases |AccentTable| - k
  {
    if k < |AccentTable| {
      AccentPass(k, s);
      ApplyAccentsStaged(k + 1, s);
    }
  }

  lemma {:induction false} AccentStageNone(s: string)
    ensures AccentStageText(0, s) == s
  {
    if s != [] {
      AccentStageNone(s[1..]);
      assert AccentStage(0, s[0]) == [s[0]];
      assert s == [s[0]] + s[1..];
    }
  }

  lemma AccentStagePlainChar(k: nat, c: char)
    requires !IsLatin1Letter(c)
    ensures AccentStage(k, c) == [c]
  {
  }

  /** Text with no character of `[\xC0-\xFF]` is written as it is at every stage. */
  lemma {:induction false} AccentStagePlain(k: nat, s: string)
    requires !HasLatin1Letter(s)
    ensures AccentStageText(k, s) == s
  {
    if s != [] {
      assert !IsLatin1Letter(s[0]);
      AccentStagePlainChar(k, s[0]);
      assert !HasLatin1Letter(s[1..]) by {
        forall i | 0 <= i < |s[1..]| ensures !IsLatin1Letter(s[1..][i]) {
          assert s[1..][i] == s[i + 1];
        }
      }
      AccentStagePlain(k, s[1..]);
    }
  }

  /**
   * `replaceAccents` replaces each character on its own: a matched accented
   * letter by its plain form, any other character by itself.
   */
  lemma ReplaceAccentsPerChar(s: string)
    ensures ReplaceAccents(s) == AccentStageText(|AccentTable|, s)
  {
    if HasLatin1Letter(s) {
      AccentStageNone(s);
      ApplyAccentsStaged(0, s);
    } else {
      AccentStagePlain(|AccentTable|, s);
    }
  }

  lemma {:induction false} AccentStageLeft(s: string)
    ensures forall x :: x in AccentStageText(|AccentTable|, s) && IsLatin1Letter(x) ==>
      x in ['\U{00D7}', '\U{00DF}', '\U{00F0}', '\U{00F7}']
  {
    if s != [] {
      var j := AccentIndex(s[0]);
      if j < |AccentTable| {
        forall x | x in AccentTable[j].1 ensures !IsLatin1Letter(x) {
          AccentRepsAscii(j, x);
        }
      }
      AccentStageLeft(s[1..]);
    }
  }

  /**
   * After `replaceAccents` the only characters of `[\xC0-\xFF]` left are the
   * four no replacement covers; text without such characters is returned as it is.
   */
  lemma ReplaceAccentsSpec(s: string)
    ensures forall x :: x in ReplaceAccents(s) && IsLatin1Letter(x) ==>
      x in ['\U{00D7}', '\U{00DF}', '\U{00F0}', '\U{00F7}']
    ensures !HasLatin1Letter(s) ==> ReplaceAccents(s) == s
  {
    ReplaceAccentsPerChar(s);
    AccentStageLeft(s);
  }

  // ---------------------------------------------------------------------------
  // removeNonWord / removeNonASCII / stripHtmlTags

  /** `str.replace(/[^...]/g, "")`: keep the characters satisfying `keep`, in order. */
  function Filter(s: string, keep: char -> bool): string {
    if s == [] then [] else (if keep(s[0]) then [s[0]] else []) + Filter(s[1..], keep)
  }

  /**
   * A filter keeps exactly the characters it accepts: every character of the
   * result is accepted and comes from `s`, and every accepted character of
   * `s` is kept. Text whose characters are all accepted is returned as it is.
   */
  lemma {:induction false} FilterSpec(s: string, keep: char -> bool)
    ensures forall x :: x in Filter(s, keep) <==> x in s && keep(x)
    ensures (forall i :: 0 <= i < |s| ==> keep(s[i])) ==> Filter(s, keep) == s
  {
    if s != [] {
      FilterSpec(s[1..], keep);
      var head := if keep(s[0]) then [s[0]] else [];
      assert Filter(s, keep) == head + Filter(s[1..], keep);
      assert s == [s[0]] + s[1..];
      forall x ensures x in Filter(s, keep) <==> x in s && keep(x) {
        assert x in s <==> x == s[0] || x in s[1..];
      }
    }
  }

  /** Filtering twice is filtering once. */
  lemma FilterIdempotent(s: string, keep: char -> bool)
    ensures Filter(Filter(s, keep), keep) == Filter(s, keep)
  {
    var r := Filter(s, keep);
    FilterSpec(s, keep);
    FilterSpec(r, keep);
  }

  /** The characters `[0-9a-zA-Z\xC0-\xFF \-]` that `removeNonWord` keeps. */
  predicate IsWordOrSpace(c: char) {
    '0' <= c <= '9' || 'a' <= c <= 'z' || 'A' <= c <= 'Z' || IsLatin1Letter(c) || c == ' ' || c == '-'
  }

  /** The printable ASCII characters `[\x20-\x7E]` that `removeNonASCII` keeps. */
  predicate IsPrintableAscii(c: char) {
    ' ' <= c <= '~'
  }

  /** `removeNonWord(str)`. */
  function RemoveNonWord(str: string): string {
    Filter(str, IsWordOrSpace)
  }

  /** `removeNonASCII(str)`. */
  function RemoveNonAscii(str: string): string {
    Filter(str, IsPrintableAscii)
  }

  /** `removeNonWord` keeps exactly the word characters, spaces and hyphens, and is idempotent. */
  lemma RemoveNonWordSpec(str: string)
    ensures forall x :: x in RemoveNonWord(str) <==> x in str && IsWordOrSpace(x)
    ensures RemoveNonWord(RemoveNonWord(str)) == RemoveNonWord(str)
  {
    FilterSpec(str, IsWordOrSpace);
    FilterIdempotent(str, IsWordOrSpace);
  }

  /** `removeNonASCII` keeps exactly the printable ASCII characters, and is idempotent. */
  lemma RemoveNonAsciiSpec(str: string)
    ensures forall x :: x in RemoveNonAscii(str) <==> x in str && IsPrintableAscii(x)
    ensures RemoveNonAscii(RemoveNonAscii(str)) == RemoveNonAscii(str)
  {
    FilterSpec(str, IsPrintableAscii);
    FilterIdempotent(str, IsPrintableAscii);
  }

  /**
   * `stripHtmlTags(str)` = `str.replace(/<[^>]*>/g, "")`: from each `<` that
   * has a `>` after it, everything up to and including the first such `>`
   * is removed; a `<` with no `>` after it stays.
   */
  function StripHtmlTags(str: string): string
    decreases |str|
  {
    if str == [] then []
    else if str[0] == '<' && '>' in str then StripHtmlTags(str[JsString.IndexOf(str, '>') + 1..])
    else [str[0]] + StripHtmlTags(str[1..])
  }

  /** No `<` is followed, anywhere later, by `>`. */
  predicate NoTag(s: string) {
    forall i, j :: 0 <= i < j < |s| && s[i] == '<' ==> s[j] != '>'
  }

  lemma {:induction false} StripHtmlTagsChars(str: string)
    ensures forall x :: x in StripHtmlTags(str) ==> x in str
    decreases |str|
  {
    if str != [] {
      if str[0] == '<' && '>' in str {
        StripHtmlTagsChars(str[JsString.IndexOf(str, '>') + 1..]);
      } else {
        StripHtmlTagsChars(str[1..]);
      }
    }
  }

  /** The stripped text contains no tag. */
  lemma {:induction false} StripHtmlTagsNoTag(str: string)
    ensures NoTag(StripHtmlTags(str))
    decreases |str|
  {
    if str != [] {
      if str[0] == '<' && '>' in str {
        StripHtmlTagsNoTag(str[JsString.IndexOf(str, '>') + 1..]);
      } else {
        var rest := StripHtmlTags(str[1..]);
        StripHtmlTagsNoTag(str[1..]);
        StripHtmlTagsChars(str[1..]);
        var r := [str[0]] + rest;
        forall i, j | 0 <= i < j < |r| && r[i] == '<' ensures r[j] != '>' {
          if i == 0 {
            assert r[j] == rest[j - 1];
            assert rest[j - 1] in str[1..];
          } else {
            assert r[i] == rest[i - 1] && r[j] == rest[j - 1];
          }
        }
      }
    }
  }

  /** Text with no tag is returned as it is. */
  lemma {:induction false} StripHtmlTagsNoTagUnchanged(str: string)
    requires NoTag(str)
    ensures StripHtmlTags(str) == str
  {
    if str != [] {
      NoTagHead(str);
      NoTagTail(str);
      StripHtmlTagsNoTagUnchanged(str[1..]);
    }
  }

  /** Text with no tag that starts with `<` has no `>` at all. */
  lemma NoTagHead(str: string)
    requires NoTag(str) && str != []
    ensures str[0] == '<' ==> '>' !in str
  {
    if str[0] == '<' {
      forall j | 0 <= j < |str| ensures str[j] != '>' {
        if j > 0 {
          assert str[0] == '<';
        }
      }
    }
  }

  /** The rest of a text with no tag has no tag. */
  lemma NoTagTail(str: string)
    requires NoTag(str) && str != []
    ensures NoTag(str[1..])
  {
    forall i, j | 0 <= i < j < |str[1..]| && str[1..][i] == '<' ensures str[1..][j] != '>' {
      assert str[1..][i] == str[i + 1] && str[1..][j] == str[j + 1];
    }
  }

  /** Stripping twice is stripping once. */
  lemma StripHtmlTagsIdempotent(str: string)
    ensures StripHtmlTags(StripHtmlTags(str)) == StripHtmlTags(str)
  {
    StripHtmlTagsNoTag(str);
    StripHtmlTagsNoTagUnchanged(StripHtmlTags(str));
  }

  // ---------------------------------------------------------------------------
  // unhyphenate

  /** `\w`: `[A-Za-z0-9_]`. */
  predicate IsWordChar(c: char) {
    'a' <= c <= 'z' || 'A' <= c <= 'Z' || '0' <= c <= '9' || c == '_'
  }

  /**
   * `unhyphenate(str)` = `str.replace(/(\w)(-)(\w)/g, "$1 $3")`: a left-to-right
   * scan that turns the hyphen of each word-hyphen-word match into a space and
   * resumes after the match, so matches never overlap.
   */
  function Unhyphenate(str: string): string
    decreases |str|
  {
    if |str| >= 3 && IsWordChar(str[0]) && str[1] == '-' && IsWordChar(str[2]) then
      [str[0], ' ', str[2]] + Unhyphenate(str[3..])
    else if str == [] then []
    else [str[0]] + Unhyphenate(str[1..])
  }

  /**
   * `unhyphenate` keeps the length and changes only hyphens, each into a space,
   * and only hyphens that sit between two word characters.
   */
  lemma {:induction false} UnhyphenateSpec(str: string)
    ensures var r := Unhyphenate(str);
      && |r| == |str|
      && (forall i :: 0 <= i < |str| && r[i] != str[i] ==>
            && str[i] == '-' && r[i] == ' '
            && 0 < i < |str| - 1 && IsWordChar(str[i - 1]) && IsWordChar(str[i + 1]))
    decreases |str|
  {
    if |str| >= 3 && IsWordChar(str[0]) && str[1] == '-' && IsWordChar(str[2]) {
      UnhyphenateSpec(str[3..]);
      var r := Unhyphenate(str);
      forall i | 3 <= i < |str| ensures r[i] == Unhyphenate(str[3..])[i - 3] && str[i] == str[3..][i - 3] {
      }
    } else if str != [] {
      UnhyphenateSpec(str[1..]);
      var r := Unhyphenate(str);
      forall i | 1 <= i < |str| ensures r[i] == Unhyphenate(str[1..])[i - 1] && str[i] == str[1..][i - 1] {
      }
    }
  }

  /** Matches do not overlap: in "a-b-c" only the first hyphen goes. */
  lemma UnhyphenateExample(str: string)
    requires str == "a-b-c"
    ensures Unhyphenate(str) == "a b-c"
  {
    assert str[3..] == "-c";
    var t := str[3..];
    assert !(|t| >= 3);
    assert t[1..] == "c";
    assert Unhyphenate("c") == "c" by {
      assert "c"[1..] == [];
    }
  }

  // ---------------------------------------------------------------------------
  // slugify

  /** `str.replace(/ +/g, d)`: each run of spaces becomes one `d`. */
  function ReplaceSpaceRuns(s: string, d: string): string
    decreases |s|
  {
    if s == [] then []
    else if s[0] == ' ' then d + ReplaceSpaceRuns(SkipSpaces(s), d)
    else [s[0]] + ReplaceSpaceRuns(s[1..], d)
  }

  /** `s` without its leading run of spaces. */
  function SkipSpaces(s: string): (r: string)
    ensures |r| <= |s| && r == s[|s| - |r|..]
    ensures r == [] || r[0] != ' '
    ensures s != [] && s[0] == ' ' ==> |r| < |s|
  {
    if s != [] && s[0] == ' ' then SkipSpaces(s[1..]) else s
  }

  /** Every character of the result is a non-space character of `s` or comes from `d`. */
  lemma {:induction false} ReplaceSpaceRunsChars(s: string, d: string)
    ensures forall x :: x in ReplaceSpaceRuns(s, d) ==> (x in s && x != ' ') || x in d
    decreases |s|
  {
    if s != [] {
      if s[0] == ' ' {
        var t := SkipSpaces(s);
        ReplaceSpaceRunsChars(t, d);
        assert forall x :: x in t ==> x in s;
      } else {
        ReplaceSpaceRunsChars(s[1..], d);
      }
    }
  }

  /** `delimeter = delimeter ? delimeter : "-"`. */
  function DelimiterOrHyphen(delimiter: Option<string>): string {
    if delimiter.Some? && delimiter.value != "" then delimiter.value else "-"
  }

  /**
   * `slugify(str, delimeter)`: fold accents, drop non-word characters, trim,
   * replace runs of spaces by the delimiter and lower-case the result.
   */
  function Slugify(str: string, delimiter: Option<string>): string {
    var t := Trim(RemoveNonWord(ReplaceAccents(str)), None);
    JsString.Lower(ReplaceSpaceRuns(t, DelimiterOrHyphen(delimiter)))
  }

  /** The characters a slug may contain besides those of its delimiter. */
  predicate IsSlugChar(c: char) {
    '0' <= c <= '9' || 'a' <= c <= 'z' || c == '-' || c in ['\U{00D7}', '\U{00DF}', '\U{00F0}', '\U{00F7}']
  }

  /** A character left after folding accents, dropping non-word characters and replacing spaces. */
  predicate IsUnfoldedSlugChar(c: char) {
    IsWordOrSpace(c) && c != ' ' && (IsLatin1Letter(c) ==> c in ['\U{00D7}', '\U{00DF}', '\U{00F0}', '\U{00F7}'])
  }

  /** The trimmed, filtered, accent-folded text holds only word characters, spaces and hyphens. */
  lemma SlugBody(str: string)
    ensures forall x :: x in Trim(RemoveNonWord(ReplaceAccents(str)), None) ==>
      x == ' ' || IsUnfoldedSlugChar(x)
  {
    var a := ReplaceAccents(str);
    var w := RemoveNonWord(a);
    ReplaceAccentsSpec(str);
    RemoveNonWordSpec(a);
    TrimMembers(w, WhiteSpaces);
    assert Trim(w, None) == TrimWith(w, WhiteSpaces);
  }

  /** Every character `trim` keeps comes from its input. */
  lemma TrimMembers(w: string, cs: seq<string>)
    ensures forall x :: x in TrimWith(w, cs) ==> x in w
  {
    TrimEnds(w, cs);
    var t, a := TrimWith(w, cs), TrimOffset(w, cs);
    forall x | x in t ensures x in w {
      var i :| 0 <= i < |t| && t[i] == x;
      assert x == w[a + i];
    }
  }

  /**
   * A slug holds only digits, lower-case ASCII letters, hyphens, the four
   * characters of `[\xC0-\xFF]` that have no plain form, and characters of
   * the (lower-cased) delimiter; in particular no space unless the delimiter
   * has one.
   */
  lemma SlugifyChars(str: string, delimiter: Option<string>)
    ensures forall x :: x in Slugify(str, delimiter) ==>
      IsSlugChar(x) || x in JsString.Lower(DelimiterOrHyphen(delimiter))
  {
    var t := Trim(RemoveNonWord(ReplaceAccents(str)), None);
    var d := DelimiterOrHyphen(delimiter);
    SlugBody(str);
    ReplaceSpaceRunsChars(t, d);
    LowerSlug(ReplaceSpaceRuns(t, d), d);
  }

  lemma LowerSlug(u: string, d: string)
    requires forall x :: x in u ==> IsUnfoldedSlugChar(x) || x in d
    ensures forall x :: x in JsString.Lower(u) ==> IsSlugChar(x) || x in JsString.Lower(d)
  {
    var r, ld := JsString.Lower(u), JsString.Lower(d);
    forall x | x in r ensures IsSlugChar(x) || x in ld {
      var i :| 0 <= i < |r| && r[i] == x;
      var c := u[i];
      if c in d {
        var k :| 0 <= k < |d| && d[k] == c;
        assert ld[k] == x;
      }
    }
  }

  // ---------------------------------------------------------------------------
  // normalizeLineBreaks

  /** `lineEnd = lineEnd || "\n"`. */
  function LineEndOrNewline(lineEnd: string): string {
    if lineEnd == "" then "\n" else lineEnd
  }

  /**
   * `normalizeLineBreaks(str, lineEnd)` as written: three global replacements
   * in turn, of `\r\n`, then `\r`, then `\n`, each by `lineEnd`. Each pass
   * also rewrites the line ends the previous passes produced.
   */
  function NormalizeLineBreaks(str: string, lineEnd: string): string {
    var le := LineEndOrNewline(lineEnd);
    ReplaceChar(ReplaceChar(ReplaceAll(str, "\r\n", le), '\r', le), '\n', le)
  }

  /**
   * The intended conversion: one pass that turns each line break of the
   * input (`\r\n`, a lone `\r` or a lone `\n`) into one `lineEnd`.
   */
  function NormalizeLineBreaksOnce(str: string, lineEnd: string): string {
    LineBreaks(str, LineEndOrNewline(lineEnd))
  }

  function LineBreaks(s: string, le: string): string
    decreases |s|
  {
    if s == [] then []
    else if |s| >= 2 && s[0] == '\r' && s[1] == '\n' then le + LineBreaks(s[2..], le)
    else if s[0] == '\r' || s[0] == '\n' then le + LineBreaks(s[1..], le)
    else [s[0]] + LineBreaks(s[1..], le)
  }

  /** The last two passes of the written version, which it applies to everything the first produced. */
  function LaterPasses(s: string, le: string): string {
    ReplaceChar(ReplaceChar(s, '\r', le), '\n', le)
  }

  lemma LaterPassesConcat(a: string, b: string, le: string)
    ensures LaterPasses(a + b, le) == LaterPasses(a, le) + LaterPasses(b, le)
  {
    ReplaceCharConcat(a, b, '\r', le);
    ReplaceCharConcat(ReplaceChar(a, '\r', le), ReplaceChar(b, '\r', le), '\n', le);
  }

  /** A line end without `\r`, and either without `\n` or exactly "\n", survives the later passes. */
  lemma LaterPassesLineEnd(le: string)
    requires '\r' !in le && ('\n' !in le || le == "\n")
    ensures ReplaceChar(le, '\r', le) == le && ReplaceChar(le, '\n', le) == le
  {
    ReplaceCharAbsent(le, '\r', le);
    if le == "\n" {
      ReplaceCharSingle('\n', '\n', le);
    } else {
      ReplaceCharAbsent(le, '\n', le);
    }
  }

  lemma LaterPassesChar(c: char, le: string)
    ensures LaterPasses([c], le) ==
      if c == '\r' then ReplaceChar(le, '\n', le) else if c == '\n' then le else [c]
  {
    ReplaceCharSingle(c, '\r', le);
    if c != '\r' {
      ReplaceCharSingle(c, '\n', le);
    }
  }

  /**
   * When the line end has no `\r`, and no `\n` unless it is "\n" itself (the
   * default), the three passes do what the single pass does.
   */
  lemma {:induction false} NormalizeLineBreaksAgree(str: string, lineEnd: string)
    requires var le := LineEndOrNewline(lineEnd); '\r' !in le && ('\n' !in le || le == "\n")
    ensures NormalizeLineBreaks(str, lineEnd) == NormalizeLineBreaksOnce(str, lineEnd)
    decreases |str|
  {
    var le := LineEndOrNewline(lineEnd);
    if str != [] {
      LaterPassesLineEnd(le);
      if |str| >= 2 && str[0] == '\r' && str[1] == '\n' {
        assert str == "\r\n" + str[2..];
        ReplaceAllMatch("\r\n", str[2..], le);
        LaterPassesConcat(le, ReplaceAll(str[2..], "\r\n", le), le);
        assert LaterPasses(le, le) == le;
        NormalizeLineBreaksAgree(str[2..], lineEnd);
      } else {
        assert !JsString.IsPrefix("\r\n", str);
        LaterPassesConcat([str[0]], ReplaceAll(str[1..], "\r\n", le), le);
        LaterPassesChar(str[0], le);
        NormalizeLineBreaksAgree(str[1..], lineEnd);
      }
    }
  }

  /** With the Windows line end the written version doubles every line break: "\r\n" becomes "\r\r\n\r\n". */
  lemma NormalizeLineBreaksDosExample(str: string)
    requires str == "\r\n"
    ensures NormalizeLineBreaks(str, str) == "\r\r\n\r\n"
    ensures NormalizeLineBreaksOnce(str, str) == str
  {
    ReplaceAllMatch(str, "", str);
    assert str + "" == str;
    assert ReplaceAll("", str, str) == "";
    assert str == ['\r'] + ['\n'];
    LaterPassesConcat(['\r'], ['\n'], str);
    ReplaceCharSingle('\r', '\r', str);
    ReplaceCharSingle('\n', '\r', str);
    ReplaceCharConcat(['\r'], ['\n'], '\n', str);
    ReplaceCharSingle('\r', '\n', str);
    ReplaceCharSingle('\n', '\n', str);
    assert ReplaceChar(str, '\n', str) == "\r\r\n";
    ReplaceCharConcat(str, ['\n'], '\n', str);
    assert LineBreaks(str, str) == str + LineBreaks("", str);
  }

  /**
   * The single pass is idempotent for the Unix and Windows line ends:
   * normalised text is left as it is.
   */
  lemma {:induction false} NormalizeLineBreaksOnceIdempotent(str: string, le: string)
    requires le == "\n" || le == "\r\n"
    ensures NormalizeLineBreaksOnce(NormalizeLineBreaksOnce(str, le), le) == NormalizeLineBreaksOnce(str, le)
    decreases |str|
  {
    if str != [] {
      var rest := if |str| >= 2 && str[0] == '\r' && str[1] == '\n' then str[2..] else str[1..];
      NormalizeLineBreaksOnceIdempotent(rest, le);
      var t := LineBreaks(rest, le);
      if (|str| >= 2 && str[0] == '\r' && str[1] == '\n') || str[0] == '\r' || str[0] == '\n' {
        assert LineBreaks(str, le) == le + t;
        if le == "\n" {
          assert (le + t)[1..] == t;
        } else {
          assert (le + t)[2..] == t;
        }
      } else {
        assert LineBreaks(str, le) == [str[0]] + t;
        assert ([str[0]] + t)[1..] == t;
      }
    }
  }
}

=== FILE: surah_store.dfy ===
/**
 * src/stores/SurahStore.ts: the second chapter store. It differs from the
 * one in src/stores/ChapterStore.ts in four ways: the listed chapters are
 * also sorted; fetched verses are deduplicated by their verse key; the
 * selected chapter is not mirrored (nor emptied when the translations
 * change); and `getChapterName` looks in the filtered, sorted list rather
 * than in the whole catalogue. Async actions are split at their `await` as
 * in the chapter store.
 */
module Surahs {
  import opened Wrappers
  import opened Types
  import Numbers
  import JsString
  import Catalogue
  import VerseMerge
  import Chapters

  /** `isLoading` of this store: no `length`. */
  datatype Loading = Loading(chapters: bool, verses: bool, info: bool)

  /** The names of the fields of a chapter spread from the API record. */
  const ChapterFields: set<string> := {"id", "revelation_order", "verses_count", "bismillah_pre",
    "revelation_place", "name_simple", "name_complex", "name_arabic",
    "pages", "translated_name", "verses", "pagination"}

  /** `String(pages)`: the page numbers' decimal texts joined by ",". */
  function PagesText(pages: seq<int>): string {
    JsString.Join(seq(|pages|, i requires 0 <= i < |pages| => Numbers.IntToString(pages[i])), ",")
  }

  /**
   * `a[currentSort]` on a chapter spread from the API record, as `<` sees
   * it: numbers and booleans (0 and 1) as numbers, text fields as text,
   * arrays and objects by their string forms, and `undefined` for any other
   * name. `pagination` is `null` or an object, and `<` orders neither.
   */
  function Field(name: string): (key: Chapter -> Catalogue.SortValue)
    ensures forall c :: key(c).Num? ==> name in {"id", "revelation_order", "verses_count", "bismillah_pre"}
    ensures forall c :: key(c).Missing? <==>
      name !in ChapterFields || (name == "pagination" && c.pagination.None?)
    ensures forall c :: name == "pages" ==> key(c) == Catalogue.Text(PagesText(c.pages))
    ensures forall a, b :: name == "verses" ==>
      (Catalogue.ValueLess(key(a), key(b)) <==> |a.verses| < |b.verses|)
  {
    Catalogue.ObjectsTextLess();
    (c: Chapter) =>
      if name == "id" then Catalogue.Num(c.id)
      else if name == "revelation_order" then Catalogue.Num(c.revelationOrder)
      else if name == "verses_count" then Catalogue.Num(c.versesCount)
      else if name == "bismillah_pre" then Catalogue.Num(if c.bismillahPre then 1 else 0)
      else if name == "revelation_place" then Catalogue.Text(c.revelationPlace)
      else if name == "name_simple" then Catalogue.Text(c.nameSimple)
      else if name == "name_complex" then Catalogue.Text(c.nameComplex)
      else if name == "name_arabic" then Catalogue.Text(c.nameArabic)
      else if name == "pages" then Catalogue.Text(PagesText(c.pages))
      else if name == "translated_name" then Catalogue.Text(Catalogue.ObjectText)
      else if name == "verses" then Catalogue.Text(Catalogue.ObjectsText(|c.verses|))
      else if name == "pagination" && c.pagination.Some? then Catalogue.Text(Catalogue.ObjectText)
      else Catalogue.Missing
  }

  /** Sorted on "pages", `[1, 10]` comes before `[1, 2]`: the arrays compare as the texts "1,10" and "1,2". */
  lemma PagesInTextOrder(a: Chapter, b: Chapter)
    requires a.pages == [1, 10] && b.pages == [1, 2]
    ensures Catalogue.Compare(Field("pages")(a), Field("pages")(b), "asc") == -1
  {
    assert Numbers.IntToString(10) == "10" by {
      assert Numbers.NatToString(10) == Numbers.NatToString(1) + [Numbers.DigitChar(0)];
    }
    assert Numbers.IntToString(1) == "1" && Numbers.IntToString(2) == "2";
    var xs := seq(2, i requires 0 <= i < 2 => Numbers.IntToString(a.pages[i]));
    var ys := seq(2, i requires 0 <= i < 2 => Numbers.IntToString(b.pages[i]));
    assert xs == ["1", "10"] && xs[1..] == ["10"];
    assert ys == ["1", "2"] && ys[1..] == ["2"];
    assert JsString.Join(xs, ",") == "1" + "," + JsString.Join(["10"], ",") == "1,10";
    assert JsString.Join(ys, ",") == "1" + "," + JsString.Join(["2"], ",") == "1,2";
    assert PagesText(a.pages) == JsString.Join(xs, ",");
    assert PagesText(b.pages) == JsString.Join(ys, ",");
    assert Catalogue.StrLess("1,10", "1,2") by {
      var x, y := "1,10", "1,2";
      assert x[1..][1..] == "10" && y[1..][1..] == "2";
    }
  }

  /** Sorted on "verses", the listed chapters go by how many verses they hold: fewer first for "asc". */
  lemma ListSurahsByVersesHeld(list: seq<Chapter>, search: string, sortDir: string)
    ensures var r := ListSurahs(list, search, "verses", sortDir);
      forall i :: 0 < i < |r| ==>
        if sortDir == "desc" then |r[i - 1].verses| >= |r[i].verses| else |r[i - 1].verses| <= |r[i].verses|
  {
    var r := ListSurahs(list, search, "verses", sortDir);
    ListSurahsSpec(list, search, "verses", sortDir);
    forall i | 0 < i < |r|
      ensures if sortDir == "desc" then |r[i - 1].verses| >= |r[i].verses| else |r[i - 1].verses| <= |r[i].verses|
    {
      assert Catalogue.Compare(Field("verses")(r[i - 1]), Field("verses")(r[i]), sortDir) <= 0;
    }
  }

  /** `surahs`: the chapters whose simple or Arabic name matches, sorted on the current field. */
  function ListSurahs(list: seq<Chapter>, search: string, sortField: string, sortDir: string): (r: seq<Chapter>)
    ensures |r| <= |list|
  {
    Catalogue.Sort(Chapters.SearchChapters(list, search), Field(sortField), sortDir)
  }

  /**
   * The listed chapters are exactly the matching ones, each as often as in
   * the catalogue, and no chapter is followed by one the comparator puts
   * before it.
   */
  lemma ListSurahsSpec(list: seq<Chapter>, search: string, sortField: string, sortDir: string)
    ensures var r := ListSurahs(list, search, sortField, sortDir);
      && multiset(r) == multiset(Chapters.SearchChapters(list, search))
      && (forall c :: c in r <==> (c in list
            && (Catalogue.Matches(c.nameSimple, search) || Catalogue.Matches(c.nameArabic, search))))
      && Catalogue.Sorted(r, Field(sortField), sortDir)
  {
    var found := Chapters.SearchChapters(list, search);
    var r := ListSurahs(list, search, sortField, sortDir);
    Chapters.SearchChaptersSpec(list, search);
    Catalogue.SortSpec(found, Field(sortField), sortDir);
    forall c ensures c in r <==> c in found {
      assert c in r <==> c in multiset(r);
      assert c in found <==> c in multiset(found);
    }
  }

  /** Sorted on "id", the listed chapters are in ascending id order for "asc" and descending for "desc". */
  lemma ListSurahsById(list: seq<Chapter>, search: string, sortDir: string)
    ensures var r := ListSurahs(list, search, "id", sortDir);
      forall i, j :: 0 <= i < j < |r| ==>
        if sortDir == "desc" then r[i].id >= r[j].id else r[i].id <= r[j].id
  {
    var found := Chapters.SearchChapters(list, search);
    var r := ListSurahs(list, search, "id", sortDir);
    var key := Field("id");
    Catalogue.SortNumeric(found, key, sortDir);
    assert r == Catalogue.Sort(found, key, sortDir);
    forall i, j | 0 <= i < j < |r|
      ensures if sortDir == "desc" then r[i].id >= r[j].id else r[i].id <= r[j].id
    {
      assert Catalogue.NumOf(key(r[i])) == r[i].id && Catalogue.NumOf(key(r[j])) == r[j].id;
    }
  }

  /** The catalogue after the response to `getVerses(id)`: the chapter with the id merges by verse key. */
  function VersesReceived(list: seq<Chapter>, id: int, response: Response<seq<Verse>>): seq<Chapter> {
    var ci := Chapters.FindChapter(list, Numbers.Int(id));
    if response.NetworkError? || ci.None? then list
    else list[ci.value := list[ci.value].(verses := VerseMerge.MergeByKey(list[ci.value].verses, response.body))]
  }

  /** The catalogue after the response to `getVerseByKey(id, key)`. */
  function VerseByKeyReceived(list: seq<Chapter>, id: int, key: string, response: Response<Verse>): seq<Chapter> {
    var ci := Chapters.FindChapter(list, Numbers.Int(id));
    if response.NetworkError? || ci.None? then list
    else list[ci.value := list[ci.value].(verses := VerseMerge.AddUnlessKeyHeld(list[ci.value].verses, key, response.body))]
  }

  /**
   * The response to `getVerses(id)` changes at most the chapter with the id,
   * keeps its verse keys unique, and a second identical response changes
   * nothing more.
   */
  lemma VersesReceivedSpec(list: seq<Chapter>, id: int, fetched: seq<Verse>)
    ensures var l := VersesReceived(list, id, Success(fetched));
      && |l| == |list|
      && (forall j :: 0 <= j < |list| && Numbers.Int(list[j].id) != Numbers.Int(id) ==> l[j] == list[j])
      && (forall j :: 0 <= j < |list| && VerseMerge.UniqueKeys(list[j].verses) ==> VerseMerge.UniqueKeys(l[j].verses))
      && VersesReceived(l, id, Success(fetched)) == l
  {
    var ci := Chapters.FindChapter(list, Numbers.Int(id));
    var l := VersesReceived(list, id, Success(fetched));
    if ci.Some? {
      var c := list[ci.value];
      VerseMerge.MergeByKeySpec(c.verses, fetched);
      VerseMerge.MergeByKeyIdempotent(c.verses, fetched);
      assert Chapters.FindChapter(l, Numbers.Int(id)) == ci by {
        forall j | 0 <= j < ci.value ensures Numbers.Int(l[j].id) != Numbers.Int(id) {
          assert l[j] == list[j];
        }
      }
      assert l[ci.value].(verses := VerseMerge.MergeByKey(l[ci.value].verses, fetched)) == l[ci.value];
    }
  }

  /** Greatest and least verse keys in string order, the order of `Array.prototype.sort`. */
  lemma StrLessAsymmetric()
    ensures forall a, b :: !(Catalogue.StrLess(a, b) && Catalogue.StrLess(b, a))
  {
    forall a, b ensures !(Catalogue.StrLess(a, b) && Catalogue.StrLess(b, a)) {
      Catalogue.StrLessTotal(a, b);
    }
  }

  lemma ExtremeKeysExist(keys: set<string>)
    requires keys != {}
    ensures exists k :: k in keys && forall j :: j in keys ==> k == j || Catalogue.StrLess(k, j)
    ensures exists k :: k in keys && forall j :: j in keys ==> k == j || Catalogue.StrLess(j, k)
  {
    var a := Catalogue.LeastString(keys);
    var b := Catalogue.GreatestString(keys);
  }

  /** The first key of `Object.keys(verses).sort()`. */
  function FirstKey(keys: set<string>): (k: string)
    requires keys != {}
    ensures k in keys && forall j :: j in keys ==> k == j || Catalogue.StrLess(k, j)
  {
    ExtremeKeysExist(keys);
    StrLessAsymmetric();
    var k :| k in keys && forall j :: j in keys ==> k == j || Catalogue.StrLess(k, j);
    k
  }

  /** The last key of `Object.keys(verses).sort()`. */
  function LastKey(keys: set<string>): (k: string)
    requires keys != {}
    ensures k in keys && forall j :: j in keys ==> k == j || Catalogue.StrLess(j, k)
  {
    ExtremeKeysExist(keys);
    StrLessAsymmetric();
    var k :| k in keys && forall j :: j in keys ==> k == j || Catalogue.StrLess(j, k);
    k
  }

  /**
   * `getFirstAndLastVerseKeys(verses)`: the first and last key in string
   * order; both `undefined` for an empty record.
   */
  function GetFirstAndLastVerseKeys(keys: set<string>): (r: (Option<string>, Option<string>))
    ensures r.0.None? <==> keys == {}
    ensures r.1.None? <==> keys == {}
    ensures r.0.Some? ==> r.0.value in keys && forall j :: j in keys ==> r.0.value == j || Catalogue.StrLess(r.0.value, j)
    ensures r.1.Some? ==> r.1.value in keys && forall j :: j in keys ==> r.1.value == j || Catalogue.StrLess(j, r.1.value)
  {
    if keys == {} then (None, None) else (Some(FirstKey(keys)), Some(LastKey(keys)))
  }

  /** String order puts "1:10" before "1:2", and "1:9" after both. */
  lemma FirstAndLastStringOrder(keys: set<string>)
    requires keys == {"1:2", "1:9", "1:10"}
    ensures GetFirstAndLastVerseKeys(keys) == (Some("1:10"), Some("1:9"))
  {
    var r := GetFirstAndLastVerseKeys(keys);
    assert Catalogue.StrLess("1:10", "1:2") && Catalogue.StrLess("1:10", "1:9");
    assert Catalogue.StrLess("1:2", "1:9") && Catalogue.StrLess("1:10", "1:9");
    StrLessAsymmetric();
  }

  /** A verse position in reading order: chapter first, then verse. */
  predicate PositionLess(a: (nat, nat), b: (nat, nat)) {
    a.0 < b.0 || (a.0 == b.0 && a.1 < b.1)
  }

  /** The earliest position of a non-empty set of (chapter, verse) positions. */
  lemma {:induction false} EarliestPosition(ps: set<(nat, nat)>) returns (p: (nat, nat))
    requires ps != {}
    ensures p in ps && forall q :: q in ps ==> p == q || PositionLess(p, q)
  {
    var x :| x in ps;
    var others := ps - {x};
    p := x;
    if others != {} {
      var m := EarliestPosition(others);
      if PositionLess(m, x) {
        p := m;
      }
    }
    forall q | q in ps ensures p == q || PositionLess(p, q) {
      if q != x { assert q in others; }
    }
  }

  /** The latest position of a non-empty set of (chapter, verse) positions. */
  lemma {:induction false} LatestPosition(ps: set<(nat, nat)>) returns (p: (nat, nat))
    requires ps != {}
    ensures p in ps && forall q :: q in ps ==> p == q || PositionLess(q, p)
  {
    var x :| x in ps;
    var others := ps - {x};
    p := x;
    if others != {} {
      var m := LatestPosition(others);
      if PositionLess(x, m) {
        p := m;
      }
    }
    forall q | q in ps ensures p == q || PositionLess(q, p) {
      if q != x { assert q in others; }
    }
  }

  lemma ExtremePositionsExist(ps: set<(nat, nat)>)
    requires ps != {}
    ensures exists p :: p in ps && forall q :: q in ps ==> p == q || PositionLess(p, q)
    ensures exists p :: p in ps && forall q :: q in ps ==> p == q || PositionLess(q, p)
  {
    var a := EarliestPosition(ps);
    var b := LatestPosition(ps);
  }

  /**
   * The first and last verse in reading order, as the helper's name and
   * documentation promise: the verse keys are taken as (chapter, verse)
   * positions and compared numerically.
   */
  function FirstAndLastVersePositions(ps: set<(nat, nat)>): (r: Option<((nat, nat), (nat, nat))>)
    ensures r.None? <==> ps == {}
    ensures r.Some? ==> (r.value.0 in ps && r.value.1 in ps
      && (forall q :: q in ps ==> r.value.0 == q || PositionLess(r.value.0, q))
      && (forall q :: q in ps ==> r.value.1 == q || PositionLess(q, r.value.1)))
  {
    if ps == {} then None
    else
      ExtremePositionsExist(ps);
      var first :| first in ps && forall q :: q in ps ==> first == q || PositionLess(first, q);
      var last :| last in ps && forall q :: q in ps ==> last == q || PositionLess(q, last);
      Some((first, last))
  }

  /** For verses 1:2, 1:9 and 1:10 the reading-order answer is 1:2 and 1:10. */
  lemma FirstAndLastReadingOrder(ps: set<(nat, nat)>)
    requires ps == {(1, 2), (1, 9), (1, 10)}
    ensures FirstAndLastVersePositions(ps) == Some(((1, 2), (1, 10)))
  {
  }

  class SurahStore {
    var isLoading: Loading
    var surahList: seq<Chapter>
    var currentSortDir: string
    var currentSort: string
    var searchValue: string
    var selectedSurah: Option<Chapter>
    const perPage: int

    /** The initial state of the store. */
    constructor()
      ensures isLoading == Loading(false, false, false)
      ensures surahList == [] && selectedSurah == None
      ensures currentSortDir == "asc" && currentSort == "id" && searchValue == ""
      ensures perPage == 10
    {
      isLoading := Loading(false, false, false);
      surahList := [];
      currentSortDir := "asc";
      currentSort := "id";
      searchValue := "";
      selectedSurah := None;
      perPage := 10;
    }

    /** `surahs`. */
    function Surahs(): seq<Chapter>
      reads this
    {
      ListSurahs(surahList, searchValue, currentSort, currentSortDir)
    }

    /** `getChapterName(id)`: looked up among the listed chapters only. */
    function GetChapterName(id: Chapters.NumberOrString): Option<Chapters.ChapterName>
      reads this
    {
      Chapters.ChapterNameIn(Surahs(), id)
    }

    /** `versesKeyMap`: the keys of the selected chapter's verses. */
    function VersesKeyMap(): (r: Option<seq<string>>)
      reads this
      ensures r.None? <==> selectedSurah.None?
      ensures r.Some? ==> (|r.value| == |selectedSurah.value.verses|
        && forall i :: 0 <= i < |r.value| ==> r.value[i] == selectedSurah.value.verses[i].verseKey)
    {
      if selectedSurah.None? then None
      else
        var vs := selectedSurah.value.verses;
        Some(seq(|vs|, i requires 0 <= i < |vs| => vs[i].verseKey))
    }

    /** `getChapters`, up to the request. */
    method GetChapters()
      modifies this
      ensures isLoading == old(isLoading).(chapters := true)
      ensures surahList == old(surahList) && selectedSurah == old(selectedSurah)
      ensures currentSort == old(currentSort) && currentSortDir == old(currentSortDir) && searchValue == old(searchValue)
    {
      isLoading := isLoading.(chapters := true);
    }

    /** The rest of `getChapters`: every fetched chapter appended without verses; errors rethrown. */
    method ReceiveChapters(response: Response<seq<ChapterSchema>>) returns (outcome: Outcome)
      modifies this
      ensures outcome == (if response.Success? then Resolved else Rejected)
      ensures surahList == (if response.Success? then Chapters.AddChapters(old(surahList), response.body) else old(surahList))
      ensures isLoading == old(isLoading).(chapters := false)
      ensures selectedSurah == old(selectedSurah)
      ensures currentSort == old(currentSort) && currentSortDir == old(currentSortDir) && searchValue == old(searchValue)
    {
      if response.NetworkError? {
        isLoading := isLoading.(chapters := false);
        return Rejected;
      }
      var fetched := response.body;
      ghost var list0 := surahList;
      var i := 0;
      while i < |fetched|
        invariant 0 <= i <= |fetched|
        invariant surahList == Chapters.AddChapters(list0, fetched[..i])
        invariant selectedSurah == old(selectedSurah) && isLoading == old(isLoading)
        invariant currentSort == old(currentSort) && currentSortDir == old(currentSortDir) && searchValue == old(searchValue)
      {
        surahList := surahList + [ChapterOf(fetched[i])];
        i := i + 1;
      }
      assert fetched[..i] == fetched;
      isLoading := isLoading.(chapters := false);
      outcome := Resolved;
    }

    /** The mount hook: the chapters are fetched only when the list is empty. */
    method OnMounted() returns (fetch: bool)
      modifies this
      ensures fetch <==> old(surahList) == []
      ensures isLoading == (if fetch then old(isLoading).(chapters := true) else old(isLoading))
      ensures surahList == old(surahList) && selectedSurah == old(selectedSurah)
      ensures currentSort == old(currentSort) && currentSortDir == old(currentSortDir) && searchValue == old(searchValue)
    {
      fetch := |surahList| == 0;
      if fetch {
        GetChapters();
      }
    }

    /**
     * `getVerses(id, loading, page, limit)`, up to the request: there is no
     * guard on the id; page and limit default as in the chapter store.
     */
    method GetVerses(id: int, loading: bool, page: Option<int>, limit: Option<int>, translations: string)
      returns (request: Chapters.VersesRequest)
      modifies this
      ensures request == Chapters.VersesRequest(id, translations, OrDefault(page, 1), OrDefault(limit, perPage))
      ensures isLoading == old(isLoading).(verses := loading)
      ensures surahList == old(surahList) && selectedSurah == old(selectedSurah)
      ensures currentSort == old(currentSort) && currentSortDir == old(currentSortDir) && searchValue == old(searchValue)
    {
      isLoading := isLoading.(verses := loading);
      var p := OrDefault(page, 1);
      var l := OrDefault(limit, perPage);
      request := Chapters.VersesRequest(id, translations, p, l);
    }

    /**
     * The rest of `getVerses`: the fetched verses are pushed one by one into
     * the chapter with the id unless a verse with the same key is held;
     * errors are logged; the flag is cleared.
     */
    method ReceiveVerses(id: int, response: Response<seq<Verse>>)
      modifies this
      ensures surahList == VersesReceived(old(surahList), id, response)
      ensures isLoading == old(isLoading).(verses := false)
      ensures selectedSurah == old(selectedSurah)
      ensures currentSort == old(currentSort) && currentSortDir == old(currentSortDir) && searchValue == old(searchValue)
    {
      var ci := Chapters.FindChapter(surahList, Numbers.Int(id));
      if response.Success? && ci.Some? {
        var fetched := response.body;
        var chapter := surahList[ci.value];
        var verses := chapter.verses;
        var i := 0;
        while i < |fetched|
          invariant 0 <= i <= |fetched|
          invariant VerseMerge.MergeByKey(verses, fetched[i..]) == VerseMerge.MergeByKey(chapter.verses, fetched)
          invariant unchanged(this)
        {
          assert fetched[i..][1..] == fetched[i + 1..];
          if !VerseMerge.HasKey(verses, fetched[i].verseKey) {
            verses := verses + [VerseMerge.Unbookmarked(fetched[i])];
          }
          i := i + 1;
        }
        assert fetched[i..] == [];
        surahList := surahList[ci.value := chapter.(verses := verses)];
      }
      isLoading := isLoading.(verses := false);
    }

    /** `getVerseByKey(id, verseKey)`, up to the request: nothing happens for an empty key. */
    method GetVerseByKey(id: int, verseKey: string) returns (request: Option<string>)
      modifies this
      ensures verseKey == "" ==> request == None && isLoading == old(isLoading)
      ensures verseKey != "" ==> request == Some(verseKey) && isLoading == old(isLoading).(verses := true)
      ensures surahList == old(surahList) && selectedSurah == old(selectedSurah)
      ensures currentSort == old(currentSort) && currentSortDir == old(currentSortDir) && searchValue == old(searchValue)
    {
      if verseKey == "" {
        return None;
      }
      isLoading := isLoading.(verses := true);
      request := Some(verseKey);
    }

    /** The rest of `getVerseByKey`: add unless the requested key is held; the flag is cleared. */
    method ReceiveVerseByKey(id: int, verseKey: string, response: Response<Verse>)
      modifies this
      ensures surahList == VerseByKeyReceived(old(surahList), id, verseKey, response)
      ensures isLoading == old(isLoading).(verses := false)
      ensures selectedSurah == old(selectedSurah)
      ensures currentSort == old(currentSort) && currentSortDir == old(currentSortDir) && searchValue == old(searchValue)
    {
      var ci := Chapters.FindChapter(surahList, Numbers.Int(id));
      if response.Success? && ci.Some? {
        var chapter := surahList[ci.value];
        if !VerseMerge.HasKey(chapter.verses, verseKey) {
          surahList := surahList[ci.value := chapter.(verses := chapter.verses + [VerseMerge.Unbookmarked(response.body)])];
        } else {
          assert chapter.(verses := chapter.verses) == chapter;
          assert surahList[ci.value := chapter] == surahList;
        }
      }
      isLoading := isLoading.(verses := false);
    }

    /** `sort(s)`. */
    method Sort(s: string)
      modifies this
      ensures Catalogue.SortState(currentSort, currentSortDir)
           == Catalogue.NextSort(Catalogue.SortState(old(currentSort), old(currentSortDir)), s)
      ensures surahList == old(surahList) && selectedSurah == old(selectedSurah)
      ensures isLoading == old(isLoading) && searchValue == old(searchValue)
    {
      if s == currentSort {
        currentSortDir := if currentSortDir == "asc" then "desc" else "asc";
      }
      currentSort := s;
    }

    /**
     * The watcher on the selected translation ids: page 1 of the selected
     * chapter is requested again, its verses left in place.
     */
    method OnTranslationsChange(resources: string) returns (request: Option<Chapters.VersesRequest>)
      modifies this
      ensures (resources == "" || old(selectedSurah).None?) ==> request == None && isLoading == old(isLoading)
      ensures resources != "" && old(selectedSurah).Some? ==>
        request == Some(Chapters.VersesRequest(old(selectedSurah).value.id, resources, 1, perPage))
        && isLoading == old(isLoading).(verses := true)
      ensures surahList == old(surahList) && selectedSurah == old(selectedSurah)
      ensures currentSort == old(currentSort) && currentSortDir == old(currentSortDir) && searchValue == old(searchValue)
    {
      request := None;
      if resources != "" && selectedSurah.Some? {
        var r := GetVerses(selectedSurah.value.id, true, Some(1), None, resources);
        request := Some(r);
      }
    }
  }

  /**
   * `getChapterName` finds a chapter only when one of its names matches the
   * current search: with a search that matches neither name of any chapter
   * with the id, the name is `undefined` even though the chapter is held.
   */
  lemma ChapterNameHiddenBySearch(list: seq<Chapter>, search: string, sortField: string, sortDir: string, n: nat)
    requires forall c :: c in list && c.id == n ==>
      !Catalogue.Matches(c.nameSimple, search) && !Catalogue.Matches(c.nameArabic, search)
    ensures Chapters.ChapterNameIn(ListSurahs(list, search, sortField, sortDir), Chapters.Number(n)) == None
  {
    var r := ListSurahs(list, search, sortField, sortDir);
    ListSurahsSpec(list, search, sortField, sortDir);
    forall i | 0 <= i < |r| ensures Numbers.Int(r[i].id) != Numbers.Int(n) {
      assert r[i] in r;
    }
  }
}

=== FILE: tafsir_store.dfy ===
/**
 * src/stores/TafsirStore.ts: the tafsirs on offer, the tafsir text of the
 * selected verse, and the language list the reader picks from. Language
 * names are upper-cased in ASCII only.
 */
module Tafsirs {
  import opened Wrappers
  import opened Types
  import JsString
  import Grouping

  /** The request `getTafsir` sends: the tafsir slug and the verse key. */
  datatype TafsirRequest = TafsirRequest(slug: string, verseKey: string)

  const DefaultSlug: string := "en-tafisr-ibn-kathir"
  const DefaultVerseKey: string := "1:1"
  const DefaultLanguage: string := "English"

  /** `s.charAt(0).toUpperCase() + s.slice(1)`. */
  function Capitalize(s: string): (r: string)
    ensures |r| == |s|
    ensures s != [] ==> r[0] == JsString.UpperChar(s[0]) && r[1..] == s[1..]
  {
    if s == [] then s else [JsString.UpperChar(s[0])] + s[1..]
  }

  /** The language names of the tafsirs, capitalised, one per tafsir. */
  function CapitalizedLanguages(tafsirs: seq<Tafsir>): (r: seq<string>)
    ensures |r| == |tafsirs| && forall i :: 0 <= i < |r| ==> r[i] == Capitalize(tafsirs[i].languageName)
  {
    seq(|tafsirs|, i requires 0 <= i < |tafsirs| => Capitalize(tafsirs[i].languageName))
  }

  /** `selection`: the distinct capitalised language names. */
  function Selection(tafsirs: seq<Tafsir>): seq<string> {
    Grouping.Distinct(CapitalizedLanguages(tafsirs))
  }

  /**
   * The selection lists each capitalised language name of some tafsir exactly
   * once, in the order of first appearance.
   */
  lemma SelectionSpec(tafsirs: seq<Tafsir>)
    ensures var s := Selection(tafsirs);
      && Grouping.NoDuplicates(s)
      && (forall l :: l in s <==> exists i :: 0 <= i < |tafsirs| && Capitalize(tafsirs[i].languageName) == l)
      && s == Grouping.FirstOccurrences(CapitalizedLanguages(tafsirs))
  {
    var names := CapitalizedLanguages(tafsirs);
    Grouping.DistinctSpec(names);
    forall l ensures l in names <==> exists i :: 0 <= i < |tafsirs| && Capitalize(tafsirs[i].languageName) == l {
      if l in names {
        var i :| 0 <= i < |names| && names[i] == l;
        assert Capitalize(tafsirs[i].languageName) == l;
      }
    }
  }

  /** Names that differ only in the case of their first letter are listed once. */
  lemma SelectionCollapsesCase(a: Tafsir, b: Tafsir)
    requires a.languageName == "english" && b.languageName == "English"
    ensures Selection([a, b]) == ["English"]
  {
    var names := CapitalizedLanguages([a, b]);
    assert names[0] == "English" && names[1] == "English";
    assert names == ["English", "English"];
    var empty: seq<string> := [];
    assert empty + [names[0]] == ["English"];
    assert Grouping.DistinctFrom(names, []) == Grouping.DistinctFrom(names[1..], ["English"]);
    assert names[1..][0] in ["English"] && names[1..][1..] == [];
  }

  /** `tafsirRTLMap`: the first two characters of the loaded tafsir's slug; `undefined` when none is loaded. */
  function RtlMap(tafsir: Option<SingleTafsir>): (r: Option<string>)
    ensures r.None? <==> tafsir.None?
    ensures r.Some? ==>
      (JsString.IsPrefix(r.value, tafsir.value.slug)
       && |r.value| == (if |tafsir.value.slug| < 2 then |tafsir.value.slug| else 2))
  {
    if tafsir.None? then None
    else
      var slug := tafsir.value.slug;
      Some(if |slug| < 2 then slug else slug[..2])
  }

  /** The slug of the default tafsir gives "en". */
  lemma RtlMapOfDefault(t: SingleTafsir)
    requires t.slug == DefaultSlug
    ensures RtlMap(Some(t)) == Some("en")
  {
    assert DefaultSlug[..2] == "en";
  }

  /** The watch effect's condition: a tafsir is fetched only when both slug and verse key are non-empty. */
  predicate ShouldFetch(slug: string, verseKey: string) {
    slug != "" && verseKey != ""
  }

  class TafsirStore {
    var tafsirsAuthors: seq<Tafsir>
    var selectedLanguage: string
    var isLoading: bool
    var tafsir: Option<SingleTafsir>
    var tafsirSlug: string
    var selectedVerseKey: string
    var fontSize: int

    /** The initial state: Ibn Kathir's tafsir in English, for verse 1:1, nothing loaded. */
    constructor()
      ensures tafsirsAuthors == [] && selectedLanguage == DefaultLanguage && !isLoading && tafsir == None
      ensures tafsirSlug == DefaultSlug && selectedVerseKey == DefaultVerseKey && fontSize == 1
      ensures ShouldFetch(tafsirSlug, selectedVerseKey)
    {
      tafsirsAuthors := [];
      selectedLanguage := DefaultLanguage;
      isLoading := false;
      tafsir := None;
      tafsirSlug := DefaultSlug;
      selectedVerseKey := DefaultVerseKey;
      fontSize := 1;
    }

    /** `selection`. */
    function Languages(): seq<string>
      reads this
    {
      Selection(tafsirsAuthors)
    }

    /** `tafsirRTLMap`. */
    function TafsirRtlMap(): Option<string>
      reads this
    {
      RtlMap(tafsir)
    }

    /** `getTafsirs` up to the request: loading starts. */
    method GetTafsirs()
      modifies this
      ensures isLoading
      ensures tafsirsAuthors == old(tafsirsAuthors) && tafsir == old(tafsir)
      ensures tafsirSlug == old(tafsirSlug) && selectedVerseKey == old(selectedVerseKey)
    {
      isLoading := true;
    }

    /** The rest of `getTafsirs`: the list is replaced; a failure is rethrown. Loading ends either way. */
    method ReceiveTafsirs(response: Response<seq<Tafsir>>) returns (outcome: Outcome)
      modifies this
      ensures response.Success? ==> outcome == Resolved && tafsirsAuthors == response.body
      ensures response.NetworkError? ==> outcome == Rejected && tafsirsAuthors == old(tafsirsAuthors)
      ensures !isLoading && tafsir == old(tafsir)
      ensures tafsirSlug == old(tafsirSlug) && selectedVerseKey == old(selectedVerseKey)
    {
      if response.Success? {
        tafsirsAuthors := response.body;
        outcome := Resolved;
      } else {
        outcome := Rejected;
      }
      isLoading := false;
    }

    /** `getTafsir(slug, verseKey)` up to the request: loading starts. */
    method GetTafsir(slug: string, verseKey: string) returns (request: TafsirRequest)
      modifies this
      ensures request == TafsirRequest(slug, verseKey) && isLoading
      ensures tafsirsAuthors == old(tafsirsAuthors) && tafsir == old(tafsir)
      ensures tafsirSlug == old(tafsirSlug) && selectedVerseKey == old(selectedVerseKey)
    {
      isLoading := true;
      request := TafsirRequest(slug, verseKey);
    }

    /** The rest of `getTafsir`: the loaded tafsir is replaced; a failure is rethrown. Loading ends either way. */
    method ReceiveTafsir(response: Response<SingleTafsir>) returns (outcome: Outcome)
      modifies this
      ensures response.Success? ==> outcome == Resolved && tafsir == Some(response.body)
      ensures response.NetworkError? ==> outcome == Rejected && tafsir == old(tafsir)
      ensures !isLoading && tafsirsAuthors == old(tafsirsAuthors)
      ensures tafsirSlug == old(tafsirSlug) && selectedVerseKey == old(selectedVerseKey)
    {
      if response.Success? {
        tafsir := Some(response.body);
        outcome := Resolved;
      } else {
        outcome := Rejected;
      }
      isLoading := false;
    }

    /** The mount hook: the tafsir list is fetched only while it is empty. */
    method OnMounted() returns (fetch: bool)
      modifies this
      ensures fetch <==> old(tafsirsAuthors) == []
      ensures isLoading == (fetch || old(isLoading))
      ensures tafsirsAuthors == old(tafsirsAuthors) && tafsir == old(tafsir)
      ensures tafsirSlug == old(tafsirSlug) && selectedVerseKey == old(selectedVerseKey)
    {
      fetch := tafsirsAuthors == [];
      if fetch {
        GetTafsirs();
      }
    }

    /**
     * The watch effect: with a slug and a verse key, both non-empty, the
     * tafsir of that verse is requested; otherwise nothing happens.
     */
    method WatchEffect() returns (request: Option<TafsirRequest>)
      modifies this
      ensures request.Some? <==> ShouldFetch(tafsirSlug, selectedVerseKey)
      ensures request.Some? ==> request.value == TafsirRequest(tafsirSlug, selectedVerseKey) && isLoading
      ensures request.None? ==> isLoading == old(isLoading)
      ensures tafsirsAuthors == old(tafsirsAuthors) && tafsir == old(tafsir)
      ensures tafsirSlug == old(tafsirSlug) && selectedVerseKey == old(selectedVerseKey)
    {
      if tafsirSlug != "" && selectedVerseKey != "" {
        var r := GetTafsir(tafsirSlug, selectedVerseKey);
        request := Some(r);
      } else {
        request := None;
      }
    }
  }
}

=== FILE: translations_store.dfy ===
/**
 * src/stores/TranslationsStore.ts: the translations on offer, the ids the
 * reader selected, and the selected translations rebuilt from those ids.
 * The translation list comes from a bundled JSON file; its contents are the
 * parameter of `ReceiveTranslations`, which a failed load never reaches.
 */
module Translations {
  import opened Wrappers
  import opened Types
  import Numbers
  import JsString
  import Grouping

  /** The translation selected by default. */
  const DefaultTranslationId: nat := 131

  /** The ids as `String(id)` writes them. */
  function Numerals(ids: seq<nat>): (r: seq<string>)
    ensures |r| == |ids| && forall i :: 0 <= i < |ids| ==> r[i] == Numbers.NatToString(ids[i])
  {
    seq(|ids|, i requires 0 <= i < |ids| => Numbers.NatToString(ids[i]))
  }

  /** `selectedTranslationsIdsString`: the ids joined by ",". */
  function IdsString(ids: seq<nat>): string {
    JsString.Join(Numerals(ids), ",")
  }

  /**
   * No ids give "", the default selection gives "131", and otherwise the
   * string splits at "," into one decimal numeral per id, in order, each of
   * which reads back as its id.
   */
  lemma IdsStringSpec(ids: seq<nat>)
    ensures IdsString([]) == ""
    ensures IdsString([DefaultTranslationId]) == "131"
    ensures |ids| >= 1 ==> var pieces := JsString.Split(IdsString(ids), ',');
      && |pieces| == |ids|
      && forall i :: 0 <= i < |ids| ==>
           (pieces[i] == Numbers.NatToString(ids[i]) && Numbers.ToNumber(pieces[i]) == Numbers.Int(ids[i]))
  {
    if |ids| >= 1 {
      var ns := Numerals(ids);
      forall k | 0 <= k < |ns| ensures ',' !in ns[k] {
        forall j | 0 <= j < |ns[k]| ensures ns[k][j] != ',' {
          assert Numbers.IsDigit(ns[k][j]);
        }
      }
      JsString.SplitJoin(ns, ',');
      forall i | 0 <= i < |ids| ensures Numbers.ToNumber(ns[i]) == Numbers.Int(ids[i]) {
        Numbers.NatToStringValue(ids[i]);
      }
    }
  }

  /** `translations`: the translation list grouped by language name. */
  function GroupByLanguage(list: seq<Translation>): map<string, seq<Translation>> {
    Grouping.GroupBy(list, (t: Translation) => t.languageName)
  }

  /**
   * There is a group for every language name in the list and no other; each
   * translation is in the group of its language, which keeps list order.
   */
  lemma GroupByLanguageSpec(list: seq<Translation>)
    ensures var g := GroupByLanguage(list);
      && (forall l :: l in g <==> exists i :: 0 <= i < |list| && list[i].languageName == l)
      && (forall l :: l in g ==> g[l] == Grouping.WithKey(list, (t: Translation) => t.languageName, l))
      && (forall l, t :: l in g ==> (t in g[l] <==> t in list && t.languageName == l))
  {
    var key := (t: Translation) => t.languageName;
    Grouping.GroupBySpec(list, key);
    forall l | l in GroupByLanguage(list) {
      Grouping.WithKeyMembers(list, key, l);
    }
  }

  /** `selectedTranslationsAuthors`. */
  function Authors(selected: seq<Translation>): (r: seq<string>)
    ensures |r| == |selected| && forall i :: 0 <= i < |r| ==> r[i] == selected[i].authorName
  {
    seq(|selected|, i requires 0 <= i < |selected| => selected[i].authorName)
  }

  /**
   * `groupedTranslationsAuthors`: "<first> and <n - 1> others" for more
   * than one author, the author alone for one, `undefined` (`None`) for none.
   */
  function GroupedAuthors(authors: seq<string>): (r: Option<string>)
    ensures r.None? <==> authors == []
    ensures |authors| == 1 ==> r == Some(authors[0])
  {
    if |authors| > 1 then Some(authors[0] + " and " + Numbers.NatToString(|authors| - 1) + " others")
    else if |authors| == 1 then Some(authors[0])
    else None
  }

  /**
   * For several authors the text names the first author, then " and ", then
   * the number of the other authors, which reads back, then " others".
   */
  lemma GroupedAuthorsSpec(authors: seq<string>)
    requires |authors| > 1
    ensures var t := GroupedAuthors(authors).value;
      var n := |authors[0]| + 5;
      && |t| > n && t[..n] == authors[0] + " and "
      && Numbers.ParseInt(t[n..]) == Numbers.Int(|authors| - 1)
      && t[|t| - 7..] == " others"
  {
    var t := GroupedAuthors(authors).value;
    var n := |authors[0]| + 5;
    var count := Numbers.NatToString(|authors| - 1);
    assert t == (authors[0] + " and ") + (count + " others");
    assert t[n..] == count + " others";
    Numbers.ParseIntNatToString(|authors| - 1, " others");
  }

  /** `translationsList.find((tr) => tr.id === id)`: the first list entry with the id. */
  function FindById(list: seq<Translation>, id: int): (r: Option<Translation>)
    ensures r.Some? ==> exists i :: (0 <= i < |list| && list[i] == r.value && r.value.id == id
      && forall j :: 0 <= j < i ==> list[j].id != id)
    ensures r.None? <==> forall i :: 0 <= i < |list| ==> list[i].id != id
  {
    var i := Grouping.FindIndex(list, (t: Translation) => t.id == id);
    if i.None? then None else Some(list[i.value])
  }

  function Found(list: seq<Translation>, id: int): seq<Translation> {
    var t := FindById(list, id);
    if t.Some? then [t.value] else []
  }

  /** What the ids watcher builds: for each id in order, the first list entry with that id, if any. */
  function Rebuilt(list: seq<Translation>, ids: seq<nat>): seq<Translation> {
    if ids == [] then [] else Rebuilt(list, ids[..|ids| - 1]) + Found(list, ids[|ids| - 1])
  }

  /** The rebuilt selection holds only list entries whose id was selected, at most one per id. */
  lemma {:induction false} RebuiltMembers(list: seq<Translation>, ids: seq<nat>)
    ensures |Rebuilt(list, ids)| <= |ids|
    ensures forall k :: 0 <= k < |Rebuilt(list, ids)| ==>
      Rebuilt(list, ids)[k] in list && Rebuilt(list, ids)[k].id in ids
  {
    if ids != [] {
      var p := ids[..|ids| - 1];
      RebuiltMembers(list, p);
      var r, q := Rebuilt(list, ids), Rebuilt(list, p);
      assert r == q + Found(list, ids[|ids| - 1]);
      forall k | 0 <= k < |r| ensures r[k] in list && r[k].id in ids {
        if k < |q| {
          assert r[k] == q[k];
          assert r[k].id in p;
        }
      }
    }
  }

  /** When every selected id is in the list, the selection holds, position by position, the first entry with each id. */
  lemma {:induction false} RebuiltAllFound(list: seq<Translation>, ids: seq<nat>)
    requires forall i :: 0 <= i < |ids| ==> FindById(list, ids[i]).Some?
    ensures |Rebuilt(list, ids)| == |ids|
    ensures forall i :: 0 <= i < |ids| ==> Rebuilt(list, ids)[i] == FindById(list, ids[i]).value
  {
    if ids != [] {
      var p := ids[..|ids| - 1];
      forall i | 0 <= i < |p| ensures FindById(list, p[i]).Some? {
        assert p[i] == ids[i];
      }
      RebuiltAllFound(list, p);
      var r := Rebuilt(list, ids);
      assert r == Rebuilt(list, p) + [FindById(list, ids[|ids| - 1]).value];
      forall i | 0 <= i < |ids| ensures r[i] == FindById(list, ids[i]).value {
        if i < |p| {
          assert p[i] == ids[i];
        }
      }
    }
  }

  /** The list watcher's step: translation 131, when the list has it, is appended to the selection. */
  function With131(selected: seq<Translation>, list: seq<Translation>): seq<Translation> {
    selected + Found(list, DefaultTranslationId)
  }

  /** The list watcher checks nothing: firing twice on a list with 131 selects it twice more. */
  lemma ListWatcherTwice(selected: seq<Translation>, list: seq<Translation>)
    requires FindById(list, DefaultTranslationId).Some?
    ensures var t := FindById(list, DefaultTranslationId).value;
      && With131(With131(selected, list), list) == selected + [t, t]
      && t.id == 131
  {
  }

  class TranslationsStore {
    var isLoading: bool
    var translationsList: seq<Translation>
    var selectedTranslationIds: seq<nat>
    var selectedTranslations: seq<Translation>

    /** The initial state: translation 131 selected by id, nothing loaded. */
    constructor()
      ensures !isLoading && translationsList == [] && selectedTranslations == []
      ensures selectedTranslationIds == [DefaultTranslationId]
      ensures IdsString(selectedTranslationIds) == "131"
    {
      isLoading := false;
      translationsList := [];
      selectedTranslationIds := [DefaultTranslationId];
      selectedTranslations := [];
      IdsStringSpec([]);
    }

    /** `selectedTranslationsIdsString`. */
    function SelectedIdsString(): string
      reads this
    {
      IdsString(selectedTranslationIds)
    }

    /** `translations`. */
    function TranslationsByLanguage(): map<string, seq<Translation>>
      reads this
    {
      GroupByLanguage(translationsList)
    }

    /** `groupedTranslationsAuthors`. */
    function GroupedTranslationsAuthors(): Option<string>
      reads this
    {
      GroupedAuthors(Authors(selectedTranslations))
    }

    /** `getTranslations` up to the load: loading starts. A failed load ends here, with loading never cleared. */
    method GetTranslations()
      modifies this
      ensures isLoading
      ensures translationsList == old(translationsList) && selectedTranslations == old(selectedTranslations)
      ensures selectedTranslationIds == old(selectedTranslationIds)
    {
      isLoading := true;
    }

    /**
     * The rest of `getTranslations`, once the bundled file has loaded: a copy
     * of every loaded translation is appended, without clearing the list, and
     * loading ends. A failed load never reaches this point: the rejection of
     * the dynamic import escapes the synchronous `try` of `getAllTranslations`,
     * its promise never settles, and the store stays as `GetTranslations` left it.
     */
    method ReceiveTranslations(fetched: seq<Translation>)
      modifies this
      ensures translationsList == old(translationsList) + fetched
      ensures !isLoading
      ensures selectedTranslations == old(selectedTranslations) && selectedTranslationIds == old(selectedTranslationIds)
    {
      var i := 0;
      while i < |fetched|
        invariant 0 <= i <= |fetched|
        invariant translationsList == old(translationsList) + fetched[..i]
        invariant selectedTranslations == old(selectedTranslations)
        invariant selectedTranslationIds == old(selectedTranslationIds)
      {
        translationsList := translationsList + [fetched[i]];
        assert fetched[..i + 1] == fetched[..i] + [fetched[i]];
        i := i + 1;
      }
      assert fetched[..i] == fetched;
      isLoading := false;
    }

    /** The reader changes the selected ids. */
    method SelectIds(ids: seq<nat>)
      modifies this
      ensures selectedTranslationIds == ids
      ensures isLoading == old(isLoading) && translationsList == old(translationsList)
      ensures selectedTranslations == old(selectedTranslations)
    {
      selectedTranslationIds := ids;
    }

    /**
     * The ids watcher: the selection is emptied and rebuilt, id by id, from
     * the first list entry with that id; ids not in the list are skipped.
     */
    method OnIdsChange()
      modifies this
      ensures selectedTranslations == Rebuilt(translationsList, selectedTranslationIds)
      ensures isLoading == old(isLoading) && translationsList == old(translationsList)
      ensures selectedTranslationIds == old(selectedTranslationIds)
    {
      selectedTranslations := [];
      var ids := selectedTranslationIds;
      var i := 0;
      while i < |ids|
        invariant 0 <= i <= |ids|
        invariant selectedTranslations == Rebuilt(translationsList, ids[..i])
        invariant isLoading == old(isLoading) && translationsList == old(translationsList)
        invariant selectedTranslationIds == ids
      {
        assert ids[..i + 1][..i] == ids[..i];
        var found := FindById(translationsList, ids[i]);
        if found.Some? {
          selectedTranslations := selectedTranslations + [found.value];
        }
        i := i + 1;
      }
      assert ids[..i] == ids;
    }

    /** The list watcher: translation 131 is appended to the selection when the list has it. */
    method OnListChange()
      modifies this
      ensures selectedTranslations == With131(old(selectedTranslations), translationsList)
      ensures isLoading == old(isLoading) && translationsList == old(translationsList)
      ensures selectedTranslationIds == old(selectedTranslationIds)
    {
      var found := FindById(translationsList, DefaultTranslationId);
      if found.Some? {
        selectedTranslations := selectedTranslations + [found.value];
      }
    }
  }

  /**
   * `getTranslations` run twice on the same bundled file: nothing clears the
   * list, so every loaded translation is held twice, the second copy after
   * the first, and the selection is untouched.
   */
  method LoadTwice(store: TranslationsStore, fetched: seq<Translation>)
    modifies store
    ensures store.translationsList == old(store.translationsList) + fetched + fetched
    ensures |store.translationsList| == |old(store.translationsList)| + 2 * |fetched|
    ensures !store.isLoading
    ensures store.selectedTranslations == old(store.selectedTranslations)
    ensures store.selectedTranslationIds == old(store.selectedTranslationIds)
  {
    store.GetTranslations();
    store.ReceiveTranslations(fetched);
    store.GetTranslations();
    store.ReceiveTranslations(fetched);
  }
}

=== FILE: types.dfy ===
/**
 * The records the stores hold, after the declarations under src/types. Only the fields some
 * modelled operation reads or writes are kept; text fields the stores only
 * pass through (words, translations, tajweed text, audio timings) are left
 * out. `null` and missing optional fields are `None`.
 */
module Types {
  import opened Wrappers

  /** `Pagination`: the six numbers of a paged API response. */
  datatype Pagination = Pagination(
    perPage: int, currentPage: int, nextPage: int,
    totalPages: int, totalRecords: int, totalRecordsFetched: int)

  /** `Verse`; `bookmarked` is optional and the stores set it to false on every verse they keep. */
  datatype Verse = Verse(
    id: int, chapterId: int, verseNumber: int, verseKey: string,
    juzNumber: int, pageNumber: int, hizbNumber: int, textUthmani: string,
    bookmarked: Option<bool>)

  datatype TranslatedName = TranslatedName(name: string, languageName: string)

  /** `ChapterSchema`: a chapter as the `/chapters` endpoint sends it. */
  datatype ChapterSchema = ChapterSchema(
    id: int, revelationPlace: string, revelationOrder: int, bismillahPre: bool,
    nameSimple: string, nameComplex: string, nameArabic: string,
    versesCount: int, pages: seq<int>, translatedName: TranslatedName)

  /**
   * `Chapter`: a chapter as the stores keep it, with the verses fetched so
   * far and the last pagination record (`chapterInfo` and `audioFile` are
   * always `null` in the stores and are not kept).
   */
  datatype Chapter = Chapter(
    id: int, revelationPlace: string, revelationOrder: int, bismillahPre: bool,
    nameSimple: string, nameComplex: string, nameArabic: string,
    versesCount: int, pages: seq<int>, translatedName: TranslatedName,
    verses: seq<Verse>, pagination: Option<Pagination>)

  /** A fetched chapter entered into a store: same fields, no verses, no pagination. */
  function ChapterOf(c: ChapterSchema): (r: Chapter)
    ensures r.id == c.id && r.nameSimple == c.nameSimple && r.nameArabic == c.nameArabic
    ensures r.bismillahPre == c.bismillahPre && r.verses == [] && r.pagination == None
  {
    Chapter(c.id, c.revelationPlace, c.revelationOrder, c.bismillahPre,
            c.nameSimple, c.nameComplex, c.nameArabic, c.versesCount, c.pages,
            c.translatedName, [], None)
  }

  /**
   * `Juz`. The API's `verse_mapping` is an object from chapter number to a
   * "from-to" verse range.
   */
  datatype Juz = Juz(
    id: int, juzNumber: int, firstVerseId: int, lastVerseId: int,
    verseMapping: map<nat, string>, versesCount: int,
    verses: seq<Verse>, pagination: Option<Pagination>)

  /** `Pages`: a mushaf page and the verses fetched for it. */
  datatype Page = Page(pageNumber: int, verses: seq<Verse>)

  datatype RecitationStyle = RecitationStyle(name: string, languageName: string, description: string)

  /** `Recitations`: a reciter and a recitation style. */
  datatype Recitation = Recitation(
    id: int, reciterId: int, name: string, translatedName: TranslatedName,
    style: RecitationStyle, qirat: TranslatedName)

  /** `AudioFile`: the audio of one chapter (verse timings are not kept). */
  datatype AudioFile = AudioFile(id: int, chapterId: int, audioUrl: string, duration: int)

  /** `Translation`: a translation resource. */
  datatype Translation = Translation(
    id: int, name: string, authorName: string, slug: Option<string>,
    languageName: string, translatedName: TranslatedName)

  /** `Tafsirs`: a tafsir resource. */
  datatype Tafsir = Tafsir(
    id: int, name: string, authorName: string, slug: string,
    languageName: string, translatedName: TranslatedName)

  /** `SingleTafsir`: the tafsir text of one verse (its word list is not kept). */
  datatype SingleTafsir = SingleTafsir(resourceId: int, resourceName: string, slug: string, text: string)
}

=== FILE: urls.dfy ===
/**
 * src/axios/url.ts: the request paths and query strings of the API. The
 * API base read from the environment is a parameter, and so are the three
 * field lists `urlFields` joins (they come from src/utils/verse.ts, whose
 * definitions of them are not part of this model).
 */
module Urls {
  import opened Wrappers
  import Numbers
  import JsString

  /** `audioUrl`: the base and "/audio/reciters/". */
  function AudioUrl(base: string): string {
    base + "/audio/reciters/"
  }

  /** `recitationsUrl`. */
  function RecitationsUrl(base: string): string {
    AudioUrl(base)
  }

  const ChapterParam: string := "/audio_files?chapter="
  const SegmentsParam: string := "&segments=true"

  /** `audioRecitersUrl(reciterID, audioID)`. */
  function AudioRecitersUrl(base: string, reciterId: int, audioId: int): string {
    AudioUrl(base) + Numbers.IntToString(reciterId) + ChapterParam + Numbers.IntToString(audioId) + SegmentsParam
  }

  /** Where the parts of a five-part concatenation start and end, and the first characters after the second and fourth. */
  lemma FiveParts(a: string, b: string, c: string, d: string, e: string, u: string)
    requires u == a + b + c + d + e
    ensures u[..|a|] == a && u[|a|..|a| + |b|] == b
    ensures u[|a| + |b|..|a| + |b| + |c|] == c
    ensures u[|a| + |b| + |c|..|a| + |b| + |c| + |d|] == d
    ensures u[|u| - |e|..] == e
    ensures |c| > 0 ==> u[|a| + |b|] == c[0]
    ensures |e| > 0 ==> u[|a| + |b| + |c| + |d|] == e[0]
  {
  }

  /**
   * The reciter URL is the audio URL, the reciter id in decimal,
   * "/audio_files?chapter=", the chapter id in decimal and
   * "&segments=true"; each id is followed by "/" or "&", which is not a
   * digit, so both read back as written.
   */
  lemma AudioRecitersUrlSpec(base: string, reciterId: nat, audioId: nat)
    ensures var u := AudioRecitersUrl(base, reciterId, audioId);
      var r, d := Numbers.NatToString(reciterId), Numbers.NatToString(audioId);
      var a := |AudioUrl(base)|;
      var c := a + |r| + |ChapterParam|;
      && u[..a] == AudioUrl(base)
      && u[a..a + |r|] == r && u[a + |r|] == '/'
      && u[a + |r|..c] == ChapterParam
      && u[c..c + |d|] == d && u[c + |d|] == '&'
      && u[|u| - |SegmentsParam|..] == SegmentsParam
  {
    var r, d := Numbers.NatToString(reciterId), Numbers.NatToString(audioId);
    assert Numbers.IntToString(reciterId) == r && Numbers.IntToString(audioId) == d;
    DelimitedParts(AudioUrl(base), r, ChapterParam, d, SegmentsParam, AudioRecitersUrl(base, reciterId, audioId));
  }

  /** The parts of a five-part concatenation, with the characters that follow the second and the fourth. */
  lemma DelimitedParts(a: string, r: string, c: string, d: string, e: string, u: string)
    requires u == a + r + c + d + e
    requires |c| > 0 && |e| > 0
    ensures var k := |a| + |r| + |c|;
      && u[..|a|] == a
      && u[|a|..|a| + |r|] == r && u[|a| + |r|] == c[0]
      && u[|a| + |r|..k] == c
      && u[k..k + |d|] == d && u[k + |d|] == e[0]
      && u[|u| - |e|..] == e
  {
    FiveParts(a, r, c, d, e, u);
  }

  /** A locale parameter with the default "en": only a missing argument takes the default. */
  function LocaleOrDefault(locale: Option<string>): string {
    if locale.Some? then locale.value else "en"
  }

  /** `makeChapterInfoUrl(id, locale)`. */
  function MakeChapterInfoUrl(id: int, locale: Option<string>): string {
    "/chapters/" + Numbers.IntToString(id) + "/info?language=" + LocaleOrDefault(locale)
  }

  /** `makeTranslationsUrl(locale)`. */
  function MakeTranslationsUrl(locale: Option<string>): string {
    "/resources/translations?language=" + LocaleOrDefault(locale)
  }

  /**
   * The chapter info path holds the chapter id in decimal, followed by a
   * character that is not a digit, and ends with the language; with no
   * locale given, the language is "en".
   */
  lemma MakeChapterInfoUrlSpec(id: nat, locale: Option<string>)
    ensures var u := MakeChapterInfoUrl(id, locale);
      var d := Numbers.NatToString(id);
      && u[..10] == "/chapters/"
      && u[10..10 + |d|] == d && u[10 + |d|] == '/'
      && u[|u| - |LocaleOrDefault(locale)|..] == LocaleOrDefault(locale)
    ensures MakeChapterInfoUrl(id, None) == MakeChapterInfoUrl(id, Some("en"))
  {
    var d, l := Numbers.NatToString(id), LocaleOrDefault(locale);
    assert Numbers.IntToString(id) == d;
    FiveParts("/chapters/", d, "/info?language=", l, [], MakeChapterInfoUrl(id, locale));
  }

  /** The translations path ends with the language, "en" when none is given. */
  lemma MakeTranslationsUrlSpec(locale: Option<string>)
    ensures var u := MakeTranslationsUrl(locale);
      u[..33] == "/resources/translations?language=" && u[33..] == LocaleOrDefault(locale)
    ensures MakeTranslationsUrl(None) == "/resources/translations?language=en"
  {
  }

  /** `urlFields`: the word, translation-field, field and word-field parameters. */
  function UrlFields(translationFields: seq<string>, verseFields: seq<string>, wordFields: seq<string>): (r: string)
    ensures |r| > 0 && r[0] == '&'
  {
    "&words=true&translation_fields=" + JsString.Join(translationFields, ",")
      + "&fields=" + JsString.Join(verseFields, ",")
      + "&word_fields=" + JsString.Join(wordFields, ",")
  }

  const PageParam: string := "&page="

  /** `currentPage`: "&page=" and the page, when a page other than 0 is given. */
  function PageSegment(page: Option<int>): string {
    if page.Some? && page.value != 0 then PageParam + Numbers.IntToString(page.value) else ""
  }


  /** The path of `getVersesUrl` and its `translations` parameter. */
  function VersesPath(key: string, id: string, translations: string): string {
    "/verses/" + key + "/" + id + "?translations=" + translations
  }


  /** The translations are followed by "&" and then by the fields, which start with another "&". */
  lemma VersesUrlDoubleAmpersand(key: string, id: string, translations: string, page: Option<int>,
                                 limit: Option<int>, tf: seq<string>, vf: seq<string>, wf: seq<string>)
    ensures var h := VersesPath(key, id, translations);
      var u := GetVersesUrl(key, id, translations, page, limit, UrlFields(tf, vf, wf));
      |u| > |h| + 1 && u[..|h|] == h && u[|h|] == '&' && u[|h| + 1] == '&'
  {
    var h := VersesPath(key, id, translations);
    var f := UrlFields(tf, vf, wf);
    FiveParts(h, "&", f, PageSegment(page), LimitSegment(limit), GetVersesUrl(key, id, translations, page, limit, f));
    var rest := "&" + (f + PageSegment(page) + LimitSegment(limit));
    assert rest[0] == '&' && rest[1] == f[0];
  }

  /** A page or a limit of 0 is the same as none. */
  lemma VersesUrlZero(key: string, id: string, translations: string, page: Option<int>, limit: Option<int>,
                      fields: string)
    ensures GetVersesUrl(key, id, translations, Some(0), limit, fields)
         == GetVersesUrl(key, id, translations, None, limit, fields)
    ensures GetVersesUrl(key, id, translations, page, Some(0), fields)
         == GetVersesUrl(key, id, translations, page, None, fields)
  {
  }

  /** A page other than 0 adds "&page=" and the page in decimal right after the fields. */
  lemma VersesUrlPage(key: string, id: string, translations: string, page: nat, limit: Option<int>, fields: string)
    requires page != 0
    ensures var q := VersesQuery(key, id, translations, fields);
      var u := GetVersesUrl(key, id, translations, Some(page), limit, fields);
      var d := Numbers.NatToString(page);
      var p := |q| + |PageParam|;
      && u[..|q|] == q && u[|q|..p] == PageParam && u[p..p + |d|] == d
      && (p + |d| == |u| || u[p + |d|] == '&')
  {
    var q := VersesQuery(key, id, translations, fields);
    var d, l := Numbers.NatToString(page), LimitSegment(limit);
    assert l == [] || l[0] == '&' by {
      if l != [] {
        assert l == PerPageParam + Numbers.IntToString(limit.value);
      }
    }
    assert PageSegment(Some(page)) == PageParam + d by {
      assert Numbers.IntToString(page) == d;
    }
    SegmentParts(q, PageParam, d, l, GetVersesUrl(key, id, translations, Some(page), limit, fields));
  }

  /** Where a segment made of a name and a value sits between a front and a rest. */
  lemma SegmentParts(q: string, p: string, d: string, l: string, u: string)
    requires u == q + (p + d) + l
    ensures u[..|q|] == q && u[|q|..|q| + |p|] == p && u[|q| + |p|..|q| + |p| + |d|] == d
    ensures |q| + |p| + |d| == |u| || u[|q| + |p| + |d|] == l[0]
  {
  }

  const PerPageParam: string := "&per_page"

  /** `currentLimit`: "&per_page" and the limit, with no "=", when a limit other than 0 is given. */
  function LimitSegment(limit: Option<int>): string {
    if limit.Some? && limit.value != 0 then PerPageParam + Numbers.IntToString(limit.value) else ""
  }

  /** The path and query of `getVersesUrl` before the page and limit segments. */
  function VersesQuery(key: string, id: string, translations: string, fields: string): string {
    VersesPath(key, id, translations) + "&" + fields
  }

  /** `getVersesUrl(key, id, translations, page, limit)`; `id` is given as it is written into the path. */
  function GetVersesUrl(key: string, id: string, translations: string, page: Option<int>, limit: Option<int>,
                        fields: string): string {
    VersesQuery(key, id, translations, fields) + PageSegment(page) + LimitSegment(limit)
  }

  /**
   * A limit other than 0 ends the URL with "&per_page" directly followed by
   * its digits: the query gets a parameter named after the number, and
   * `per_page` gets no value.
   */
  lemma VersesUrlLimit(key: string, id: string, translations: string, page: Option<int>, limit: nat, fields: string)
    requires limit != 0
    ensures var u := GetVersesUrl(key, id, translations, page, Some(limit), fields);
      var d := Numbers.NatToString(limit);
      && u[|u| - |d| - |PerPageParam|..] == PerPageParam + d
      && Numbers.IsDigit(u[|u| - |d|]) && u[|u| - |d|] != '='
  {
    var u := GetVersesUrl(key, id, translations, page, Some(limit), fields);
    var d := Numbers.NatToString(limit);
    assert Numbers.IntToString(limit) == d;
    var front := VersesQuery(key, id, translations, fields) + PageSegment(page);
    assert u == front + (PerPageParam + d);
    assert u[|u| - |d|] == d[0];
  }

  const PerPageValueParam: string := "&per_page="

  /** The limit segment with the "=" the API's `per_page` parameter needs. */
  function LimitSegmentWithValue(limit: Option<int>): string {
    if limit.Some? && limit.value != 0 then PerPageValueParam + Numbers.IntToString(limit.value) else ""
  }

  /** `getVersesUrl` with `per_page` given a value. */
  function GetVersesUrlWithLimit(key: string, id: string, translations: string, page: Option<int>, limit: Option<int>,
                                 fields: string): string {
    VersesQuery(key, id, translations, fields) + PageSegment(page) + LimitSegmentWithValue(limit)
  }

  /** With the "=" in place, a limit other than 0 ends the URL as the value of `per_page`. */
  lemma GetVersesUrlWithLimitSpec(key: string, id: string, translations: string, page: Option<int>, limit: nat,
                                  fields: string)
    requires limit != 0
    ensures var u := GetVersesUrlWithLimit(key, id, translations, page, Some(limit), fields);
      var d := Numbers.NatToString(limit);
      var f := |u| - |d|;
      && u[f - |PerPageValueParam|..f] == PerPageValueParam && u[f - 1] == '='
      && u[f..] == d
  {
    var u := GetVersesUrlWithLimit(key, id, translations, page, Some(limit), fields);
    var d := Numbers.NatToString(limit);
    var front := VersesQuery(key, id, translations, fields) + PageSegment(page);
    assert LimitSegmentWithValue(Some(limit)) == PerPageValueParam + d by {
      assert Numbers.IntToString(limit) == d;
    }
    assert PerPageValueParam[|PerPageValueParam| - 1] == '=';
    EndParts(front, PerPageValueParam, d, u);
  }

  /** Where the last two parts of a three-part concatenation sit, counted from its end. */
  lemma EndParts(front: string, p: string, d: string, u: string)
    requires u == front + (p + d)
    ensures |u| - |d| - |p| >= 0
    ensures u[|u| - |d| - |p|..|u| - |d|] == p && u[|u| - |d|..] == d
    ensures |p| > 0 ==> u[|u| - |d| - 1] == p[|p| - 1]
  {
  }

  /** Without a limit the corrected URL is the URL `getVersesUrl` builds. */
  lemma GetVersesUrlWithLimitAgrees(key: string, id: string, translations: string, page: Option<int>, fields: string)
    ensures GetVersesUrlWithLimit(key, id, translations, page, None, fields)
         == GetVersesUrl(key, id, translations, page, None, fields)
    ensures GetVersesUrlWithLimit(key, id, translations, page, Some(0), fields)
         == GetVersesUrl(key, id, translations, page, Some(0), fields)
  {
  }
}

=== FILE: verse.dfy ===
/**
 * The verse-mapping helpers of src/utils/verse.ts. A juz's verse mapping is
 * an object from chapter numbers to "from-to" verse ranges; `for ... in`
 * visits integer-like keys in ascending numeric order, so the mapping is a
 * `map<nat, string>` whose first entry is the one with the least key.
 */
module Verse {
  import opened Wrappers
  import JsString
  import Numbers

  /** Every non-empty set of natural numbers has a least element. */
  lemma {:induction false} HasLeast(keys: set<nat>) returns (k: nat)
    requires keys != {}
    ensures k in keys && forall j :: j in keys ==> k <= j
  {
    var x :| x in keys;
    var others := keys - {x};
    k := x;
    if others != {} {
      var m := HasLeast(others);
      if m < x {
        k := m;
      }
    }
    forall j | j in keys ensures k <= j {
      if j != x { assert j in others; }
    }
  }

  lemma LeastExists(keys: set<nat>)
    requires keys != {}
    ensures exists k :: k in keys && forall j :: j in keys ==> k <= j
  {
    var k := HasLeast(keys);
  }

  /** The least key: the first one `for ... in` visits. */
  function LeastKey(keys: set<nat>): (k: nat)
    requires keys != {}
    ensures k in keys && forall j :: j in keys ==> k <= j
  {
    LeastExists(keys);
    var k :| k in keys && forall j :: j in keys ==> k <= j;
    k
  }

  /**
   * `getFirstVerseNumberInJuz(versesMap)`: `Number` of the text before the
   * first "-" of the first entry; `undefined` without a mapping or for an
   * empty one.
   */
  function GetFirstVerseNumberInJuz(versesMap: Option<map<nat, string>>): (r: Option<Numbers.JsNumber>)
    ensures r.None? <==> versesMap.None? || versesMap.value == map[]
  {
    if versesMap.None? || versesMap.value.Keys == {} then None
    else
      var m := versesMap.value;
      Some(Numbers.ToNumber(JsString.Split(m[LeastKey(m.Keys)], '-')[0]))
  }

  /**
   * For an entry "a-b" (or just "a") under the least key, the result is `a`;
   * the entries under larger keys play no part.
   */
  lemma FirstVerseNumber(m: map<nat, string>, chapter: nat, from: nat, rest: string)
    requires chapter in m && forall j :: j in m ==> chapter <= j
    requires m[chapter] == Numbers.NatToString(from) + "-" + rest || m[chapter] == Numbers.NatToString(from)
    ensures GetFirstVerseNumberInJuz(Some(m)) == Some(Numbers.Int(from))
  {
    var a := Numbers.NatToString(from);
    assert '-' !in a by {
      forall i | 0 <= i < |a| ensures a[i] != '-' { assert Numbers.IsDigit(a[i]); }
    }
    JsString.SplitFirst(a, rest, '-');
    assert LeastKey(m.Keys) == chapter;
    Numbers.NatToStringValue(from);
  }

  /** `isVerseKeyWithinRanges(verseKey, range)`: exact membership; `undefined` without a list. */
  function IsVerseKeyWithinRanges(verseKey: string, range: Option<seq<string>>): (r: Option<bool>)
    ensures r.None? <==> range.None?
    ensures r.Some? ==> (r.value <==> exists i :: 0 <= i < |range.value| && range.value[i] == verseKey)
  {
    if range.None? then None else Some(verseKey in range.value)
  }

  /** A key that lies inside a "from-to" range string is not matched by that string. */
  lemma KeyInsideRangeNotMatched(key: string, ranges: seq<string>)
    requires key == "2:5" && ranges == ["2:1-2:10"]
    ensures IsVerseKeyWithinRanges(key, Some(ranges)) == Some(false)
  {
    assert |ranges[0]| != |key|;
  }
}

=== FILE: verse_merge.dfy ===
/**
 * How the stores merge one page of fetched verses into the verse list of a
 * chapter, juz or page. Each store pushes the fetched verses one by one,
 * with `bookmarked: false`, and each has its own rule for skipping a verse:
 * - src/stores/ChapterStore.ts:106 skips when some verse already held has an
 *   `id` equal to the CHAPTER id (a verse id is compared with a chapter id);
 * - src/stores/SurahStore.ts:87-89 and src/stores/JuzStore.ts:103-105 skip
 *   when some verse already held has the fetched verse's `verse_key`;
 * - src/stores/PageStore.ts:39-41 never skips.
 * The merges are defined one verse at a time, as the `forEach` runs; the
 * store methods run the same steps in a loop.
 */
module VerseMerge {
  import opened Wrappers
  import opened Types

  /** `{ ...verse, bookmarked: false }`. */
  function Unbookmarked(v: Verse): (r: Verse)
    ensures r.bookmarked == Some(false)
    ensures r.id == v.id && r.verseKey == v.verseKey && r.chapterId == v.chapterId && r.verseNumber == v.verseNumber
  {
    v.(bookmarked := Some(false))
  }

  /** Every fetched verse, marked as not bookmarked. */
  function AllUnbookmarked(vs: seq<Verse>): (r: seq<Verse>)
    ensures |r| == |vs|
  {
    seq(|vs|, i requires 0 <= i < |vs| => Unbookmarked(vs[i]))
  }

  /** `vs.find(v => v.id === id)` finds something. */
  predicate HasId(vs: seq<Verse>, id: int) {
    exists i :: 0 <= i < |vs| && vs[i].id == id
  }

  /** `vs.find(v => v.verse_key === key)` finds something. */
  predicate HasKey(vs: seq<Verse>, key: string) {
    exists i :: 0 <= i < |vs| && vs[i].verseKey == key
  }

  // ------------------------------------------------- rule of ChapterStore.ts

  /** One step of src/stores/ChapterStore.ts:106-108: push unless a verse has the chapter's id as its id. */
  function StepById(held: seq<Verse>, chapterId: int, v: Verse): seq<Verse> {
    if HasId(held, chapterId) then held else held + [Unbookmarked(v)]
  }

  /** The verses of a chapter after the fetched `incoming` went through `StepById`, first to last. */
  function MergeById(held: seq<Verse>, chapterId: int, incoming: seq<Verse>): (r: seq<Verse>)
    ensures |held| <= |r| <= |held| + |incoming|
    decreases |incoming|
  {
    if incoming == [] then held
    else MergeById(StepById(held, chapterId, incoming[0]), chapterId, incoming[1..])
  }

  /**
   * How many fetched verses the chapter rule lets through: none once a verse
   * with the chapter's id is held; otherwise every verse up to and including
   * the first fetched one whose id is the chapter id (all of them if none is).
   */
  function AcceptedById(held: seq<Verse>, chapterId: int, incoming: seq<Verse>): (n: nat)
    ensures n <= |incoming|
    decreases |incoming|
  {
    if HasId(held, chapterId) || incoming == [] then 0
    else if incoming[0].id == chapterId then 1
    else 1 + AcceptedById(held + [Unbookmarked(incoming[0])], chapterId, incoming[1..])
  }

  /** Appending one verse: `HasId` holds when it held before or the new verse has the id. */
  lemma HasIdSnoc(held: seq<Verse>, v: Verse, id: int)
    ensures HasId(held + [v], id) <==> HasId(held, id) || v.id == id
  {
    if HasId(held, id) {
      var i :| 0 <= i < |held| && held[i].id == id;
      assert (held + [v])[i].id == id;
    }
    if HasId(held + [v], id) {
      var i :| 0 <= i < |held + [v]| && (held + [v])[i].id == id;
      if i < |held| { assert held[i].id == id; }
    }
    if v.id == id { assert (held + [v])[|held|].id == id; }
  }

  /**
   * The chapter rule appends exactly the first `AcceptedById` fetched
   * verses: nothing once a verse with the chapter's id is held, and every
   * later verse is dropped once one with that id has come in.
   */
  lemma {:induction false} MergeByIdSpec(held: seq<Verse>, chapterId: int, incoming: seq<Verse>)
    ensures MergeById(held, chapterId, incoming)
         == held + AllUnbookmarked(incoming[..AcceptedById(held, chapterId, incoming)])
    decreases |incoming|
  {
    var n := AcceptedById(held, chapterId, incoming);
    if incoming == [] || HasId(held, chapterId) {
      MergeByIdKeeps(held, chapterId, incoming);
      assert AllUnbookmarked(incoming[..n]) == [];
    } else if incoming[0].id == chapterId {
      MergeByIdStops(held, chapterId, incoming);
    } else {
      var next := held + [Unbookmarked(incoming[0])];
      MergeByIdSpec(next, chapterId, incoming[1..]);
      MergeByIdStep(held, chapterId, incoming);
    }
  }

  /** A fetched verse with the chapter's id is pushed, and nothing after it. */
  lemma MergeByIdStops(held: seq<Verse>, chapterId: int, incoming: seq<Verse>)
    requires incoming != [] && !HasId(held, chapterId) && incoming[0].id == chapterId
    ensures AcceptedById(held, chapterId, incoming) == 1
    ensures MergeById(held, chapterId, incoming) == held + AllUnbookmarked(incoming[..1])
  {
    var next := held + [Unbookmarked(incoming[0])];
    HasIdSnoc(held, Unbookmarked(incoming[0]), chapterId);
    MergeByIdKeeps(next, chapterId, incoming[1..]);
    assert AllUnbookmarked(incoming[..1]) == [Unbookmarked(incoming[0])];
  }

  /** A fetched verse with another id is pushed and the merge goes on with the rest. */
  lemma MergeByIdStep(held: seq<Verse>, chapterId: int, incoming: seq<Verse>)
    requires incoming != [] && !HasId(held, chapterId) && incoming[0].id != chapterId
    requires var next := held + [Unbookmarked(incoming[0])];
      MergeById(next, chapterId, incoming[1..])
      == next + AllUnbookmarked(incoming[1..][..AcceptedById(next, chapterId, incoming[1..])])
    ensures MergeById(held, chapterId, incoming)
         == held + AllUnbookmarked(incoming[..AcceptedById(held, chapterId, incoming)])
  {
    var next := held + [Unbookmarked(incoming[0])];
    var n, m := AcceptedById(held, chapterId, incoming), AcceptedById(next, chapterId, incoming[1..]);
    assert n == m + 1 by {
      assert !(HasId(held, chapterId) || incoming == []);
    }
    var a := AllUnbookmarked(incoming[1..][..m]);
    assert MergeById(held, chapterId, incoming) == next + a by {
      assert StepById(held, chapterId, incoming[0]) == next;
    }
    assert AllUnbookmarked(incoming[..n]) == [Unbookmarked(incoming[0])] + a by {
      AllUnbookmarkedCons(incoming, n);
    }
    assert next + a == held + ([Unbookmarked(incoming[0])] + a);
  }

  /** Marking a prefix of the fetched verses, one verse at a time. */
  lemma AllUnbookmarkedCons(incoming: seq<Verse>, n: nat)
    requires 1 <= n <= |incoming|
    ensures AllUnbookmarked(incoming[..n]) == [Unbookmarked(incoming[0])] + AllUnbookmarked(incoming[1..][..n - 1])
  {
    assert incoming[..n] == [incoming[0]] + incoming[1..][..n - 1];
  }

  /** Once a verse whose id is the chapter id is held, the chapter rule adds nothing. */
  lemma {:induction false} MergeByIdKeeps(held: seq<Verse>, chapterId: int, incoming: seq<Verse>)
    requires HasId(held, chapterId) || incoming == []
    ensures MergeById(held, chapterId, incoming) == held
    decreases |incoming|
  {
    if incoming != [] {
      MergeByIdKeeps(held, chapterId, incoming[1..]);
    }
  }

  /**
   * When no verse, held or fetched, has the chapter's id (the usual case,
   * since verse ids run across the whole Quran), every fetched verse is
   * appended: fetching the same page twice holds each of its verses twice.
   */
  lemma MergeByIdRefetch(held: seq<Verse>, chapterId: int, incoming: seq<Verse>)
    requires !HasId(held, chapterId) && !HasId(incoming, chapterId)
    ensures MergeById(held, chapterId, incoming) == held + AllUnbookmarked(incoming)
    ensures MergeById(MergeById(held, chapterId, incoming), chapterId, incoming)
         == held + AllUnbookmarked(incoming) + AllUnbookmarked(incoming)
  {
    AcceptAll(held, chapterId, incoming);
    var once := held + AllUnbookmarked(incoming);
    MergeByIdSpec(held, chapterId, incoming);
    forall i | 0 <= i < |once| ensures once[i].id != chapterId {
      if i >= |held| {
        assert once[i].id == incoming[i - |held|].id;
      } else {
        assert once[i] == held[i];
      }
    }
    AcceptAll(once, chapterId, incoming);
    MergeByIdSpec(once, chapterId, incoming);
    assert incoming[..|incoming|] == incoming;
  }

  /** With the chapter's id nowhere, every fetched verse is accepted. */
  lemma {:induction false} AcceptAll(held: seq<Verse>, chapterId: int, incoming: seq<Verse>)
    requires !HasId(held, chapterId) && !HasId(incoming, chapterId)
    ensures AcceptedById(held, chapterId, incoming) == |incoming|
    decreases |incoming|
  {
    if incoming != [] {
      HasIdSnoc(held, Unbookmarked(incoming[0]), chapterId);
      forall i | 0 <= i < |incoming[1..]| ensures incoming[1..][i].id != chapterId {
        assert incoming[1..][i] == incoming[i + 1];
      }
      AcceptAll(held + [Unbookmarked(incoming[0])], chapterId, incoming[1..]);
    }
  }

  // --------------------------------------------- rule of Surah and Juz stores

  /** One step of src/stores/SurahStore.ts:87-91: push unless a verse with the same key is held. */
  function StepByKey(held: seq<Verse>, v: Verse): seq<Verse> {
    if HasKey(held, v.verseKey) then held else held + [Unbookmarked(v)]
  }

  /** The verses after the fetched `incoming` went through `StepByKey`, first to last. */
  function MergeByKey(held: seq<Verse>, incoming: seq<Verse>): (r: seq<Verse>)
    ensures |held| <= |r| <= |held| + |incoming|
    ensures r[..|held|] == held
    decreases |incoming|
  {
    if incoming == [] then held
    else MergeByKey(StepByKey(held, incoming[0]), incoming[1..])
  }

  /** No two verses share a `verse_key`. */
  predicate UniqueKeys(vs: seq<Verse>) {
    forall i, j :: 0 <= i < j < |vs| ==> vs[i].verseKey != vs[j].verseKey
  }

  /** One step of the key rule keeps keys unique and adds the fetched key, and only it. */
  lemma StepByKeySpec(held: seq<Verse>, v: Verse)
    ensures var r := StepByKey(held, v);
      && (UniqueKeys(held) ==> UniqueKeys(r))
      && (forall key :: HasKey(r, key) <==> HasKey(held, key) || v.verseKey == key)
  {
    var r := StepByKey(held, v);
    if !HasKey(held, v.verseKey) {
      forall key ensures HasKey(r, key) <==> HasKey(held, key) || v.verseKey == key {
        if HasKey(held, key) {
          var j :| 0 <= j < |held| && held[j].verseKey == key;
          assert r[j].verseKey == key;
        }
        if HasKey(r, key) {
          var j :| 0 <= j < |r| && r[j].verseKey == key;
          if j < |held| { assert held[j].verseKey == key; }
        }
        if v.verseKey == key { assert r[|held|].verseKey == key; }
      }
      forall i | 0 <= i < |held| ensures held[i].verseKey != v.verseKey {
      }
    }
  }

  /**
   * The key rule keeps the verses held at their positions, keeps keys
   * unique, holds afterwards exactly the keys held before and the keys
   * fetched, and marks every verse it adds as not bookmarked.
   */
  lemma {:induction false} MergeByKeySpec(held: seq<Verse>, incoming: seq<Verse>)
    ensures var r := MergeByKey(held, incoming);
      && (UniqueKeys(held) ==> UniqueKeys(r))
      && (forall key :: HasKey(r, key) <==> HasKey(held, key) || HasKey(incoming, key))
      && (forall i :: |held| <= i < |r| ==>
            r[i].bookmarked == Some(false) && exists j :: 0 <= j < |incoming| && r[i] == Unbookmarked(incoming[j]))
      && r == held + AllUnbookmarked(NewByKey(held, incoming))
    decreases |incoming|, 1
  {
    if incoming != [] {
      var v, rest := incoming[0], incoming[1..];
      var next := StepByKey(held, v);
      StepByKeySpec(held, v);
      MergeByKeySpec(next, rest);
      HasKeyCons(incoming);
      MergeByKeyAdded(held, incoming);
    }
    MergeByKeyAppends(held, incoming);
  }

  /**
   * The fetched verses the key rule should add, in fetched order: each one
   * whose key is neither held nor carried by an earlier fetched verse, so
   * that of several fetched verses sharing a new key only the first counts.
   */
  function NewByKey(held: seq<Verse>, incoming: seq<Verse>): (r: seq<Verse>)
    ensures |r| <= |incoming|
    decreases |incoming|
  {
    if incoming == [] then []
    else
      var earlier, v := incoming[..|incoming| - 1], incoming[|incoming| - 1];
      NewByKey(held, earlier)
        + (if HasKey(held, v.verseKey) || HasKey(earlier, v.verseKey) then [] else [v])
  }

  /** Merging one more fetched verse is one more step of the key rule. */
  lemma {:induction false} MergeByKeySnoc(held: seq<Verse>, earlier: seq<Verse>, v: Verse)
    ensures MergeByKey(held, earlier + [v]) == StepByKey(MergeByKey(held, earlier), v)
    decreases |earlier|
  {
    if earlier == [] {
      assert (earlier + [v])[1..] == [];
    } else {
      assert (earlier + [v])[1..] == earlier[1..] + [v];
      MergeByKeySnoc(StepByKey(held, earlier[0]), earlier[1..], v);
    }
  }

  /** The key rule appends, marked, exactly the verses `NewByKey` picks, in their fetched order. */
  lemma {:induction false} MergeByKeyAppends(held: seq<Verse>, incoming: seq<Verse>)
    ensures MergeByKey(held, incoming) == held + AllUnbookmarked(NewByKey(held, incoming))
    decreases |incoming|, 0
  {
    if incoming != [] {
      var earlier, v := incoming[..|incoming| - 1], incoming[|incoming| - 1];
      assert incoming == earlier + [v];
      var added, m := NewByKey(held, earlier), MergeByKey(held, earlier);
      MergeByKeyAppends(held, earlier);
      MergeByKeySnoc(held, earlier, v);
      assert HasKey(m, v.verseKey) <==> HasKey(held, v.verseKey) || HasKey(earlier, v.verseKey) by {
        MergeByKeySpec(held, earlier);
      }
      if !(HasKey(held, v.verseKey) || HasKey(earlier, v.verseKey)) {
        assert AllUnbookmarked(added + [v]) == AllUnbookmarked(added) + [Unbookmarked(v)];
      }
    }
  }

  /** A key of a non-empty list is the key of its head or a key of its tail. */
  lemma HasKeyCons(incoming: seq<Verse>)
    requires incoming != []
    ensures forall key :: HasKey(incoming, key) <==> incoming[0].verseKey == key || HasKey(incoming[1..], key)
  {
    var rest := incoming[1..];
    forall key ensures HasKey(incoming, key) <==> incoming[0].verseKey == key || HasKey(rest, key) {
      if HasKey(incoming, key) {
        var j :| 0 <= j < |incoming| && incoming[j].verseKey == key;
        if j > 0 { assert rest[j - 1].verseKey == key; }
      }
      if HasKey(rest, key) {
        var j :| 0 <= j < |rest| && rest[j].verseKey == key;
        assert incoming[j + 1].verseKey == key;
      }
    }
  }

  /** The verses the key rule adds are fetched verses marked as not bookmarked, given that this holds for the tail. */
  lemma MergeByKeyAdded(held: seq<Verse>, incoming: seq<Verse>)
    requires incoming != []
    requires var next := StepByKey(held, incoming[0]);
      var r := MergeByKey(next, incoming[1..]);
      forall i :: |next| <= i < |r| ==>
        r[i].bookmarked == Some(false) && exists j :: 0 <= j < |incoming[1..]| && r[i] == Unbookmarked(incoming[1..][j])
    ensures var r := MergeByKey(held, incoming);
      forall i :: |held| <= i < |r| ==>
        r[i].bookmarked == Some(false) && exists j :: 0 <= j < |incoming| && r[i] == Unbookmarked(incoming[j])
  {
    var next := StepByKey(held, incoming[0]);
    var rest := incoming[1..];
    var r := MergeByKey(held, incoming);
    assert r == MergeByKey(next, rest);
    forall i | |held| <= i < |r|
      ensures r[i].bookmarked == Some(false) && exists j :: 0 <= j < |incoming| && r[i] == Unbookmarked(incoming[j])
    {
      if i < |next| {
        assert r[..|next|] == next;
        assert r[i] == next[i] == Unbookmarked(incoming[0]);
      } else {
        var j :| 0 <= j < |rest| && r[i] == Unbookmarked(rest[j]);
        assert rest[j] == incoming[j + 1];
      }
    }
  }

  /** When every fetched key is already held, the key rule adds nothing. */
  lemma {:induction false} MergeByKeyHeld(held: seq<Verse>, incoming: seq<Verse>)
    requires forall j :: 0 <= j < |incoming| ==> HasKey(held, incoming[j].verseKey)
    ensures MergeByKey(held, incoming) == held
    decreases |incoming|
  {
    if incoming != [] {
      assert HasKey(held, incoming[0].verseKey);
      MergeByKeyHeld(held, incoming[1..]);
    }
  }

  /** Fetching the same verses again changes nothing under the key rule. */
  lemma MergeByKeyIdempotent(held: seq<Verse>, incoming: seq<Verse>)
    ensures MergeByKey(MergeByKey(held, incoming), incoming) == MergeByKey(held, incoming)
  {
    MergeByKeySpec(held, incoming);
    var r := MergeByKey(held, incoming);
    forall j | 0 <= j < |incoming| ensures HasKey(r, incoming[j].verseKey) {
      assert HasKey(incoming, incoming[j].verseKey);
    }
    MergeByKeyHeld(r, incoming);
  }

  /**
   * `getVerseByKey`'s merge (src/stores/SurahStore.ts:126-133): the fetched
   * verse is pushed unless a verse with the REQUESTED key is held.
   */
  function AddUnlessKeyHeld(held: seq<Verse>, requestedKey: string, v: Verse): (r: seq<Verse>)
    ensures HasKey(held, requestedKey) ==> r == held
    ensures !HasKey(held, requestedKey) ==> r == held + [Unbookmarked(v)]
  {
    if HasKey(held, requestedKey) then held else held + [Unbookmarked(v)]
  }

  // ---------------------------------------------------- rule of PageStore.ts

  /** src/stores/PageStore.ts:39-41: every fetched verse is pushed. */
  function StepAll(held: seq<Verse>, v: Verse): seq<Verse> {
    held + [Unbookmarked(v)]
  }

  /** The verses after the fetched `incoming` went through `StepAll`. */
  function MergeAll(held: seq<Verse>, incoming: seq<Verse>): (r: seq<Verse>)
    ensures |r| == |held| + |incoming|
    ensures r[..|held|] == held
    decreases |incoming|
  {
    if incoming == [] then held
    else MergeAll(StepAll(held, incoming[0]), incoming[1..])
  }

  /** The page rule appends every fetched verse; fetching the same page twice doubles them. */
  lemma {:induction false} MergeAllSpec(held: seq<Verse>, incoming: seq<Verse>)
    ensures MergeAll(held, incoming) == held + AllUnbookmarked(incoming)
    decreases |incoming|
  {
    if incoming != [] {
      MergeAllSpec(held + [Unbookmarked(incoming[0])], incoming[1..]);
      assert AllUnbookmarked(incoming) == [Unbookmarked(incoming[0])] + AllUnbookmarked(incoming[1..]);
    }
  }

  /** Fetching the same page twice holds each of its verses twice. */
  lemma MergeAllTwice(held: seq<Verse>, incoming: seq<Verse>)
    ensures MergeAll(MergeAll(held, incoming), incoming) == held + AllUnbookmarked(incoming) + AllUnbookmarked(incoming)
  {
    MergeAllSpec(held, incoming);
    MergeAllSpec(held + AllUnbookmarked(incoming), incoming);
  }
}

=== FILE: wrappers.dfy ===
/** Optional values, the outcome of a request to the remote API, and argument defaults. */
module Wrappers {

  /** A value that may be missing: JavaScript's `undefined` (or `null`) is `None`. */
  datatype Option<T> = None | Some(value: T)

  /**
   * What an awaited HTTP request delivers to its `.then` or `.catch` continuation:
   * the response body, or a transport error (the promise rejected).
   */
  datatype Response<T> = Success(body: T) | NetworkError

  /** Outcome of an async store action: it resolved, or its promise rejected. */
  datatype Outcome = Resolved | Rejected

  /**
   * `x ? x : fallback` on an optional number, as the stores default a page or
   * a page size: a missing or zero argument takes the fallback.
   */
  function OrDefault(x: Option<int>, fallback: int): (r: int)
    ensures (x.None? || x.value == 0) ==> r == fallback
    ensures (x.Some? && x.value != 0) ==> r == x.value
  {
    if x.Some? && x.value != 0 then x.value else fallback
  }
}
